=== FILE: README.md ===
# Minesweeper with a NEAT-style player, modelled in Dafny

The program is a WPF Minesweeper game with an optional AI that learns to
play it. It has two windows. `MinesweeperGame` is `GameLogic.cs`, and the AI
plays in it. `MainWindow` is `MainWindow.xaml.cs`, an older human-only
variant. The AI is a population of 100 small neural networks: 80 input
neurons, a growing list of hidden neurons, and one output neuron. They are
connected by weighted `Connection` objects, and each neuron keeps its
incoming (`Ins`) and outgoing (`Outs`) connections in lists. After each
round of games, every network except the best is mixed with the best one
and mutated.

The model has two halves.

**The board.** A board is a map from (column, row) cells to tiles. Each tile
has `IsBomb`, `CanTell` and the picture it shows. The board also keeps the
`safeSpotsLeft` counter. The model covers:
- the flood fill `SafeReveal`;
- mine placement on the first reveal, which keeps the 3 × 3 block around
  the click free of mines;
- the flag toggle, losing and winning;
- the new-game, mine-count and size handlers of both windows.

The central invariant is that, once the first reveal has happened,
`safeSpotsLeft` is exactly the number of safe tiles still covered. It is
proved for every event of both windows. The rest of the game-side proofs
build on it.

**The network.** The object graph becomes an arena:
- every neuron is a record whose `Ins`/`Outs` lists hold connection ids;
- a map from id to connection holds the weight and the back-pointers
  `Input` and `Output`;
- `Valid` states the shape a network keeps: every listed id is live, every
  live connection is listed exactly once by its own two ends, connections
  go to a higher layer, and the 80 inputs keep their board offsets.

The model covers:
- the linking constructor and `Destroy` of `Connection`;
- the `$id`/`$ref` JSON converter;
- the mutations;
- `AI.Mix`, including the removal of a hidden neuron;
- `AI.Load`, which re-links a deserialised network;
- the population logic of `AI`: the constructors and one `Train`
  generation.

Every operation is proved to keep `Valid`. For `Mix`, the model states what
happens to each neuron's connections. For `Load`, it proves that a saved
valid network comes back with its lists, layers, offsets and weights, and
with its activation indices and score at 0, since the JSON writer does not
write those two. It also proves that loading is idempotent.

Random draws (`System.Random`) are a parameter `rand: nat -> nat`, read at
increasing positions. `Random.Next(n)` is `Draws.Next(d, n) = d % n`, which
is exactly the given draw when that draw is below `n`.

## Model

| member | source | states |
|---|---|---|
| Images.ImageToInput | Minesweeper/Images.cs:35-48 | The input value of a picture exists exactly for covered, flagged and number tiles. It lies in -1 .. 8, and it is -1 exactly for a flag. |
| Images.ImageToInputInjective | Minesweeper/Images.cs:35-48 | Two pictures with the same input value are equal, except that a covered tile and a 0 both read 0. |
| Draws.Next | Minesweeper/Network/Mutations.cs:10 | A draw for `Random.Next(bound)` is below the bound. It is the draw itself when the draw is already in range. |
| Draws.NextSingle | Minesweeper/Network/Mutations.cs:27 | `NextSingle()` lies in [0, 1). |
| Seqs.RemoveFirst | Minesweeper/Network/Connection.cs:24-25 | `List.Remove`: an absent element leaves the list unchanged. A present one shortens it by one, and nothing new appears. |
| Seqs.RemoveFirstSplices | Minesweeper/Network/Connection.cs:24-25 | `List.Remove` cuts out exactly the first occurrence. |
| Seqs.RemoveFirstIsWithout | Minesweeper/Network/Connection.cs:24-25 | On a duplicate-free list, `List.Remove` removes every occurrence. |
| Seqs.RemoveFirstAppended | Minesweeper/Network/Connection.cs:16-26 | Removing an element that was just appended, and was not there before, gives back the original list. |
| Seqs.NoDupCount | Minesweeper/Network/Connection.cs:16-26 | On a duplicate-free list, an element occurs exactly once or not at all. |
| Seqs.Without | Minesweeper/AI.cs:126-127 | Filtering keeps exactly the elements that are outside the removed set. |
| Seqs.WithoutWithout | Minesweeper/AI.cs:126-127 | Filtering twice is the same as filtering once by the union. |
| Seqs.Flatten | Minesweeper/Network/Mutations.cs:19 | `SelectMany`: an element is in the result iff some list holds it. |
| NeuralNetworks.WithOuts | Minesweeper/Network/Neurons.cs:19-40 | Replacing one neuron's `Outs` list changes that list only. Every other list stays as it was. |
| NeuralNetworks.WithIns | Minesweeper/Network/Neurons.cs:38-51 | Replacing one neuron's `Ins` list changes that list only. Every other list stays as it was. |
| NeuralNetworks.ExactlyOneOwner | Minesweeper/Network/Connection.cs:16-20 | In a valid network, a live connection occurs once in the `Outs` of its `Input` and nowhere else. It occurs once in the `Ins` of its `Output` and nowhere else. |
| NeuralNetworks.FreshIdUnlisted | Minesweeper/Network/Connection.cs:16-20 | An id that is not live is in no list. |
| NeuralNetworks.ListsKeptKeepsValid | Minesweeper/Network/Neurons.cs:9-52 | Keeping every list, every connection's ends and the layers, and at most appending well-formed hidden neurons, keeps a network valid. |
| NeuralNetworks.OffsetsInBlock | Minesweeper/Network/NeuralNetwork.cs:20-31 | Every input offset lies in the 9 × 9 block around a tile and is never the centre. |
| NeuralNetworks.OffsetsDistinct | Minesweeper/Network/NeuralNetwork.cs:20-31 | Different input slots look at different offsets. |
| NeuralNetworks.OffsetsCoverBlock | Minesweeper/Network/NeuralNetwork.cs:20-31 | Each of the 80 non-centre cells of the block is the offset of some input, which skips the centre index 40. |
| NeuralNetworks.NewInputs | Minesweeper/Network/NeuralNetwork.cs:22-30 | The constructor's 80 inputs have the offsets above and no connections. |
| NeuralNetworks.NewNetwork | Minesweeper/Network/NeuralNetwork.cs:9-31 | A new network is valid, with 80 inputs, no hidden neuron, no connection and score 0. |
| NeuralNetworks.Process | Minesweeper/Network/NeuralNetwork.cs:33-38 | An output with no incoming connection answers 0 without evaluating anything. Any other network is answered by the floating-point evaluation, shown as `None`. |
| NeuralNetworks.NewNetworkIsNoOp | Minesweeper/Network/NeuralNetwork.cs:33-38 | A fresh network always answers 0, which means "do nothing". |
| Connections.Link | Minesweeper/Network/Connection.cs:16-20 | `new Connection(input, output)` appends one fresh id to the source's `Outs` and to the sink's `Ins`. The new connection has weight 1 and points at both ends, and every other list and connection is kept. |
| Connections.LinkKeepsValid | Minesweeper/Network/Connection.cs:16-20 | Linking a valid network forward, to a higher layer or to the output, keeps it valid. |
| Connections.Destroy | Minesweeper/Network/Connection.cs:22-26 | `Destroy` removes the first occurrence of the id from its source's `Outs` and from its sink's `Ins`, and the connection is no longer live. Every other list and connection is kept. |
| Connections.DestroyKeepsValid | Minesweeper/Network/Connection.cs:22-26 | Destroying a live connection of a valid network keeps it valid, and the id is filtered out of every list. |
| Connections.DestroyUnlinks | Minesweeper/Network/Connection.cs:22-26 | After `Destroy`, no list holds the id. |
| Connections.LinkThenDestroy | Minesweeper/Network/Connection.cs:16-26 | Destroying the connection just created gives back the network, with only the id counter advanced. |
| Connections.LinkThenDestroyLists | Minesweeper/Network/Connection.cs:16-26 | Creating then destroying a connection gives back every `Ins` and `Outs` list. |
| Converter.WriteTwice | Minesweeper/Network/Connection.cs:45-61 | The first write of a connection emits `$id` with the next number and its weight. The second write emits `$ref` to that number. Afterwards the counter has moved by one and the remembered ids are as before. |
| Converter.RefKeepsCounter | Minesweeper/Network/Connection.cs:54-58 | A `$ref` write points at the remembered id and does not advance the counter. |
| Converter.ResetRestartsAtOne | Minesweeper/Network/Connection.cs:32 | After `ResetId`, the next `$id` is 1. |
| Converter.FreshIdsConsecutive | Minesweeper/Network/Connection.cs:45-61 | Over any sequence of writes, the `$id`s are numbered consecutively from the counter, and the counter ends at the last of them. |
| Converter.RefsPointBack | Minesweeper/Network/Connection.cs:45-61 | Every `$ref` written names an id that an earlier `$id` wrote, or one that was already remembered. |
| Mutations.AddHidden | Minesweeper/Network/Mutations.cs:41-47 | `AddHidden` appends one unconnected hidden neuron with the drawn layer and function. `_maxLayer` becomes at least that layer and grows by at most one, and nothing else changes. |
| Mutations.AddHiddenKeepsValid | Minesweeper/Network/Mutations.cs:41-47 | Adding a hidden neuron keeps a network valid. |
| Mutations.Above | Minesweeper/Network/Mutations.cs:63 | `Hidden.Where(h => h.Layer > neuron.Layer)` yields exactly the higher-layer neurons, in list order. |
| Mutations.NeuronOutTarget | Minesweeper/Network/Mutations.cs:61-66 | The chosen destination is a higher-layer hidden neuron or the output. It is the output exactly when the draw is the last index. |
| Mutations.NeuronOutTargetsAll | Minesweeper/Network/Mutations.cs:61-66 | Every admissible destination is reachable by some draw. |
| Mutations.AddNeuronOut | Minesweeper/Network/Mutations.cs:61-66 | `AddNeuronOut` adds one weight-1 connection out of the given hidden neuron, to a higher layer or to the output. |
| Mutations.AddConnection | Minesweeper/Network/Mutations.cs:49-59 | Below index 80 the source is that input and the destination a drawn hidden neuron or the output. Otherwise it is `AddNeuronOut` of hidden neuron index − 80. Exactly one fresh weight-1 connection is added, and the other connections are kept. |
| Mutations.AddConnectionKeepsValid | Minesweeper/Network/Mutations.cs:49-59 | Adding a connection keeps a network valid. |
| Mutations.AllOuts | Minesweeper/Network/Mutations.cs:19 | The concatenation of the inputs' then the hidden neurons' `Outs` holds exactly the ids that some source lists. |
| Mutations.AllOutsEmptyIffNoConnections | Minesweeper/Network/Mutations.cs:19-21 | In a valid network, that concatenation is empty iff the network has no connection, so the fallback fires exactly then. |
| Mutations.NudgeWeight | Minesweeper/Network/Mutations.cs:27 | `Weight += delta` changes that one weight only. |
| Mutations.NudgeWeightKeepsValid | Minesweeper/Network/Mutations.cs:27 | Nudging a weight keeps a network valid. |
| Mutations.SetFunction | Minesweeper/Network/Mutations.cs:36 | Setting a hidden neuron's `FunctionIndex` changes that index only. |
| Mutations.SetFunctionKeepsValid | Minesweeper/Network/Mutations.cs:36 | Setting an activation index below 4 keeps a network valid. |
| Mutations.Mutate | Minesweeper/Network/Mutations.cs:8-39 | A mutation adds at most one hidden neuron and at most one connection, with the fresh id. It keeps every old connection's ends. |
| Mutations.MutateOutcome | Minesweeper/Network/Mutations.cs:8-39 | For draws 0–1 a hidden neuron is added, and for 2–7 a connection. For 8–19 one weight moves by delta, or a connection is added when there is none. For 20–27 one activation index is set, or a hidden neuron is added when there is none. |
| Mutations.MutateKeepsValid | Minesweeper/Network/Mutations.cs:8-39 | Every mutation keeps a network valid. |
| HiddenRemoval.UnlinkFromSourcesFilters | Minesweeper/AI.cs:126 | `Ins.ForEach(i => i.Input.Outs.Remove(i))` filters exactly the removed neuron's incoming ids out of every `Outs` list. |
| HiddenRemoval.UnlinkFromSinksFilters | Minesweeper/AI.cs:127 | `Outs.ForEach(o => o.Output.Ins.Remove(o))` filters exactly its outgoing ids out of every `Ins` list. |
| HiddenRemoval.RemoveHidden | Minesweeper/AI.cs:123-129 | Removing hidden neuron x drops exactly the connections touching it. The neurons after it move down by one, and every surviving connection is renumbered to match. |
| HiddenRemoval.RemoveHiddenLists | Minesweeper/AI.cs:126-128 | Each surviving `Outs` list is its old list without x's incoming ids, and each `Ins` list is its old list without x's outgoing ids. |
| HiddenRemoval.SurvivorsAvoidRemoved | Minesweeper/AI.cs:126-128 | No surviving connection touched the removed neuron. |
| HiddenRemoval.ShiftRoundTrip | Minesweeper/AI.cs:128 | Renumbering after `RemoveAt` and renumbering back are inverse on every neuron other than the removed one. |
| HiddenRemoval.RemoveHiddenKeepsValid | Minesweeper/AI.cs:123-129 | Removing a hidden neuron keeps a network valid. |
| Mixing.Toward | Minesweeper/AI.cs:123-133 | One balancing step closes the gap to the target by exactly one, or keeps a closed gap closed. |
| Mixing.BalanceHidden | Minesweeper/AI.cs:123-133 | The hidden count moves one step towards best's: a drawn neuron is removed, or one is added. The network stays valid, and the score and the input offsets are kept. |
| Mixing.BalanceOuts | Minesweeper/AI.cs:138-145 | The number of a neuron's outgoing connections moves one step towards best's. A drawn one is destroyed or one is added, and the network stays valid. |
| Mixing.BalanceOutsMoves | Minesweeper/AI.cs:138-145 | Balancing touches only that neuron's outgoing connections. What it leaves there is old or the one new weight-1 connection. |
| Mixing.AverageWeightsAverages | Minesweeper/AI.cs:147-151 | Each paired connection ends with the mean of its old weight and best's weight at the same position. |
| Mixing.AverageOutsWeights | Minesweeper/AI.cs:147-151 | Position j of the list takes the mean with best's position j while both lists last. Later positions keep their weight. |
| Mixing.AverageOutsKeepsValid | Minesweeper/AI.cs:147-151 | Averaging weights keeps a network valid. |
| Mixing.MixOuts | Minesweeper/AI.cs:138-151 | The shared body of both loops keeps the network valid and moves the count towards best's. It uses a draw only when the counts differ. |
| Mixing.MixHiddenAtSettles | Minesweeper/AI.cs:136-157 | One hidden iteration settles that neuron against best: its count is one step closer, its connections are old or new, and its weights are averaged. Every other neuron is left alone. |
| Mixing.MixHiddenAtFunctions | Minesweeper/AI.cs:153-156 | The coin gives the neuron its own activation index or best's, and changes no other index. |
| Mixing.MixHiddenFrom | Minesweeper/AI.cs:135-157 | The hidden loop settles every shared hidden neuron and leaves the inputs and the extra neurons alone. |
| Mixing.MixInputsFrom | Minesweeper/AI.cs:159-177 | The input loop settles all 80 inputs and leaves every hidden neuron alone. |
| Mixing.Mix | Minesweeper/AI.cs:121-178 | `Mix` keeps the network valid and the hidden count one step closer to best's. The score and the offsets are kept. |
| Mixing.MixSettles | Minesweeper/AI.cs:121-178 | After `Mix`, every shared hidden neuron and every input is settled against best. The other hidden neurons keep their connections. |
| Mixing.MixFunctions | Minesweeper/AI.cs:135-157 | After `Mix`, each shared hidden neuron has its own activation index or best's, and the others keep theirs. |
| Loading.PointOuts | Minesweeper/AI.cs:96 | `Outs.ForEach(o => o.Input = s)` re-points exactly the listed connections. |
| Loading.PointIns | Minesweeper/AI.cs:101 | `Ins.ForEach(i => i.Output = d)` re-points exactly the listed connections. |
| Loading.RelinkInputsPoints | Minesweeper/AI.cs:94-97 | After the inputs' loop, each connection's `Input` is the last input whose `Outs` lists it, or is unchanged when none does. |
| Loading.RelinkHiddenPoints | Minesweeper/AI.cs:99-103 | After the hidden loop, each connection points from the last hidden neuron listing it in `Outs`, and to the last one listing it in `Ins`. |
| Loading.Load | Minesweeper/AI.cs:90-108 | `Load` keeps the neurons, the counters and the set of connections. |
| Loading.LoadRelinks | Minesweeper/AI.cs:90-108 | Each connection ends up pointing from the last neuron whose `Outs` holds it, and to the last neuron whose `Ins` holds it. A field that no list mentions, and the weight, are kept. |
| Loading.LoadLinks | Minesweeper/AI.cs:90-108 | When each listed id is live and listed at most once per direction, every list points back at its neuron after `Load`. |
| Loading.LoadLinkedIsNoOp | Minesweeper/AI.cs:90-108 | A network whose connections already point back is left as it is. |
| Loading.LoadIdempotent | Minesweeper/AI.cs:90-108 | Loading twice is the same as loading once. |
| Loading.LoadValidIsNoOp | Minesweeper/AI.cs:90-108 | `Load` leaves a valid network unchanged. |
| Loading.Written | Minesweeper/AI.cs:31-35 | A save keeps the lists, layers, offsets, connections and weights. Each activation index and the score come back as 0, because the writer's options include no plain public field (`FunctionIndex`, Network/Neurons.cs:36) and no internal member (`Score`, Network/NeuralNetwork.cs:18). |
| Loading.WrittenValid | Minesweeper/AI.cs:31-35 | What a save keeps of a valid network is still valid. |
| Loading.LoadRestoresSaved | Minesweeper/AI.cs:90-108 | Whatever the reader left in the back-pointers, `Load` rebuilds exactly what the save wrote: the saved valid network with activation indices and score at 0. |
| Training.MutateDrawn | Minesweeper/Network/Mutations.cs:8-67 | `Mutate()` reads exactly three draws on every branch, in the source's order: the kind, then two indices, or an index and the `NextSingle` behind a weight nudge. It keeps the network valid, adds at most one hidden neuron and at most one connection, and keeps the old neurons' layers. |
| Training.Evolve | Minesweeper/AI.cs:274-275 | `Mix` then `Mutate` keeps the network valid and the input offsets. The hidden count is one step closer to best's, or one more than that. |
| Training.BestFrom | Minesweeper/AI.cs:186-267 | The scan returns an index of the greatest score, the first one among ties, because a later network replaces it only with a strictly greater score. |
| Training.BestIndex | Minesweeper/AI.cs:184-267 | `bestIndex` has the greatest score, and every earlier network scores strictly less. |
| Training.BestIndexUnique | Minesweeper/AI.cs:184-267 | Those two properties determine `bestIndex`. |
| Training.Sweep | Minesweeper/AI.cs:272-282 | The loop changes only the networks inside its range. |
| Training.SweepAt | Minesweeper/AI.cs:272-282 | Network i of the range is the step applied once to its old value, with the draws that follow those of the earlier networks. |
| Training.SweepKeepsValid | Minesweeper/AI.cs:272-282 | A loop of steps that keep networks valid keeps the whole population valid. |
| Training.Generation | Minesweeper/AI.cs:270-282 | A generation keeps 100 valid networks. |
| Training.GenerationKeepsBest | Minesweeper/AI.cs:270-282 | The best network is kept as it is. Every other network is mixed with it and mutated exactly once. |
| Training.NewPopulation | Minesweeper/AI.cs:50-59 | `new AI(game)` makes 100 valid networks. |
| Training.NewPopulationMutatesBlank | Minesweeper/AI.cs:54-58 | Each of them is a new network mutated once. |
| Training.NewPopulationShape | Minesweeper/AI.cs:54-58 | So each starts with score 0, the constructor's offsets, at most one hidden neuron and at most one connection. |
| Training.LoadPopulation | Minesweeper/AI.cs:61-88 | A loaded AI has 100 valid networks, and network 0 is the loaded one. |
| Training.LoadPopulationMutatesLoaded | Minesweeper/AI.cs:83-87 | Networks 1 to 99 are the loaded network mutated once each. |
| Training.LoadPopulationRestores | Minesweeper/AI.cs:61-108 | Reading back a saved valid network makes network 0 that network, with activation indices and score at 0. |
| Boards.Within | Minesweeper/GameLogic.cs:317 | The `Where` keeps exactly the in-grid cells. |
| Boards.WithinAppend | Minesweeper/GameLogic.cs:317 | The `Where` keeps order: filtering two lists joined together gives the two filtered lists joined in the same order. |
| Boards.WithinOne | Minesweeper/GameLogic.cs:317 | A single cell is kept exactly when it lies on the grid. |
| Boards.NeighboursAre | Minesweeper/GameLogic.cs:307-317 | The neighbours are exactly the grid cells of the 3 × 3 block other than the tile itself. |
| Boards.CountBombs | Minesweeper/GameLogic.cs:319 | The count is at most the number of cells, and it is 0 iff none of them is a bomb. |
| Boards.BombsNear | Minesweeper/GameLogic.cs:319-320 | `minesNear` is 0 iff no neighbour is a bomb. |
| Boards.Blank | Minesweeper/GameLogic.cs:72-122 | A fresh grid of the given side: every cell present, covered, safe and without a hint. |
| FloodFill.SafeReveal | Minesweeper/GameLogic.cs:303-332 | The flood uncovers only safe covered tiles, each showing its bomb count, and it uncovers the clicked one. The counter drops by the number uncovered. Every uncovered 0 has no covered neighbour left. A nonzero count uncovers the clicked tile alone. Every uncovered tile is reached from the clicked one by a chain of neighbours whose every tile but the last is an uncovered 0. |
| FloodFill.RevealIsFloodable | Minesweeper/GameLogic.cs:303-332 | A tile is uncovered exactly when a chain of neighbouring safe covered tiles leads to it from the clicked one, every tile but the last having no bomb around it. This is read on the board before the click. |
| FloodFill.FloodIsFloodable | Minesweeper/GameLogic.cs:303-332 | The same holds for any closed flood from the clicked tile: it uncovered exactly the tiles a flood from that tile can reach. |
| FloodFill.RevealEach | Minesweeper/GameLogic.cs:322-329 | The loop of a zero uncovers every neighbour and keeps the three flood properties. |
| FloodFill.MarkEach | Minesweeper/GameLogic.cs:322-329 | The loop of a nonzero count switches the hint on for exactly the still-covered neighbours. |
| FloodFill.UncoversTrans | Minesweeper/GameLogic.cs:303-332 | Two floods in a row are one flood. |
| Mines.FreeCells | Minesweeper/GameLogic.cs:242-252 | `freeBombLocations` lists each grid cell outside the 3 × 3 block around the click exactly once. There are at least cells − 9 of them. |
| Mines.RemoveAt | Minesweeper/GameLogic.cs:260 | `RemoveAt` drops exactly the drawn cell and keeps the list duplicate-free. |
| Mines.PickCells | Minesweeper/GameLogic.cs:254-261 | The loop picks `count` distinct cells of the free list. |
| Mines.PlaceMines | Minesweeper/GameLogic.cs:254-261 | On a board without bombs, exactly `totalMines` bombs are placed, none in the block around the click, and no picture or hint changes. |
| Play.Clamp | Minesweeper/GameLogic.cs:206 | `Math.Clamp` lands in the range and is the identity inside it. |
| Play.ToggleFlag | Minesweeper/GameLogic.cs:90-101 | A covered tile becomes a flag with one mine fewer left and no hint. A flag becomes covered with one more left and its hint on. Any other tile is untouched. |
| Play.ToggleTwice | Minesweeper/GameLogic.cs:90-101 | Toggling twice restores every picture, every bomb and the counter. |
| Play.Wrapped | Minesweeper/GameLogic.cs:93-99 | `--` and `++` on a `short` or `int` counter leave a value of that type that differs from the exact result by a multiple of 2^16 or 2^32. A value already in range is kept. |
| Play.WrappedUnique | Minesweeper/GameLogic.cs:93-99 | Being in range and congruent to the exact result fixes the wrapped value, so `Wrapped` is the two's-complement result and no other. |
| Play.WrappedStepBack | Minesweeper/GameLogic.cs:93-99 | A step by a and a step back by a return an in-range counter to its value, also across the wrap. |
| Play.ShortWrapsBelow | Minesweeper/GameLogic.cs:43-47 | A `short` counter at −32 768, stepped down once more, reads 32 767. |
| Play.ToggleKeepsPending | Minesweeper/GameLogic.cs:90-101 | Toggling keeps the bombs and the set of safe covered tiles. |
| Play.ShowBomb | Minesweeper/GameLogic.cs:272-285 | On a loss, an unflagged bomb is shown, a flag on a safe tile is crossed out, and every other tile is kept. |
| Play.ShowBombKeepsPending | Minesweeper/GameLogic.cs:272-285 | Showing the bombs keeps the bombs and the set of safe covered tiles. |
| Play.UntouchedPending | Minesweeper/GameLogic.cs:152 | Before the first reveal, every safe tile is covered, so their number is cells − bombs. |
| Play.PlacedPending | Minesweeper/GameLogic.cs:254-261 | Placing mines on an untouched board keeps it untouched, and the covered safe tiles number cells − bombs. |
| Play.RevealKeepsCount | Minesweeper/GameLogic.cs:303-332 | If the counter matched the safe covered tiles before a flood, it matches them after. |
| GameLogic.Initial | Minesweeper/GameLogic.cs:18-72 | The window starts with 25 × 25 tiles, 125 mines and 500 safe spots, which satisfies the invariant. |
| GameLogic.NewGame | Minesweeper/GameLogic.cs:138-153 | Every tile is covered, safe and without a hint, and the counter is cells − mines. |
| GameLogic.NewGameKeepsInv | Minesweeper/GameLogic.cs:138-153 | A new game satisfies the invariant whenever the count fits the grid. |
| GameLogic.NewGameClick | Minesweeper/GameLogic.cs:125-153 | The button makes the face happy and starts a new game. Every tile is covered, safe and without hint, the counter of safe spots is cells − mines, and the mines counter is kept. |
| GameLogic.FlagClick | Minesweeper/GameLogic.cs:86-102 | The right click toggles the flag only while the face is happy. Otherwise nothing changes. The `short` mines counter steps down or up by one and wraps past either end. |
| GameLogic.FlagClickTwice | Minesweeper/GameLogic.cs:86-102 | Two right clicks on one tile put the mines counter back, even across the wrap. |
| GameLogic.NewGameThenFlag | Minesweeper/GameLogic.cs:86-153 | New Game does not reset the mines counter, so a flag right after it steps down from the last game's value. Repeated rounds of flagging every tile drive it past −32 768. |
| GameLogic.FlagClickKeepsInv | Minesweeper/GameLogic.cs:86-102 | A right click keeps the invariant. |
| GameLogic.StartGame | Minesweeper/GameLogic.cs:236-261 | The first reveal leaves the start state, resets the mines counter, and places exactly `totalMines` bombs, none near the click. |
| GameLogic.Lose | Minesweeper/GameLogic.cs:267-287 | A loss shows the dead face, the bombs and the false flags, and changes nothing else. |
| GameLogic.Reveal | Minesweeper/GameLogic.cs:233-297 | After a reveal the game has started, and the count and the grid are kept. |
| GameLogic.Open | Minesweeper/GameLogic.cs:264-296 | Opening a tile keeps the start flag, both counts and the grid. |
| GameLogic.OpenKeepsBombs | Minesweeper/GameLogic.cs:264-296 | Opening a tile never moves a bomb. |
| GameLogic.RevealKeepsInv | Minesweeper/GameLogic.cs:233-332 | Every reveal keeps the invariant: afterwards the counter equals the number of safe covered tiles. |
| GameLogic.FirstReveal | Minesweeper/GameLogic.cs:236-264 | The first reveal places exactly `totalMines` bombs, none in the block around the click. It resets the counter and, on a covered tile, shows a number, so the first click never loses. |
| GameLogic.RevealCoveredOnly | Minesweeper/GameLogic.cs:264 | Once the game has started, clicking a tile that is not covered changes nothing. |
| GameLogic.RevealBomb | Minesweeper/GameLogic.cs:267-287 | Revealing a bomb kills the face and shows the bombs and false flags. The counters are kept. |
| GameLogic.RevealSafe | Minesweeper/GameLogic.cs:290-332 | Revealing a safe tile floods from it and shows its count. A nonzero count uncovers that tile alone. In general, the tiles uncovered are exactly those a flood from it can reach. The face turns cool exactly when no safe tile is left covered. |
| GameLogic.RevealClick | Minesweeper/GameLogic.cs:105-116 | The left click acts only after the suspense face, and it makes the face happy before revealing. |
| GameLogic.ChangeMineCount | Minesweeper/GameLogic.cs:202-209 | The count is clamped to [1, cells − 9] and a new game starts, which satisfies the invariant. Every tile is blank and the mines counter is kept. |
| GameLogic.ChangeSize | Minesweeper/GameLogic.cs:211-231 | The side is clamped to [5, 50]. The count becomes a fifth of the cells when cells − 9 < count, and a new game starts. Every tile is blank and the mines counter is kept. |
| GameLogic.ChangeSizeKeepsInv | Minesweeper/GameLogic.cs:211-231 | Resizing keeps the invariant, because the kept or reset count always fits. |
| MainWindow.Initial | Minesweeper/MainWindow.xaml.cs:18-40 | The window starts not playing, with 25 × 25 tiles, 125 mines and 500 safe spots, which satisfies the invariant. |
| MainWindow.SetupMines | Minesweeper/MainWindow.xaml.cs:70-101 | Every old bomb is cleared, then exactly `totalMines` are placed, none near the click. The counter is reset and the pictures are kept. |
| MainWindow.NewGame | Minesweeper/MainWindow.xaml.cs:121-143 | Every tile is covered without a hint, the bombs and `playing` are kept, and the counter is cells − mines. |
| MainWindow.NewGameKeepsInv | Minesweeper/MainWindow.xaml.cs:121-143 | A new game satisfies the invariant whenever the count fits the grid. |
| MainWindow.WinGame | Minesweeper/MainWindow.xaml.cs:145-166 | A win makes the face cool and ends play. Every covered tile is flagged, and no hint is left. |
| MainWindow.WonBoard | Minesweeper/MainWindow.xaml.cs:145-166 | When no safe tile is left covered, the won board flags exactly the bombs, and every safe tile shows a number. |
| MainWindow.LoseGame | Minesweeper/MainWindow.xaml.cs:168-194 | A loss makes the face dead and ends play. The bombs and false flags are shown, and no hint is left. |
| MainWindow.FlagAt | Minesweeper/MainWindow.xaml.cs:199-215 | The right click toggles the flag only while playing. Otherwise nothing changes. The `int` mines counter steps down or up by one and wraps past either end. |
| MainWindow.FlagTwice | Minesweeper/MainWindow.xaml.cs:199-215 | Two right clicks on one tile put the mines counter back, even across the wrap. |
| MainWindow.FlagKeepsInv | Minesweeper/MainWindow.xaml.cs:199-215 | A right click keeps the invariant. |
| MainWindow.Reveal | Minesweeper/MainWindow.xaml.cs:297-329 | A click when the game is neither starting nor playing changes nothing. Any other click leaves the start state. |
| MainWindow.Open | Minesweeper/MainWindow.xaml.cs:312-328 | Opening keeps the start flag, both counts and the grid. |
| MainWindow.RevealKeepsInv | Minesweeper/MainWindow.xaml.cs:297-371 | Every reveal keeps the invariant. |
| MainWindow.FirstReveal | Minesweeper/MainWindow.xaml.cs:299-306 | The first reveal places exactly `totalMines` bombs, none near the click, resets the counter, and never loses. |
| MainWindow.OpenKeepsBombs | Minesweeper/MainWindow.xaml.cs:312-328 | Opening never moves a bomb, and opening a safe tile never loses. |
| MainWindow.RevealCoveredOnly | Minesweeper/MainWindow.xaml.cs:312-314 | During play, clicking a tile that is not covered only makes the face happy. |
| MainWindow.RevealBomb | Minesweeper/MainWindow.xaml.cs:314-320 | During play, revealing a bomb loses the game. |
| MainWindow.RevealSafe | Minesweeper/MainWindow.xaml.cs:322-328 | During play, revealing a safe tile floods from it. The game is won exactly when no safe tile is left covered, and then the bombs are flagged and the safe tiles show numbers. |
| MainWindow.MineCountChanged | Minesweeper/MainWindow.xaml.cs:251-269 | A count with 0 < n ≤ cells − 9 is taken, play stops and a new game starts. Any other count leaves the window unchanged. |
| MainWindow.MineCountKeepsInv | Minesweeper/MainWindow.xaml.cs:251-269 | Changing the count keeps the invariant. |
| MainWindow.ChangeSize | Minesweeper/MainWindow.xaml.cs:271-295 | The side is clamped to [5, 50] and play stops. The count becomes a fifth of the cells when cells − 9 ≤ count, and a fresh covered grid starts. |
| MainWindow.ChangeSizeKeepsInv | Minesweeper/MainWindow.xaml.cs:271-295 | Resizing keeps the invariant. |

## Left out

- Floating point is modelled as exact `real` arithmetic. The float rounding of `Weight` sums and means is not modelled.
- NeuralNetworks.Process: only the early return for an unconnected output is modelled. The layer-by-layer evaluation and the four activation functions (`AI.ActivationFunctions`) are floating-point maths over neuron `Value`s, and they are left out.
- The input values that `Train` copies from the board into the inputs (`Images.GridMaker`, AI.cs:203-217) are left out. `Images.ImageToInput` models the picture-to-value table only.
- `Train` plays games through the game window, with `Task.Delay`, a cancellation token and an endless loop. The model takes the scores as given and models one generation after the games: the choice of the best network and the mix and mutate loops.
- The AI's own moves inside `Train`, such as revealing a tile or setting a flag directly on a tile (AI.cs:219-253), are left out. The reveal they call is `GameLogic.Reveal`.
- `System.Random` is modelled as a stream of natural numbers. `Random.Next(n)` is a draw taken modulo `n`. `NextSingle()` is `Draws.NextSingle` of a draw, one of 2^24 evenly spaced reals in [0, 1). `Mutations.Mutate` takes the resulting nudge as a parameter, and `Training.MutateDrawn` reads it from the stream.
- The JSON reader is modelled only by what it hands to `Load`: the lists, counters and weights, with the activation indices and score at 0 (`Loading.Written`). File I/O, dialogs, `MessageBox` and the caught `JsonException` are left out. `Converter.Read` is a stub in the source and is not modelled.
- `AI.Save` is left out beyond the converter's `Write` and `ResetId`.
- `NeuralNetwork._maxLayer` is not declared in the visible files. It is modelled as a network field that starts at 0.
- Loading.Written: whether a save keeps `_maxLayer` cannot be seen, because its declaration is not visible. The model keeps it, so that a loaded network's layers stay within it.
- The timers, the elapsed-time display, the `Mines.Text`/`Time.Text` strings and the `Suspense` face handler are left out. So are `Options`, `CanEnterText`, `AISpeedChanged`, `SaveAI`, `LoadAI` and the WPF grid wiring of `SetupGrid`, all of which are user-interface plumbing.
- The handlers' guards on the Enter key and on empty text are left out. So are the exceptions `short.Parse` and `byte.Parse` throw on text that is not a number or is out of range, such as a size above 255. `ChangeSize` takes the parsed size in 0 .. 255 and models the `Math.Clamp(…, 5, 50)` that follows.
- GameLogic.ChangeSize and GameLogic.Initial: `SetupGrid` (GameLogic.cs:66, 118) calls `Tiles[x, y].SetupImage` on a fresh `Tile[,]` array. That method is not defined in the `Tile` class shown, and the array holds no tiles yet. So the new grid is modelled as a fresh blank board.
- GameLogic's counters are `short`, and MainWindow's are `int`. Neither window's `NewGame` resets the mines counter (GameLogic.cs:138-153, MainWindow.xaml.cs:120-143), and right clicks work before the first reveal in GameLogic and after a mid-game New Game in MainWindow. So the mines counter has no bound, and both flag handlers wrap it (`Play.Wrapped`). The other counters are modelled as unbounded integers. The mine count, the safe-spot count and the `(short)` casts at GameLogic.cs:206 and 226 stay within 0 .. 2 500 on a grid of at most 50 × 50, so they never wrap.
- The two windows differ, and each is modelled as written:
  - GameLogic resets the count when cells − 9 < count, and MainWindow when cells − 9 ≤ count.
  - GameLogic clamps the mine count, while MainWindow refuses an out-of-range one.
  - GameLogic's `NewGame` clears the bombs, while MainWindow's clears them in `SetupMines`.
- FloodFill.SafeReveal: the contract does not state that the covered neighbours of a number get their hint switched on. That is stated for one step by `FloodFill.MarkEach`.
- FloodFill.SafeReveal: the order in which the flood visits tiles is not stated as a property. Which tiles it uncovers is stated. The `--safeSpotsLeft` is taken before the recursion rather than after it, which gives the same final value because nothing in between reads the counter.
- Play.ToggleTwice: the tile comes back exactly only when it was a flag without a hint. A covered tile comes back with its hint switched on, as the source does.
- Mines.PlaceMines: the precondition that the free list is long enough is also where the source would throw. `Random.Next(0)` returns 0, and the list indexer then throws on the empty list (GameLogic.cs:258-259, MainWindow.xaml.cs:95-96). Every reachable call meets it, because the mine count never exceeds cells − 9.

=== FILE: boards.dfy ===
/** The minefield both game windows share: a square grid of tiles addressed
    by (column, row), the neighbourhood of a tile and the bomb count shown on
    a revealed tile. */
module Boards {
  import opened Images

  /** `(x, y)`: column, then row. */
  type Cell = (int, int)

  /** A tile: whether it hides a bomb, whether it is covered and next to a
      revealed number (`CanTell`), and the picture it shows. */
  datatype Tile = Tile(isBomb: bool, canTell: bool, source: Image)

  /** `Tiles[x, y]` of a `size` × `size` grid, and the number of safe tiles
      the player still has to reveal. */
  datatype Board = Board(size: nat, tiles: map<Cell, Tile>, safeSpotsLeft: int)

  predicate InBounds(size: nat, c: Cell) {
    0 <= c.0 < size && 0 <= c.1 < size
  }

  /** Every cell of the grid holds a tile, and no other key does. */
  ghost predicate Valid(b: Board) {
    forall c :: c in b.tiles <==> InBounds(b.size, c)
  }

  /** d lies in the 3 × 3 block centred on c (c itself included). */
  predicate Near(c: Cell, d: Cell) {
    -1 <= d.0 - c.0 <= 1 && -1 <= d.1 - c.1 <= 1
  }

  /** The eight positions around c, in the order the reveal code lists them. */
  function Around(c: Cell): seq<Cell> {
    var (x, y) := c;
    [(x - 1, y - 1), (x, y - 1), (x + 1, y - 1), (x - 1, y),
     (x + 1, y), (x - 1, y + 1), (x, y + 1), (x + 1, y + 1)]
  }

  /** The cells of cs that lie on the grid, in order (the `Where` filter). */
  function Within(size: nat, cs: seq<Cell>): (r: seq<Cell>)
    ensures |r| <= |cs|
    ensures forall d :: d in r <==> d in cs && InBounds(size, d)
  {
    if cs == [] then []
    else (if InBounds(size, cs[0]) then [cs[0]] else []) + Within(size, cs[1..])
  }

  /** The filter keeps order: filtering a concatenation filters each part
      and puts the results in the same order, so each kept cell keeps its
      place relative to the others. */
  lemma {:induction false} WithinAppend(size: nat, a: seq<Cell>, b: seq<Cell>)
    ensures Within(size, a + b) == Within(size, a) + Within(size, b)
    decreases |a|
  {
    if a != [] {
      assert (a + b)[1..] == a[1..] + b;
      WithinAppend(size, a[1..], b);
    } else {
      assert a + b == b;
    }
  }

  /** A single cell is kept exactly when it lies on the grid. */
  lemma WithinOne(size: nat, c: Cell)
    ensures Within(size, [c]) == if InBounds(size, c) then [c] else []
  {
    assert [c][1..] == [];
  }

  /** The in-bounds neighbours of c. */
  function Neighbours(size: nat, c: Cell): (r: seq<Cell>)
    ensures |r| <= 8
  {
    Within(size, Around(c))
  }

  /** The neighbours are exactly the grid cells of the block around c other
      than c. */
  lemma NeighboursAre(size: nat, c: Cell, d: Cell)
    ensures d in Neighbours(size, c) <==> InBounds(size, d) && Near(c, d) && d != c
  {
    var (x, y) := c;
    if Near(c, d) && d != c {
      assert d in Around(c) by {
        if d.1 == y - 1 {
          assert d == Around(c)[d.0 - x + 1];
        } else if d.1 == y {
          assert d == Around(c)[if d.0 < x then 3 else 4];
        } else {
          assert d == Around(c)[d.0 - x + 6];
        }
      }
    }
  }

  /** How many cells of cs hide a bomb. */
  function CountBombs(b: Board, cs: seq<Cell>): (r: nat)
    requires forall d :: d in cs ==> d in b.tiles
    ensures r <= |cs|
    ensures r == 0 <==> forall d :: d in cs ==> !b.tiles[d].isBomb
  {
    if cs == [] then 0
    else (if b.tiles[cs[0]].isBomb then 1 else 0) + CountBombs(b, cs[1..])
  }

  /** `minesNear`: the number of neighbours of c that hide a bomb. */
  function BombsNear(b: Board, c: Cell): (r: Digit)
    requires Valid(b)
    ensures r == 0 <==> forall d :: d in Neighbours(b.size, c) ==> !b.tiles[d].isBomb
  {
    CountBombs(b, Neighbours(b.size, c))
  }

  /** Both boards have the same cells and the same bombs. */
  ghost predicate SameBombs(a: Board, b: Board) {
    a.size == b.size && a.tiles.Keys == b.tiles.Keys &&
    forall d :: d in a.tiles ==> a.tiles[d].isBomb == b.tiles[d].isBomb
  }

  /** Boards that agree on every tile's bomb have the same bomb set. */
  lemma SameBombsBombs(a: Board, b: Board)
    requires SameBombs(a, b)
    ensures Bombs(a) == Bombs(b)
  {
    assert Bombs(a) == Bombs(b);
  }

  lemma {:induction false} CountBombsSame(a: Board, b: Board, cs: seq<Cell>)
    requires SameBombs(a, b) && forall d :: d in cs ==> d in a.tiles
    ensures CountBombs(a, cs) == CountBombs(b, cs)
  {
    if cs != [] {
      CountBombsSame(a, b, cs[1..]);
    }
  }

  /** The number a tile shows depends on the bombs alone. */
  lemma BombsNearSame(a: Board, b: Board, c: Cell)
    requires Valid(a) && SameBombs(a, b)
    ensures Valid(b) && BombsNear(a, c) == BombsNear(b, c)
  {
    CountBombsSame(a, b, Neighbours(a.size, c));
  }

  /** The covered tiles (the flood fill's termination measure). */
  ghost function NormalCells(b: Board): set<Cell> {
    set c | c in b.tiles && b.tiles[c].source == Normal
  }

  /** A picture that still hides what is under it. */
  predicate Covered(img: Image) {
    img == Normal || img == Flag || img == FalseFlag
  }

  /** The safe tiles not yet revealed: what `safeSpotsLeft` counts. */
  ghost function Pending(b: Board): set<Cell> {
    set c | c in b.tiles && !b.tiles[c].isBomb && Covered(b.tiles[c].source)
  }

  /** The cells holding a bomb. */
  ghost function Bombs(b: Board): set<Cell> {
    set c | c in b.tiles && b.tiles[c].isBomb
  }

  /** b with tile c replaced by t. */
  function SetTile(b: Board, c: Cell, t: Tile): (r: Board)
    requires c in b.tiles
    ensures r.size == b.size && r.safeSpotsLeft == b.safeSpotsLeft
    ensures r.tiles.Keys == b.tiles.Keys && r.tiles[c] == t
    ensures forall d :: d in b.tiles && d != c ==> r.tiles[d] == b.tiles[d]
  {
    b.(tiles := b.tiles[c := t])
  }

  /** Each tile of b mapped through f; nothing else changes. */
  function MapTiles(b: Board, f: Tile -> Tile): (r: Board)
    ensures r.size == b.size && r.safeSpotsLeft == b.safeSpotsLeft
    ensures r.tiles.Keys == b.tiles.Keys
    ensures forall d :: d in b.tiles ==> r.tiles[d] == f(b.tiles[d])
  {
    b.(tiles := map d | d in b.tiles :: f(b.tiles[d]))
  }

  /** A fresh grid: every tile covered, no bomb, no hint. */
  function Blank(size: nat, safeSpotsLeft: int): (r: Board)
    ensures Valid(r) && r.size == size && r.safeSpotsLeft == safeSpotsLeft
    ensures forall d :: d in r.tiles ==> r.tiles[d] == Tile(false, false, Normal)
  {
    RowMajorFacts(size);
    Board(size, map d | d in RowMajor(size) :: Tile(false, false, Normal), safeSpotsLeft)
  }

  /** The cells of the grid in the order the setup loops visit them: row
      by row, by column within a row. */
  function RowMajor(size: nat): (r: seq<Cell>)
  {
    RowsFrom(size, 0)
  }

  function RowsFrom(size: nat, row: nat): (r: seq<Cell>)
    decreases size - row
  {
    if row >= size then [] else RowFrom(size, row, 0) + RowsFrom(size, row + 1)
  }

  function RowFrom(size: nat, row: nat, col: nat): (r: seq<Cell>)
    decreases size - col
  {
    if col >= size then [] else [(col, row)] + RowFrom(size, row, col + 1)
  }

  /** No cell is listed twice. */
  ghost predicate Distinct(s: seq<Cell>) {
    forall i, j :: 0 <= i < j < |s| ==> s[i] != s[j]
  }

  lemma {:induction false} RowFromFacts(size: nat, row: nat, col: nat)
    ensures |RowFrom(size, row, col)| == if col >= size then 0 else size - col
    ensures forall d :: d in RowFrom(size, row, col) <==> d.1 == row && col <= d.0 < size
    ensures Distinct(RowFrom(size, row, col))
    decreases size - col
  {
    if col < size {
      RowFromFacts(size, row, col + 1);
      var s := RowFrom(size, row, col);
      forall i, j | 0 <= i < j < |s| ensures s[i] != s[j] {
        if i > 0 {
          assert s[i] == RowFrom(size, row, col + 1)[i - 1];
        }
        assert s[j] == RowFrom(size, row, col + 1)[j - 1];
      }
    }
  }

  lemma {:induction false} RowsFromFacts(size: nat, row: nat)
    ensures |RowsFrom(size, row)| == if row >= size then 0 else (size - row) * size
    ensures forall d :: d in RowsFrom(size, row) <==> row <= d.1 < size && 0 <= d.0 < size
    ensures Distinct(RowsFrom(size, row))
    decreases size - row
  {
    if row < size {
      RowFromFacts(size, row, 0);
      RowsFromFacts(size, row + 1);
      RowsLength(size, row);
      DistinctConcat(RowFrom(size, row, 0), RowsFrom(size, row + 1));
    }
  }

  lemma RowsLength(size: nat, row: nat)
    requires row < size
    ensures (size - row) * size == size + (if row + 1 >= size then 0 else (size - row - 1) * size)
  {
    if row + 1 < size {
      assert (size - row) * size == (size - row - 1) * size + size;
    }
  }

  lemma DistinctConcat(a: seq<Cell>, b: seq<Cell>)
    requires Distinct(a) && Distinct(b)
    requires forall d :: d in a ==> d !in b
    ensures Distinct(a + b)
  {
    var s := a + b;
    forall i, j | 0 <= i < j < |s| ensures s[i] != s[j] {
      if j < |a| {
        assert s[i] == a[i] && s[j] == a[j];
      } else if i >= |a| {
        assert s[i] == b[i - |a|] && s[j] == b[j - |a|];
      } else {
        assert s[i] == a[i] && s[j] == b[j - |a|];
        assert a[i] in a && b[j - |a|] in b;
      }
    }
  }

  /** The grid visits every cell once. */
  lemma RowMajorFacts(size: nat)
    ensures |RowMajor(size)| == size * size
    ensures forall d :: d in RowMajor(size) <==> InBounds(size, d)
    ensures Distinct(RowMajor(size))
  {
    RowsFromFacts(size, 0);
  }

  /** The set of a distinct list has as many elements as the list. */
  lemma {:induction false} DistinctCard(s: seq<Cell>)
    requires Distinct(s)
    ensures |set d | d in s| == |s|
  {
    if s != [] {
      var t := s[1..];
      assert Distinct(t) by {
        forall i, j | 0 <= i < j < |t| ensures t[i] != t[j] {
          assert t[i] == s[i + 1] && t[j] == s[j + 1];
        }
      }
      DistinctCard(t);
      assert s[0] !in t by {
        forall i | 0 <= i < |t| ensures t[i] != s[0] {
          assert t[i] == s[i + 1];
        }
      }
      assert (set d | d in s) == (set d | d in t) + {s[0]} by {
        assert s == [s[0]] + t;
      }
    }
  }

  /** The cells of the grid, `Tiles.Length` of them. */
  ghost function Cells(size: nat): (r: set<Cell>)
    ensures |r| == size * size
    ensures forall d :: d in r <==> InBounds(size, d)
  {
    RowMajorFacts(size);
    DistinctCard(RowMajor(size));
    set d | d in RowMajor(size)
  }

  /** A valid board's keys are exactly its cells. */
  lemma KeysAreCells(b: Board)
    requires Valid(b)
    ensures b.tiles.Keys == Cells(b.size) && |b.tiles| == b.size * b.size
  {
    assert b.tiles.Keys == Cells(b.size);
  }
}

=== FILE: connection.dfy ===
/** Creating and destroying a connection (the linking constructor and
    `Destroy` of the C# `Connection` class). */
module Connections {
  import opened Neurons
  import opened Seqs
  import opened NeuralNetworks

  /** The linking constructor: a new connection of weight 1 from s to d,
      appended to s's `Outs` and to d's `Ins`. No other list changes. */
  function Link(n: Network, s: Source, d: Sink): (r: Network)
    requires SourceOk(n, s) && SinkOk(n, d)
    ensures OutsOf(r, s) == OutsOf(n, s) + [n.nextId]
    ensures InsOf(r, d) == InsOf(n, d) + [n.nextId]
    ensures forall s' :: s' != s ==> OutsOf(r, s') == OutsOf(n, s')
    ensures forall d' :: d' != d ==> InsOf(r, d') == InsOf(n, d')
    ensures n.nextId in r.conns && r.conns[n.nextId] == Connection(1.0, s, d)
    ensures forall id :: id in n.conns && id != n.nextId ==> id in r.conns && r.conns[id] == n.conns[id]
    ensures r.conns.Keys == n.conns.Keys + {n.nextId} && r.nextId == n.nextId + 1
    ensures NeuronsKept(n, r) && NeuronsKept(r, n)
  {
    var id := n.nextId;
    var n1 := WithOuts(n, s, OutsOf(n, s) + [id]);
    var n2 := WithIns(n1, d, InsOf(n1, d) + [id]);
    n2.(conns := n.conns[id := Connection(1.0, s, d)], nextId := id + 1)
  }

  /** Linking keeps the network valid when the edge respects the layers. */
  lemma LinkKeepsValid(n: Network, s: Source, d: Sink)
    requires Valid(n) && SourceOk(n, s) && SinkOk(n, d) && EdgeLayered(n, s, d)
    ensures Valid(Link(n, s, d))
  {
    LinkValid(n, s, d, Link(n, s, d));
  }

  lemma LinkValid(n: Network, s: Source, d: Sink, r: Network)
    requires Valid(n) && SourceOk(n, s) && SinkOk(n, d) && EdgeLayered(n, s, d)
    requires OutsOf(r, s) == OutsOf(n, s) + [n.nextId]
    requires InsOf(r, d) == InsOf(n, d) + [n.nextId]
    requires forall s' :: s' != s ==> OutsOf(r, s') == OutsOf(n, s')
    requires forall d' :: d' != d ==> InsOf(r, d') == InsOf(n, d')
    requires r.conns == n.conns[n.nextId := Connection(1.0, s, d)] && r.nextId == n.nextId + 1
    requires NeuronsKept(n, r)
    ensures Valid(r)
  {
    FreshIdUnlisted(n, n.nextId);
    LinkOutsLinked(n, s, d, r);
    LinkInsLinked(n, s, d, r);
    LinkNoDuplicates(n, s, d, r);
    LinkListed(n, s, d, r);
    LinkShape(n, s, d, r);
  }

  lemma LinkShape(n: Network, s: Source, d: Sink, r: Network)
    requires |n.inputs| == InputCount && EndpointsOk(n) && FreshIds(n) && Layered(n) && HiddenOk(n)
    requires SourceOk(n, s) && SinkOk(n, d) && EdgeLayered(n, s, d)
    requires r.conns == n.conns[n.nextId := Connection(1.0, s, d)] && r.nextId == n.nextId + 1
    requires NeuronsKept(n, r) && |r.inputs| == |n.inputs|
    ensures |r.inputs| == InputCount && EndpointsOk(r) && FreshIds(r) && Layered(r) && HiddenOk(r)
  {
  }

  lemma LinkOutsLinked(n: Network, s: Source, d: Sink, r: Network)
    requires OutsLinked(n) && n.nextId !in n.conns
    requires OutsOf(r, s) == OutsOf(n, s) + [n.nextId]
    requires forall s' :: s' != s ==> OutsOf(r, s') == OutsOf(n, s')
    requires r.conns == n.conns[n.nextId := Connection(1.0, s, d)]
    ensures OutsLinked(r)
  {
    forall s', j | 0 <= j < |OutsOf(r, s')|
      ensures OutsOf(r, s')[j] in r.conns && r.conns[OutsOf(r, s')[j]].input == s'
    {
      if s' == s && j == |OutsOf(n, s)| {
      } else {
        assert OutsOf(r, s')[j] == OutsOf(n, s')[j];
      }
    }
  }

  lemma LinkInsLinked(n: Network, s: Source, d: Sink, r: Network)
    requires InsLinked(n) && n.nextId !in n.conns
    requires InsOf(r, d) == InsOf(n, d) + [n.nextId]
    requires forall d' :: d' != d ==> InsOf(r, d') == InsOf(n, d')
    requires r.conns == n.conns[n.nextId := Connection(1.0, s, d)]
    ensures InsLinked(r)
  {
    forall d', j | 0 <= j < |InsOf(r, d')|
      ensures InsOf(r, d')[j] in r.conns && r.conns[InsOf(r, d')[j]].output == d'
    {
      if d' == d && j == |InsOf(n, d)| {
      } else {
        assert InsOf(r, d')[j] == InsOf(n, d')[j];
      }
    }
  }

  lemma LinkNoDuplicates(n: Network, s: Source, d: Sink, r: Network)
    requires NoDuplicates(n)
    requires n.nextId !in OutsOf(n, s) && n.nextId !in InsOf(n, d)
    requires OutsOf(r, s) == OutsOf(n, s) + [n.nextId]
    requires InsOf(r, d) == InsOf(n, d) + [n.nextId]
    requires forall s' :: s' != s ==> OutsOf(r, s') == OutsOf(n, s')
    requires forall d' :: d' != d ==> InsOf(r, d') == InsOf(n, d')
    ensures NoDuplicates(r)
  {
    forall s' ensures NoDup(OutsOf(r, s')) {
      if s' == s { NoDupAppend(OutsOf(n, s), n.nextId); }
    }
    forall d' ensures NoDup(InsOf(r, d')) {
      if d' == d { NoDupAppend(InsOf(n, d), n.nextId); }
    }
  }

  lemma LinkListed(n: Network, s: Source, d: Sink, r: Network)
    requires Listed(n)
    requires OutsOf(r, s) == OutsOf(n, s) + [n.nextId]
    requires InsOf(r, d) == InsOf(n, d) + [n.nextId]
    requires forall s' :: s' != s ==> OutsOf(r, s') == OutsOf(n, s')
    requires forall d' :: d' != d ==> InsOf(r, d') == InsOf(n, d')
    requires r.conns == n.conns[n.nextId := Connection(1.0, s, d)]
    ensures Listed(r)
  {
    forall i | i in r.conns
      ensures i in OutsOf(r, r.conns[i].input) && i in InsOf(r, r.conns[i].output)
    {
      if i != n.nextId {
        assert i in OutsOf(n, n.conns[i].input) && i in InsOf(n, n.conns[i].output);
      }
    }
  }

  /** `Destroy`: the connection leaves its source's `Outs` and its
      destination's `Ins` (the first occurrence of each, as List.Remove does)
      and is no longer live. */
  function Destroy(n: Network, id: nat): (r: Network)
    requires id in n.conns && SourceOk(n, n.conns[id].input) && SinkOk(n, n.conns[id].output)
    ensures OutsOf(r, n.conns[id].input) == RemoveFirst(OutsOf(n, n.conns[id].input), id)
    ensures InsOf(r, n.conns[id].output) == RemoveFirst(InsOf(n, n.conns[id].output), id)
    ensures forall s :: s != n.conns[id].input ==> OutsOf(r, s) == OutsOf(n, s)
    ensures forall d :: d != n.conns[id].output ==> InsOf(r, d) == InsOf(n, d)
    ensures r.conns == n.conns - {id} && r.nextId == n.nextId
    ensures NeuronsKept(n, r) && NeuronsKept(r, n)
  {
    var c := n.conns[id];
    var n1 := WithOuts(n, c.input, RemoveFirst(OutsOf(n, c.input), id));
    var n2 := WithIns(n1, c.output, RemoveFirst(InsOf(n1, c.output), id));
    n2.(conns := n.conns - {id})
  }

  /** Destroying keeps the network valid; every list loses exactly that id. */
  lemma DestroyKeepsValid(n: Network, id: nat)
    requires Valid(n) && id in n.conns
    ensures Valid(Destroy(n, id))
    ensures forall s :: OutsOf(Destroy(n, id), s) == Without(OutsOf(n, s), {id})
    ensures forall d :: InsOf(Destroy(n, id), d) == Without(InsOf(n, d), {id})
  {
    DestroyValid(n, id, Destroy(n, id));
  }

  lemma DestroyValid(n: Network, id: nat, r: Network)
    requires Valid(n) && id in n.conns
    requires OutsOf(r, n.conns[id].input) == RemoveFirst(OutsOf(n, n.conns[id].input), id)
    requires InsOf(r, n.conns[id].output) == RemoveFirst(InsOf(n, n.conns[id].output), id)
    requires forall s :: s != n.conns[id].input ==> OutsOf(r, s) == OutsOf(n, s)
    requires forall d :: d != n.conns[id].output ==> InsOf(r, d) == InsOf(n, d)
    requires r.conns == n.conns - {id} && r.nextId == n.nextId
    requires NeuronsKept(n, r) && NeuronsKept(r, n)
    ensures Valid(r)
    ensures forall s :: OutsOf(r, s) == Without(OutsOf(n, s), {id})
    ensures forall d :: InsOf(r, d) == Without(InsOf(n, d), {id})
  {
    DestroyOuts(n, id, r);
    DestroyIns(n, id, r);
    DestroyNoDuplicates(n, id, r);
    DestroyListed(n, id, r);
    KeptNeuronsKeepShape(n, r);
  }

  lemma DestroyNoDuplicates(n: Network, id: nat, r: Network)
    requires NoDuplicates(n)
    requires forall s :: OutsOf(r, s) == Without(OutsOf(n, s), {id})
    requires forall d :: InsOf(r, d) == Without(InsOf(n, d), {id})
    ensures NoDuplicates(r)
  {
    forall s ensures NoDup(OutsOf(r, s)) { NoDupWithout(OutsOf(n, s), {id}); }
    forall d ensures NoDup(InsOf(r, d)) { NoDupWithout(InsOf(n, d), {id}); }
  }

  lemma DestroyListed(n: Network, id: nat, r: Network)
    requires Listed(n)
    requires forall s :: OutsOf(r, s) == Without(OutsOf(n, s), {id})
    requires forall d :: InsOf(r, d) == Without(InsOf(n, d), {id})
    requires r.conns == n.conns - {id}
    ensures Listed(r)
  {
    forall i | i in r.conns
      ensures i in OutsOf(r, r.conns[i].input) && i in InsOf(r, r.conns[i].output)
    {
      assert i in OutsOf(n, n.conns[i].input) && i in InsOf(n, n.conns[i].output);
    }
  }

  /** The `Outs` half of DestroyValid. */
  lemma DestroyOuts(n: Network, id: nat, r: Network)
    requires OutsLinked(n) && NoDuplicates(n) && id in n.conns
    requires OutsOf(r, n.conns[id].input) == RemoveFirst(OutsOf(n, n.conns[id].input), id)
    requires forall s :: s != n.conns[id].input ==> OutsOf(r, s) == OutsOf(n, s)
    requires r.conns == n.conns - {id}
    ensures forall s :: OutsOf(r, s) == Without(OutsOf(n, s), {id})
    ensures OutsLinked(r)
  {
    var c := n.conns[id];
    forall s ensures OutsOf(r, s) == Without(OutsOf(n, s), {id}) {
      if s == c.input {
        RemoveFirstIsWithout(OutsOf(n, s), id);
      } else {
        forall y | y in OutsOf(n, s) ensures y !in {id} {
          var j :| 0 <= j < |OutsOf(n, s)| && OutsOf(n, s)[j] == y;
        }
        WithoutAbsent(OutsOf(n, s), {id});
      }
    }
    forall s, j | 0 <= j < |OutsOf(r, s)|
      ensures OutsOf(r, s)[j] in r.conns && r.conns[OutsOf(r, s)[j]].input == s
    {
      var y := OutsOf(r, s)[j];
      assert y in OutsOf(n, s) && y != id;
      var k :| 0 <= k < |OutsOf(n, s)| && OutsOf(n, s)[k] == y;
    }
  }

  /** The `Ins` half of DestroyValid. */
  lemma DestroyIns(n: Network, id: nat, r: Network)
    requires InsLinked(n) && NoDuplicates(n) && id in n.conns
    requires InsOf(r, n.conns[id].output) == RemoveFirst(InsOf(n, n.conns[id].output), id)
    requires forall d :: d != n.conns[id].output ==> InsOf(r, d) == InsOf(n, d)
    requires r.conns == n.conns - {id}
    ensures forall d :: InsOf(r, d) == Without(InsOf(n, d), {id})
    ensures InsLinked(r)
  {
    var c := n.conns[id];
    forall d ensures InsOf(r, d) == Without(InsOf(n, d), {id}) {
      if d == c.output {
        RemoveFirstIsWithout(InsOf(n, d), id);
      } else {
        forall y | y in InsOf(n, d) ensures y !in {id} {
          var j :| 0 <= j < |InsOf(n, d)| && InsOf(n, d)[j] == y;
        }
        WithoutAbsent(InsOf(n, d), {id});
      }
    }
    forall d, j | 0 <= j < |InsOf(r, d)|
      ensures InsOf(r, d)[j] in r.conns && r.conns[InsOf(r, d)[j]].output == d
    {
      var y := InsOf(r, d)[j];
      assert y in InsOf(n, d) && y != id;
      var k :| 0 <= k < |InsOf(n, d)| && InsOf(n, d)[k] == y;
    }
  }

  /** After destroying a connection of a valid network no list holds it, and
      both endpoint lists are exactly one shorter. */
  lemma DestroyUnlinks(n: Network, id: nat)
    requires Valid(n) && id in n.conns
    ensures forall s :: id !in OutsOf(Destroy(n, id), s)
    ensures forall d :: id !in InsOf(Destroy(n, id), d)
    ensures |OutsOf(Destroy(n, id), n.conns[id].input)| == |OutsOf(n, n.conns[id].input)| - 1
    ensures |InsOf(Destroy(n, id), n.conns[id].output)| == |InsOf(n, n.conns[id].output)| - 1
  {
    assert id in OutsOf(n, n.conns[id].input) && id in InsOf(n, n.conns[id].output);
    DestroyKeepsValid(n, id);
  }

  /** Creating a connection and destroying it again restores the network
      (only the id counter has moved on). */
  lemma LinkThenDestroy(n: Network, s: Source, d: Sink)
    requires OutsLinked(n) && InsLinked(n) && FreshIds(n) && SourceOk(n, s) && SinkOk(n, d)
    ensures Destroy(Link(n, s, d), n.nextId) == n.(nextId := n.nextId + 1)
  {
    var r := Destroy(Link(n, s, d), n.nextId);
    LinkThenDestroyLists(n, s, d);
    OnlyCounterMoved(n, r);
  }

  /** A network with n's lists, connections and neurons differs from n in
      the id counter at most. */
  lemma OnlyCounterMoved(n: Network, r: Network)
    requires NeuronsKept(n, r)
    requires forall s :: OutsOf(r, s) == OutsOf(n, s)
    requires forall d :: InsOf(r, d) == InsOf(n, d)
    requires r.conns == n.conns
    ensures r == n.(nextId := r.nextId)
  {
    SameListsSameNetwork(n, r.(nextId := n.nextId));
  }

  lemma LinkThenDestroyLists(n: Network, s: Source, d: Sink)
    requires OutsLinked(n) && InsLinked(n) && FreshIds(n) && SourceOk(n, s) && SinkOk(n, d)
    ensures forall s' :: OutsOf(Destroy(Link(n, s, d), n.nextId), s') == OutsOf(n, s')
    ensures forall d' :: InsOf(Destroy(Link(n, s, d), n.nextId), d') == InsOf(n, d')
    ensures Destroy(Link(n, s, d), n.nextId).conns == n.conns
    ensures NeuronsKept(n, Destroy(Link(n, s, d), n.nextId))
    ensures Destroy(Link(n, s, d), n.nextId).nextId == n.nextId + 1
  {
    var id := n.nextId;
    var l := Link(n, s, d);
    var r := Destroy(l, id);
    FreshIdUnlisted(n, id);
    assert l.conns[id] == Connection(1.0, s, d);
    forall s' ensures OutsOf(r, s') == OutsOf(n, s') {
      if s' == s {
        RemoveFirstAppended(OutsOf(n, s), id);
      }
    }
    forall d' ensures InsOf(r, d') == InsOf(n, d') {
      if d' == d {
        RemoveFirstAppended(InsOf(n, d), id);
      }
    }
  }
}

=== FILE: converter.dfy ===
/** The reference-preserving writer for connections (`Connection.Converter`).

    The first time a connection is written it gets the next id of a running
    counter and its weight is written with it; the connection remembers the
    id. Writing it again emits a back-reference to the remembered id and makes
    the connection forget it. Connections are named by a key (their id in the
    network); the id written as a decimal string is modelled by its number. */
module Converter {

  /** One written JSON object: `{"$id": id, "Weight": w}` or `{"$ref": id}`. */
  datatype Token = IdToken(id: nat, weight: real) | RefToken(id: nat)

  /** The converter's counter and each connection's remembered id. */
  datatype WriterState = WriterState(currentId: nat, jsonIds: map<nat, nat>)

  /** A connection to write: its key and its weight. */
  datatype Item = Item(key: nat, weight: real)

  function Write(st: WriterState, item: Item): (Token, WriterState) {
    if item.key !in st.jsonIds then
      var id := st.currentId + 1;
      (IdToken(id, item.weight), WriterState(id, st.jsonIds[item.key := id]))
    else
      (RefToken(st.jsonIds[item.key]), WriterState(st.currentId, st.jsonIds - {item.key}))
  }

  function ResetId(st: WriterState): WriterState {
    st.(currentId := 0)
  }

  /** Writes the items in order, threading the converter's state. */
  function WriteAll(st: WriterState, items: seq<Item>): (WriterState, seq<Token>)
    decreases |items|
  {
    if items == [] then (st, [])
    else
      var (t, st1) := Write(st, items[0]);
      var (st2, ts) := WriteAll(st1, items[1..]);
      (st2, [t] + ts)
  }

  /** The ids of the `$id` objects, in output order. */
  function FreshIds(ts: seq<Token>): seq<nat> {
    if ts == [] then []
    else (if ts[0].IdToken? then [ts[0].id] else []) + FreshIds(ts[1..])
  }

  /** A connection written twice comes out as `$id` then `$ref` to that same
      id, the counter has moved by one and the connection has forgotten it. */
  lemma WriteTwice(st: WriterState, item: Item)
    requires item.key !in st.jsonIds
    ensures var (t1, st1) := Write(st, item);
      var (t2, st2) := Write(st1, item);
      t1 == IdToken(st.currentId + 1, item.weight) && t2 == RefToken(st.currentId + 1) &&
      st2 == WriterState(st.currentId + 1, st.jsonIds)
  {
    var (t1, st1) := Write(st, item);
    assert st1.jsonIds - {item.key} == st.jsonIds;
  }

  /** Writing a remembered connection leaves the counter alone. */
  lemma RefKeepsCounter(st: WriterState, item: Item)
    requires item.key in st.jsonIds
    ensures Write(st, item).0 == RefToken(st.jsonIds[item.key])
    ensures Write(st, item).1.currentId == st.currentId
    ensures item.key !in Write(st, item).1.jsonIds
  {
  }

  /** After ResetId the next fresh id is 1. */
  lemma ResetRestartsAtOne(st: WriterState, item: Item)
    requires item.key !in st.jsonIds
    ensures Write(ResetId(st), item).0 == IdToken(1, item.weight)
  {
  }

  /** Within one run the fresh ids are consecutive from the counter on, so they
      are strictly increasing and pairwise distinct; the counter ends at the
      last of them. */
  lemma {:induction false} FreshIdsConsecutive(st: WriterState, items: seq<Item>)
    ensures var (st', ts) := WriteAll(st, items);
      st'.currentId == st.currentId + |FreshIds(ts)| &&
      forall i :: 0 <= i < |FreshIds(ts)| ==> FreshIds(ts)[i] == st.currentId + 1 + i
    decreases |items|
  {
    if items != [] {
      var (t, st1) := Write(st, items[0]);
      var (st2, ts) := WriteAll(st1, items[1..]);
      FreshIdsConsecutive(st1, items[1..]);
      assert WriteAll(st, items) == (st2, [t] + ts);
      assert ([t] + ts)[1..] == ts;
    }
  }

  /** Every `$ref` in ts names an id in known or one of an earlier `$id`. */
  ghost predicate RefsResolve(ts: seq<Token>, known: set<nat>) {
    forall p :: 0 <= p < |ts| && ts[p].RefToken? ==>
      ts[p].id in known || exists q :: 0 <= q < p && ts[q].IdToken? && ts[q].id == ts[p].id
  }

  /** Every `$ref` written refers to an id remembered at the start or to an
      id written earlier in the same run. */
  lemma {:induction false} RefsPointBack(st: WriterState, items: seq<Item>)
    ensures RefsResolve(WriteAll(st, items).1, st.jsonIds.Values)
    decreases |items|
  {
    if items != [] {
      var wr := Write(st, items[0]);
      var t, st1 := wr.0, wr.1;
      var ts := WriteAll(st1, items[1..]).1;
      RefsPointBack(st1, items[1..]);
      assert WriteAll(st, items).1 == [t] + ts;
      var all := [t] + ts;
      forall p | 0 <= p < |all| && all[p].RefToken?
        ensures all[p].id in st.jsonIds.Values || exists q :: 0 <= q < p && all[q].IdToken? && all[q].id == all[p].id
      {
        if p == 0 {
          assert items[0].key in st.jsonIds;
        } else {
          assert all[p] == ts[p - 1];
          if all[p].id in st1.jsonIds.Values {
            var k :| k in st1.jsonIds && st1.jsonIds[k] == all[p].id;
            if items[0].key !in st.jsonIds && k == items[0].key {
              assert all[0].IdToken? && all[0].id == all[p].id;
            } else {
              assert k in st.jsonIds && st.jsonIds[k] == all[p].id;
            }
          } else {
            var q :| 0 <= q < p - 1 && ts[q].IdToken? && ts[q].id == ts[p - 1].id;
            assert all[q + 1] == ts[q];
          }
        }
      }
      assert RefsResolve(all, st.jsonIds.Values);
    }
  }
}

=== FILE: draws.dfy ===
/** System.Random as seen by the model: each call `Next(bound)` consumes one
    raw draw, a natural number chosen by the caller, and reduces it into
    [0, bound). Which raw draws come up is left to the caller, so every
    property proved for all draws holds whatever the generator produces. */
module Draws {

  /** `Random.Next(bound)` applied to the raw draw d. */
  function Next(d: nat, bound: nat): (r: nat)
    requires bound > 0
    ensures r < bound
    ensures d < bound ==> r == d
  {
    d % bound
  }

  /** `Random.NextSingle()` has 2^24 evenly spaced values in [0, 1). */
  const SingleSteps: nat := 0x100_0000

  /** `Random.NextSingle()` applied to the raw draw d. */
  function NextSingle(d: nat): (r: real)
    ensures 0.0 <= r < 1.0
  {
    var k := d % SingleSteps;
    assert (k as real) < SingleSteps as real;
    k as real / SingleSteps as real
  }
}

=== FILE: flood.dfy ===
/** `SafeReveal`, the recursive flood fill both game windows use.

    Revealing a safe tile shows how many of its neighbours hide a bomb. On a
    zero the fill continues into every neighbour that is still covered; on
    any other number the covered neighbours are only marked `CanTell`. Each
    revealed tile takes one off `safeSpotsLeft`. The recursion ends because
    every call uncovers one tile: the number of covered tiles falls. */
module FloodFill {
  import opened Images
  import opened Boards

  /** What revealing safe tile d of a shows: its bomb count, no hint. */
  ghost predicate ShowsCount(a: Board, d: Cell, t: Tile)
    requires Valid(a) && d in a.tiles
  {
    !a.tiles[d].isBomb && t == Tile(false, false, Number(BombsNear(a, d)))
  }

  /** r comes from a by revealing safe covered tiles only: the cells, the
      bombs and every tile that was not covered stay as they were, and every
      tile that was uncovered was safe and shows its bomb count. */
  ghost predicate Uncovers(a: Board, r: Board) {
    Valid(a) && Valid(r) && SameBombs(a, r) &&
    (forall d :: d in a.tiles && a.tiles[d].source != Normal ==> r.tiles[d] == a.tiles[d]) &&
    (forall d :: d in a.tiles && a.tiles[d].source == Normal && r.tiles[d].source != Normal ==>
      ShowsCount(a, d, r.tiles[d]))
  }

  /** Every neighbour of c is uncovered (shows something other than Normal). */
  ghost predicate Flooded(r: Board, c: Cell)
    requires Valid(r)
  {
    forall d :: d in Neighbours(r.size, c) ==> r.tiles[d].source != Normal
  }

  /** Every tile uncovered on the way from a to r that shows 0 has no
      covered neighbour left. */
  ghost predicate FloodClosed(a: Board, r: Board)
    requires Valid(r)
  {
    forall d :: d in a.tiles && a.tiles[d].source == Normal && d in r.tiles && r.tiles[d].source == Number(0)
      ==> Flooded(r, d)
  }

  /** safeSpotsLeft fell by one for each tile uncovered. */
  ghost predicate CountsReveals(a: Board, r: Board) {
    r.safeSpotsLeft == a.safeSpotsLeft - (|NormalCells(a)| - |NormalCells(r)|)
  }

  /** d was covered on a and is uncovered on r. */
  ghost predicate Opened(a: Board, r: Board, d: Cell) {
    d in a.tiles && a.tiles[d].source == Normal && d in r.tiles && r.tiles[d].source != Normal
  }

  /** p is a walk over tiles uncovered from a to r, each step to a
      neighbour, every tile but the last showing 0: the way a flood goes. */
  ghost predicate ZeroChain(a: Board, r: Board, p: seq<Cell>) {
    p != [] && forall i :: 0 <= i < |p| ==> ZeroLink(a, r, p, i)
  }

  /** Position i of a zero chain. */
  ghost predicate ZeroLink(a: Board, r: Board, p: seq<Cell>, i: nat)
    requires i < |p|
  {
    Opened(a, r, p[i]) &&
    (i < |p| - 1 ==> r.tiles[p[i]].source == Number(0) && p[i + 1] in Neighbours(a.size, p[i]))
  }

  /** A zero chain leads from c to d. */
  ghost predicate ReachedFrom(a: Board, r: Board, c: Cell, d: Cell) {
    exists p :: ZeroChain(a, r, p) && p[0] == c && p[|p| - 1] == d
  }

  /** Every tile uncovered from a to r is reached from c. */
  ghost predicate FloodFrom(a: Board, r: Board, c: Cell) {
    forall d :: Opened(a, r, d) ==> ReachedFrom(a, r, c, d)
  }

  /** Every tile uncovered from a to r is reached from some cell of cs. */
  ghost predicate FloodFromAny(a: Board, r: Board, cs: seq<Cell>) {
    forall d :: Opened(a, r, d) ==> exists e :: e in cs && ReachedFrom(a, r, e, d)
  }

  /** The same walk read on b alone: safe covered tiles, each step to a
      neighbour, no bomb around any tile but the last. */
  ghost predicate CoveredChain(b: Board, p: seq<Cell>)
    requires Valid(b)
  {
    p != [] && forall i :: 0 <= i < |p| ==> CoveredLink(b, p, i)
  }

  /** Position i of a covered chain. */
  ghost predicate CoveredLink(b: Board, p: seq<Cell>, i: nat)
    requires Valid(b) && i < |p|
  {
    p[i] in b.tiles && b.tiles[p[i]].source == Normal && !b.tiles[p[i]].isBomb &&
    (i < |p| - 1 ==> BombsNear(b, p[i]) == 0 && p[i + 1] in Neighbours(b.size, p[i]))
  }

  /** A flood started at c on b can get to d. */
  ghost predicate Floodable(b: Board, c: Cell, d: Cell)
    requires Valid(b)
  {
    exists p :: CoveredChain(b, p) && p[0] == c && p[|p| - 1] == d
  }

  /** `SafeReveal(x, y)`: reveal the safe covered tile c and flood from it. */
  function SafeReveal(b: Board, c: Cell): (r: Board)
    requires Valid(b) && InBounds(b.size, c)
    requires b.tiles[c].source == Normal && !b.tiles[c].isBomb
    ensures Uncovers(b, r) && r.tiles[c].source != Normal
    ensures NormalCells(r) < NormalCells(b)
    ensures CountsReveals(b, r)
    ensures FloodClosed(b, r)
    ensures BombsNear(b, c) != 0 ==> NormalCells(r) == NormalCells(b) - {c}
    ensures FloodFrom(b, r, c)
    decreases |NormalCells(b)|, 0
  {
    var near := Neighbours(b.size, c);
    var count := BombsNear(b, c);
    // The closing `--_safeSpotsLeft` is taken here: nothing in between
    // reads the counter, so the result is the same.
    var b1 := Board(b.size, b.tiles[c := b.tiles[c].(canTell := false, source := Number(count))], b.safeSpotsLeft - 1);
    UncoverOne(b, c, b1);
    if count == 0 then
      NeighboursInBounds(b1, c);
      var r := RevealEach(b1, near);
      ZeroStep(b, c, b1, r);
      ZeroChains(b, c, b1, r);
      r
    else
      var r := MarkEach(b1, near);
      MarkStep(b, c, b1, near, r);
      r
  }

  /** The `foreach` of a zero: reveal each cell of cs that is still covered
      when its turn comes. */
  function RevealEach(b: Board, cs: seq<Cell>): (r: Board)
    requires Valid(b)
    requires forall d :: d in cs ==> InBounds(b.size, d) && !b.tiles[d].isBomb
    ensures Uncovers(b, r)
    ensures NormalCells(r) <= NormalCells(b)
    ensures forall d :: d in cs ==> r.tiles[d].source != Normal
    ensures CountsReveals(b, r)
    ensures FloodClosed(b, r)
    ensures FloodFromAny(b, r, cs)
    decreases |NormalCells(b)|, 1, |cs|
  {
    if cs == [] then
      UncoversRefl(b);
      b
    else
      var b1 := if b.tiles[cs[0]].source == Normal then SafeReveal(b, cs[0]) else b;
      UncoversRefl(b);
      SubsetCard(NormalCells(b1), NormalCells(b));
      RestStaysSafe(b, b1, cs);
      var r := RevealEach(b1, cs[1..]);
      EachStepCloses(b, cs, b1, r);
      EachStepChains(b, cs, b1, r);
      r
  }

  /** The `foreach` of a nonzero count: mark each covered cell of cs. */
  function MarkEach(b: Board, cs: seq<Cell>): (r: Board)
    requires forall d :: d in cs ==> d in b.tiles
    ensures r.size == b.size && r.safeSpotsLeft == b.safeSpotsLeft
    ensures r.tiles.Keys == b.tiles.Keys
    ensures forall d :: d in b.tiles ==>
      r.tiles[d] == if d in cs && b.tiles[d].source == Normal then b.tiles[d].(canTell := true) else b.tiles[d]
    decreases |cs|
  {
    if cs == [] then b
    else
      var d := cs[0];
      var b1 := if b.tiles[d].source == Normal then SetTile(b, d, b.tiles[d].(canTell := true)) else b;
      MarkEach(b1, cs[1..])
  }

  lemma UncoversRefl(b: Board)
    requires Valid(b)
    ensures Uncovers(b, b) && FloodClosed(b, b) && CountsReveals(b, b)
    ensures forall c :: FloodFrom(b, b, c)
  {
  }

  lemma SubsetCard(a: set<Cell>, b: set<Cell>)
    requires a <= b
    ensures |a| <= |b|
  {
    assert b == a + (b - a);
  }

  /** The cells still queued keep their bombs across one turn. */
  lemma RestStaysSafe(b: Board, b1: Board, cs: seq<Cell>)
    requires Uncovers(b, b1) && cs != []
    requires forall d :: d in cs ==> InBounds(b.size, d) && !b.tiles[d].isBomb
    ensures forall d :: d in cs[1..] ==> InBounds(b1.size, d) && !b1.tiles[d].isBomb
  {
    forall d | d in cs[1..] ensures InBounds(b1.size, d) && !b1.tiles[d].isBomb {
      assert d in cs;
    }
  }

  lemma NeighboursInBounds(b: Board, c: Cell)
    requires Valid(b)
    ensures forall d :: d in Neighbours(b.size, c) ==> InBounds(b.size, d)
  {
  }

  /** Uncovering c alone: the first two statements of `SafeReveal`, with
      its last. */
  lemma UncoverOne(b: Board, c: Cell, b1: Board)
    requires Valid(b) && InBounds(b.size, c)
    requires b.tiles[c].source == Normal && !b.tiles[c].isBomb
    requires b1 == Board(b.size, b.tiles[c := b.tiles[c].(canTell := false, source := Number(BombsNear(b, c)))], b.safeSpotsLeft - 1)
    ensures Uncovers(b, b1) && NormalCells(b1) == NormalCells(b) - {c} && CountsReveals(b, b1)
    ensures b1.tiles[c].source == Number(BombsNear(b, c)) && b1.size == b.size && c in NormalCells(b)
  {
    var t := b.tiles[c].(canTell := false, source := Number(BombsNear(b, c)));
    assert ShowsCount(b, c, t);
    var b0 := SetTile(b, c, t);
    SetTileValid(b, c, t, b0);
    SetTileNormals(b, c, t, b0);
    SetTileUncovers(b, c, t, b0);
    assert b1 == b0.(safeSpotsLeft := b.safeSpotsLeft - 1);
    assert |NormalCells(b1)| == |NormalCells(b)| - 1;
  }

  lemma SetTileValid(b: Board, c: Cell, t: Tile, b1: Board)
    requires Valid(b) && c in b.tiles && b1 == SetTile(b, c, t)
    ensures Valid(b1) && b1.size == b.size
    ensures t.isBomb == b.tiles[c].isBomb ==> SameBombs(b, b1)
  {
  }

  lemma SetTileNormals(b: Board, c: Cell, t: Tile, b1: Board)
    requires c in b.tiles && b.tiles[c].source == Normal && t.source != Normal
    requires b1 == SetTile(b, c, t)
    ensures NormalCells(b1) == NormalCells(b) - {c}
  {
  }

  lemma SetTileUncovers(b: Board, c: Cell, t: Tile, b1: Board)
    requires Valid(b) && c in b.tiles && b.tiles[c].source == Normal && ShowsCount(b, c, t)
    requires Valid(b1) && SameBombs(b, b1) && b1.tiles[c] == t
    requires forall d :: d in b.tiles && d != c ==> b1.tiles[d] == b.tiles[d]
    ensures Uncovers(b, b1)
  {
  }

  /** Uncovering is transitive. */
  lemma UncoversTrans(a: Board, m: Board, r: Board)
    requires Uncovers(a, m) && Uncovers(m, r)
    ensures Uncovers(a, r)
    ensures NormalCells(r) <= NormalCells(m) <= NormalCells(a)
  {
    forall d | d in a.tiles && a.tiles[d].source == Normal && r.tiles[d].source != Normal
      ensures ShowsCount(a, d, r.tiles[d])
    {
      BombsNearSame(a, m, d);
    }
  }

  /** Flood closure carries over a further uncovering. */
  lemma FloodClosedTrans(a: Board, m: Board, r: Board)
    requires Uncovers(a, m) && Uncovers(m, r)
    requires FloodClosed(a, m) && FloodClosed(m, r)
    ensures FloodClosed(a, r)
  {
    forall d | d in a.tiles && a.tiles[d].source == Normal && r.tiles[d].source == Number(0)
      ensures Flooded(r, d)
    {
      if m.tiles[d].source != Normal {
        assert Flooded(m, d);
        FloodedStays(m, r, d);
      }
    }
  }

  lemma FloodedStays(m: Board, r: Board, c: Cell)
    requires Uncovers(m, r) && Flooded(m, c)
    ensures Flooded(r, c)
  {
    forall d | d in Neighbours(r.size, c) ensures r.tiles[d].source != Normal {
      assert m.tiles[d].source != Normal;
    }
  }

  /** One turn of the zero-count loop followed by the rest of it. */
  lemma EachStepCloses(b: Board, cs: seq<Cell>, b1: Board, r: Board)
    requires Valid(b) && cs != []
    requires forall d :: d in cs ==> InBounds(b.size, d) && !b.tiles[d].isBomb
    requires Uncovers(b, b1) && b1.tiles[cs[0]].source != Normal
    requires NormalCells(b1) <= NormalCells(b) && CountsReveals(b, b1) && FloodClosed(b, b1)
    requires Uncovers(b1, r) && NormalCells(r) <= NormalCells(b1)
    requires forall d :: d in cs[1..] ==> r.tiles[d].source != Normal
    requires CountsReveals(b1, r) && FloodClosed(b1, r)
    ensures Uncovers(b, r) && NormalCells(r) <= NormalCells(b)
    ensures forall d :: d in cs ==> r.tiles[d].source != Normal
    ensures CountsReveals(b, r) && FloodClosed(b, r)
  {
    UncoversTrans(b, b1, r);
    FloodClosedTrans(b, b1, r);
    forall d | d in cs ensures r.tiles[d].source != Normal {
      if d == cs[0] {
        assert b1.tiles[d].source != Normal;
      } else {
        assert d in cs[1..];
      }
    }
  }

  /** A zero: c shows 0 and every neighbour has been revealed. */
  lemma ZeroStep(b: Board, c: Cell, b1: Board, r: Board)
    requires Valid(b) && c in NormalCells(b)
    requires Uncovers(b, b1) && NormalCells(b1) == NormalCells(b) - {c} && CountsReveals(b, b1)
    requires b1.tiles[c].source == Number(0) && b1.size == b.size
    requires Uncovers(b1, r) && NormalCells(r) <= NormalCells(b1)
    requires forall d :: d in Neighbours(b1.size, c) ==> r.tiles[d].source != Normal
    requires CountsReveals(b1, r) && FloodClosed(b1, r)
    ensures Uncovers(b, r) && r.tiles[c].source != Normal
    ensures NormalCells(r) < NormalCells(b)
    ensures CountsReveals(b, r)
    ensures FloodClosed(b, r)
  {
    UncoversTrans(b, b1, r);
    assert r.tiles[c] == b1.tiles[c];
    ZeroClosed(b, c, b1, r);
  }

  lemma ZeroClosed(b: Board, c: Cell, b1: Board, r: Board)
    requires Valid(b) && Valid(r) && NormalCells(b1) == NormalCells(b) - {c}
    requires r.size == b.size && b1.tiles.Keys == b.tiles.Keys
    requires forall d :: d in Neighbours(b.size, c) ==> r.tiles[d].source != Normal
    requires FloodClosed(b1, r)
    ensures FloodClosed(b, r)
  {
    forall d | d in b.tiles && b.tiles[d].source == Normal && d in r.tiles && r.tiles[d].source == Number(0)
      ensures Flooded(r, d)
    {
      if d != c {
        assert d in NormalCells(b1);
      }
    }
  }

  /** A nonzero count: c shows it and only `CanTell` marks follow. */
  lemma MarkStep(b: Board, c: Cell, b1: Board, cs: seq<Cell>, r: Board)
    requires Valid(b) && c in NormalCells(b)
    requires Uncovers(b, b1) && NormalCells(b1) == NormalCells(b) - {c} && CountsReveals(b, b1)
    requires b1.tiles[c].source != Number(0) && b1.tiles[c].source != Normal
    requires r.size == b1.size && r.safeSpotsLeft == b1.safeSpotsLeft && r.tiles.Keys == b1.tiles.Keys
    requires forall d :: d in b1.tiles ==>
      r.tiles[d] == if d in cs && b1.tiles[d].source == Normal then b1.tiles[d].(canTell := true) else b1.tiles[d]
    ensures Uncovers(b, r) && r.tiles[c].source != Normal
    ensures NormalCells(r) < NormalCells(b)
    ensures CountsReveals(b, r)
    ensures FloodClosed(b, r)
    ensures NormalCells(r) == NormalCells(b) - {c} && FloodFrom(b, r, c)
  {
    MarkUncovers(b1, cs, r);
    UncoversTrans(b, b1, r);
    MarkClosed(b, c, b1, r);
    OnlyOneOpened(b, c, r);
  }

  lemma MarkUncovers(b1: Board, cs: seq<Cell>, r: Board)
    requires Valid(b1)
    requires r.size == b1.size && r.safeSpotsLeft == b1.safeSpotsLeft && r.tiles.Keys == b1.tiles.Keys
    requires forall d :: d in b1.tiles ==>
      r.tiles[d] == if d in cs && b1.tiles[d].source == Normal then b1.tiles[d].(canTell := true) else b1.tiles[d]
    ensures Uncovers(b1, r) && NormalCells(r) == NormalCells(b1) && CountsReveals(b1, r)
  {
  }

  lemma MarkClosed(b: Board, c: Cell, b1: Board, r: Board)
    requires Valid(r) && NormalCells(b1) == NormalCells(b) - {c} && NormalCells(r) == NormalCells(b1)
    requires b.tiles.Keys == r.tiles.Keys && c in r.tiles && r.tiles[c].source != Number(0)
    ensures FloodClosed(b, r)
  {
    forall d | d in b.tiles && b.tiles[d].source == Normal
      ensures r.tiles[d].source != Number(0)
    {
      if d != c {
        assert d in NormalCells(r);
      }
    }
  }

  /** When c is the only tile uncovered, c reaches it alone. */
  lemma OnlyOneOpened(b: Board, c: Cell, r: Board)
    requires NormalCells(r) == NormalCells(b) - {c} && Opened(b, r, c)
    ensures FloodFrom(b, r, c)
  {
    forall d | Opened(b, r, d) ensures ReachedFrom(b, r, c, d) {
      assert d in NormalCells(b) && d !in NormalCells(r);
      SelfReached(b, r, c);
    }
  }

  /** An uncovered tile reaches itself. */
  lemma SelfReached(b: Board, r: Board, c: Cell)
    requires Opened(b, r, c)
    ensures ReachedFrom(b, r, c, c)
  {
    assert ZeroLink(b, r, [c], 0);
    assert ZeroChain(b, r, [c]);
  }

  /** A tile that is not covered on m keeps its picture on r. */
  ghost predicate StaysOpen(m: Board, r: Board) {
    forall x :: x in m.tiles && m.tiles[x].source != Normal ==> x in r.tiles && r.tiles[x] == m.tiles[x]
  }

  /** Same grid, and a tile covered on m was covered on a. */
  ghost predicate WasCovered(a: Board, m: Board) {
    a.size == m.size && a.tiles.Keys == m.tiles.Keys &&
    forall x :: x in m.tiles && m.tiles[x].source == Normal ==> a.tiles[x].source == Normal
  }

  lemma UncoversSlim(a: Board, m: Board)
    requires Uncovers(a, m)
    ensures StaysOpen(a, m) && WasCovered(a, m)
  {
  }

  /** A chain over tiles uncovered from a to m survives a further uncovering. */
  lemma ChainLater(a: Board, m: Board, r: Board, p: seq<Cell>)
    requires StaysOpen(m, r) && ZeroChain(a, m, p)
    ensures ZeroChain(a, r, p)
  {
    forall i | 0 <= i < |p| ensures ZeroLink(a, r, p, i) {
      assert ZeroLink(a, m, p, i);
    }
  }

  /** A chain over tiles uncovered from m to r is one from a. */
  lemma ChainEarlier(a: Board, m: Board, r: Board, p: seq<Cell>)
    requires WasCovered(a, m) && ZeroChain(m, r, p)
    ensures ZeroChain(a, r, p)
  {
    forall i | 0 <= i < |p| ensures ZeroLink(a, r, p, i) {
      assert ZeroLink(m, r, p, i);
    }
  }

  lemma ReachedLater(a: Board, m: Board, r: Board, c: Cell, d: Cell)
    requires StaysOpen(m, r) && ReachedFrom(a, m, c, d)
    ensures ReachedFrom(a, r, c, d)
  {
    var p :| ZeroChain(a, m, p) && p[0] == c && p[|p| - 1] == d;
    ChainLater(a, m, r, p);
  }

  lemma ReachedEarlier(a: Board, m: Board, r: Board, c: Cell, d: Cell)
    requires WasCovered(a, m) && ReachedFrom(m, r, c, d)
    ensures ReachedFrom(a, r, c, d)
  {
    var p :| ZeroChain(m, r, p) && p[0] == c && p[|p| - 1] == d;
    ChainEarlier(a, m, r, p);
  }

  /** Stepping back from the head of a chain to an uncovered zero next to it. */
  lemma ChainPrepend(a: Board, r: Board, c: Cell, p: seq<Cell>)
    requires ZeroChain(a, r, p) && Opened(a, r, c) && r.tiles[c].source == Number(0)
    requires p[0] in Neighbours(a.size, c)
    ensures ZeroChain(a, r, [c] + p)
  {
    var q := [c] + p;
    forall i | 0 <= i < |q| ensures ZeroLink(a, r, q, i) {
      if i > 0 {
        assert ZeroLink(a, r, p, i - 1);
        assert q[i] == p[i - 1];
        assert i < |q| - 1 ==> q[i + 1] == p[i];
      } else {
        assert q[1] == p[0];
      }
    }
  }

  /** An uncovered zero next to the start of a chain reaches its end. */
  lemma PrependReached(a: Board, r: Board, c: Cell, e: Cell, d: Cell)
    requires Opened(a, r, c) && r.tiles[c].source == Number(0)
    requires e in Neighbours(a.size, c) && ReachedFrom(a, r, e, d)
    ensures ReachedFrom(a, r, c, d)
  {
    var p :| ZeroChain(a, r, p) && p[0] == e && p[|p| - 1] == d;
    ChainPrepend(a, r, c, p);
    var q := [c] + p;
    assert q[0] == c && q[|q| - 1] == d;
  }

  /** One turn of the zero-count loop followed by the rest of it: whatever
      either part uncovered is reached from a cell of the list. */
  lemma EachStepChains(b: Board, cs: seq<Cell>, b1: Board, r: Board)
    requires Uncovers(b, b1) && Uncovers(b1, r) && cs != []
    requires FloodFrom(b, b1, cs[0]) && FloodFromAny(b1, r, cs[1..])
    ensures FloodFromAny(b, r, cs)
  {
    UncoversSlim(b, b1);
    UncoversSlim(b1, r);
    EachStepChainsSlim(b, cs, b1, r);
  }

  lemma EachStepChainsSlim(b: Board, cs: seq<Cell>, b1: Board, r: Board)
    requires WasCovered(b, b1) && StaysOpen(b1, r) && cs != []
    requires FloodFrom(b, b1, cs[0]) && FloodFromAny(b1, r, cs[1..])
    ensures FloodFromAny(b, r, cs)
  {
    forall d | Opened(b, r, d) ensures exists e :: e in cs && ReachedFrom(b, r, e, d) {
      if Opened(b, b1, d) {
        ReachedLater(b, b1, r, cs[0], d);
        assert cs[0] in cs;
      } else {
        assert Opened(b1, r, d);
        var e :| e in cs[1..] && ReachedFrom(b1, r, e, d);
        ReachedEarlier(b, b1, r, e, d);
        assert e in cs;
      }
    }
  }

  /** A zero: c reaches itself, and through itself whatever the loop over
      its neighbours uncovered. */
  lemma ZeroChains(b: Board, c: Cell, b1: Board, r: Board)
    requires Uncovers(b, b1) && NormalCells(b1) == NormalCells(b) - {c} && c in NormalCells(b)
    requires b1.tiles[c].source == Number(0)
    requires Uncovers(b1, r) && FloodFromAny(b1, r, Neighbours(b.size, c))
    ensures FloodFrom(b, r, c)
  {
    UncoversSlim(b, b1);
    UncoversSlim(b1, r);
    ZeroChainsSlim(b, c, b1, r);
  }

  lemma ZeroChainsSlim(b: Board, c: Cell, b1: Board, r: Board)
    requires WasCovered(b, b1) && StaysOpen(b1, r)
    requires NormalCells(b1) == NormalCells(b) - {c} && c in NormalCells(b)
    requires c in b1.tiles && b1.tiles[c].source == Number(0)
    requires FloodFromAny(b1, r, Neighbours(b.size, c))
    ensures FloodFrom(b, r, c)
  {
    assert r.tiles[c] == b1.tiles[c];
    assert Opened(b, r, c);
    forall d | Opened(b, r, d) ensures ReachedFrom(b, r, c, d) {
      if d == c {
        SelfReached(b, r, c);
      } else {
        assert d in NormalCells(b1);
        assert Opened(b1, r, d);
        var e :| e in Neighbours(b.size, c) && ReachedFrom(b1, r, e, d);
        ReachedEarlier(b, b1, r, e, d);
        PrependReached(b, r, c, e, d);
      }
    }
  }

  /** The tiles a reveal uncovers are exactly those a flood started at c
      can get to through covered safe tiles with no bomb around them:
      `SafeReveal` against a definition on the starting board alone. */
  lemma RevealIsFloodable(b: Board, c: Cell, d: Cell)
    requires Valid(b) && InBounds(b.size, c)
    requires b.tiles[c].source == Normal && !b.tiles[c].isBomb
    ensures Opened(b, SafeReveal(b, c), d) <==> Floodable(b, c, d)
  {
    var r := SafeReveal(b, c);
    FloodIsFloodable(b, r, c, d);
  }

  /** The same for any closed flood from c: what it uncovered is what a
      flood from c can get to. */
  lemma FloodIsFloodable(b: Board, r: Board, c: Cell, d: Cell)
    requires Uncovers(b, r) && FloodClosed(b, r) && FloodFrom(b, r, c) && Opened(b, r, c)
    ensures Opened(b, r, d) <==> Floodable(b, c, d)
  {
    if Opened(b, r, d) {
      ReachedCovered(b, r, c, d);
    }
    if Floodable(b, c, d) {
      ClosedSpreads(b, r);
      FloodableOpened(b, r, c, d);
    }
  }

  /** Read on the starting board, a zero chain is a covered chain. */
  lemma ReachedCovered(b: Board, r: Board, c: Cell, d: Cell)
    requires Uncovers(b, r) && ReachedFrom(b, r, c, d)
    ensures Floodable(b, c, d)
  {
    var p :| ZeroChain(b, r, p) && p[0] == c && p[|p| - 1] == d;
    forall i | 0 <= i < |p| ensures CoveredLink(b, p, i) {
      assert ZeroLink(b, r, p, i);
      assert ShowsCount(b, p[i], r.tiles[p[i]]);
    }
    assert CoveredChain(b, p);
  }

  /** Every uncovered tile with no bomb around it has had each covered
      neighbour uncovered too. */
  ghost predicate ZeroSpreads(b: Board, r: Board) {
    Valid(b) && forall e {:trigger Spread(b, r, e)} :: Opened(b, r, e) && BombsNear(b, e) == 0 ==> Spread(b, r, e)
  }

  ghost predicate Spread(b: Board, r: Board, e: Cell) {
    forall d {:trigger Opened(b, r, d)} :: d in Neighbours(b.size, e) && d in b.tiles && b.tiles[d].source == Normal ==> Opened(b, r, d)
  }

  /** A closed flood spreads from each zero it uncovered. */
  lemma ClosedSpreads(b: Board, r: Board)
    requires Uncovers(b, r) && FloodClosed(b, r)
    ensures ZeroSpreads(b, r)
  {
    forall e | Opened(b, r, e) && BombsNear(b, e) == 0 ensures Spread(b, r, e) {
      forall d | d in Neighbours(b.size, e) && d in b.tiles && b.tiles[d].source == Normal
        ensures Opened(b, r, d)
      {
        OpenedNextToZero(b, r, e, d);
      }
    }
  }

  /** A closed flood that uncovered the start of a covered chain uncovered
      its end. */
  lemma FloodableOpened(b: Board, r: Board, c: Cell, d: Cell)
    requires Valid(b) && ZeroSpreads(b, r) && Opened(b, r, c) && Floodable(b, c, d)
    ensures Opened(b, r, d)
  {
    var p :| CoveredChain(b, p) && p[0] == c && p[|p| - 1] == d;
    ChainOpened(b, r, p, |p| - 1);
  }

  /** A flood that spreads from its zeros and has uncovered the head of a
      covered chain has uncovered all of it. */
  lemma {:induction false} ChainOpened(b: Board, r: Board, p: seq<Cell>, k: nat)
    requires Valid(b) && ZeroSpreads(b, r) && CoveredChain(b, p)
    requires Opened(b, r, p[0]) && k < |p|
    ensures Opened(b, r, p[k])
    decreases k
  {
    if k > 0 {
      ChainOpened(b, r, p, k - 1);
      assert CoveredLink(b, p, k - 1);
      assert CoveredLink(b, p, k);
      assert Spread(b, r, p[k - 1]);
    }
  }

  /** A closed flood that uncovered a tile with no bomb around it has
      uncovered each covered neighbour. */
  lemma OpenedNextToZero(b: Board, r: Board, e: Cell, d: Cell)
    requires Uncovers(b, r) && FloodClosed(b, r) && Opened(b, r, e)
    requires BombsNear(b, e) == 0 && d in Neighbours(b.size, e)
    requires d in b.tiles && b.tiles[d].source == Normal
    ensures Opened(b, r, d)
  {
    assert ShowsCount(b, e, r.tiles[e]);
    assert Flooded(r, e);
  }
}

=== FILE: game_logic.dfy ===
/** The game window `MinesweeperGame`: new game, the right-click flag, the
    reveal with mine setup, losing and winning, and the mine-count and size
    boxes. The timer, the AI menu and the window plumbing are not part of
    the model. */
module GameLogic {
  import opened Images
  import opened Boards
  import opened FloodFill
  import opened Mines
  import opened Play

  /** The fields the rules read and write. `start` is true until the first
      reveal of a game places the mines. */
  datatype Game = Game(board: Board, face: Image, start: bool, totalMines: int, minesLeft: int)

  /** What holds between any two events: the mines fit the grid; before the
      first reveal there is no bomb, every tile is covered or flagged and the
      counter is cells − mines; afterwards the counter is the number of safe
      tiles still covered. */
  ghost predicate Inv(g: Game) {
    Valid(g.board) && 1 <= g.totalMines <= g.board.size * g.board.size - 9 &&
    (g.start ==> Bombs(g.board) == {} && Untouched(g.board) &&
                 g.board.safeSpotsLeft == g.board.size * g.board.size - g.totalMines) &&
    (!g.start ==> g.board.safeSpotsLeft == |Pending(g.board)|)
  }

  /** The window as constructed: 25 × 25 tiles, 125 mines, 500 safe spots. */
  function Initial(): (g: Game)
    ensures Inv(g) && g.start && g.face == Happy
    ensures g.board.size == 25 && g.totalMines == 125 && g.board.safeSpotsLeft == 500
  {
    var b := Blank(25, 500);
    assert Bombs(b) == {};
    Game(b, Happy, true, 125, 125)
  }

  /** `NewGame()`: every tile covered, safe and without hint, the counter
      reset to cells − mines, mines placed on the next reveal. */
  function NewGame(g: Game): (r: Game)
    ensures r.start && r.face == g.face && r.totalMines == g.totalMines && r.minesLeft == g.minesLeft
    ensures Valid(r.board) && r.board.size == g.board.size
    ensures forall d :: d in r.board.tiles ==> r.board.tiles[d] == Tile(false, false, Normal)
    ensures r.board.safeSpotsLeft == r.board.size * r.board.size - r.totalMines
  {
    g.(start := true, board := Blank(g.board.size, g.board.size * g.board.size - g.totalMines))
  }

  /** A new game keeps the invariant whenever the mine count fits the grid. */
  lemma NewGameKeepsInv(g: Game)
    requires 1 <= g.totalMines <= g.board.size * g.board.size - 9
    ensures Inv(NewGame(g))
  {
    assert Bombs(NewGame(g).board) == {};
  }

  /** The New Game button: the face turns happy, then `NewGame()`. */
  function NewGameClick(g: Game): (r: Game)
    ensures r.face == Happy && r.start && r.totalMines == g.totalMines && r.minesLeft == g.minesLeft
    ensures Valid(r.board) && r.board.size == g.board.size
    ensures forall d :: d in r.board.tiles ==> r.board.tiles[d] == Tile(false, false, Normal)
    ensures r.board.safeSpotsLeft == r.board.size * r.board.size - r.totalMines
    ensures 1 <= g.totalMines <= g.board.size * g.board.size - 9 ==> Inv(r)
  {
    var r := NewGame(g.(face := Happy));
    if 1 <= g.totalMines <= g.board.size * g.board.size - 9 then
      NewGameKeepsInv(g.(face := Happy));
      r
    else r
  }

  /** The right click: only while the face is happy, toggle the flag. The
      counter steps as a `short` does, wrapping past either end. */
  function FlagClick(g: Game, c: Cell): (r: Game)
    requires Valid(g.board) && InBounds(g.board.size, c)
    ensures r.face == g.face && r.start == g.start && r.totalMines == g.totalMines
    ensures r.board.size == g.board.size && r.board.safeSpotsLeft == g.board.safeSpotsLeft
    ensures r.board.tiles.Keys == g.board.tiles.Keys
    ensures forall d :: d in g.board.tiles && d != c ==> r.board.tiles[d] == g.board.tiles[d]
    ensures Fits(g.minesLeft, Short) ==> Fits(r.minesLeft, Short)
    ensures g.face != Happy ==> r == g
    ensures g.face == Happy && g.board.tiles[c].source == Normal ==>
      r.board.tiles[c] == g.board.tiles[c].(source := Flag, canTell := false) && r.minesLeft == Wrapped(g.minesLeft - 1, Short)
    ensures g.face == Happy && g.board.tiles[c].source == Flag ==>
      r.board.tiles[c] == g.board.tiles[c].(source := Normal, canTell := true) && r.minesLeft == Wrapped(g.minesLeft + 1, Short)
    ensures g.board.tiles[c].source != Normal && g.board.tiles[c].source != Flag ==> r == g
  {
    var s := g.board.tiles[c].source;
    if g.face != Happy || (s != Normal && s != Flag) then g
    else
      var t := ToggleFlag(g.board, g.minesLeft, c);
      g.(board := t.board, minesLeft := Wrapped(t.minesLeft, Short))
  }

  /** Two right clicks on a tile put the counter back, even across the wrap. */
  lemma FlagClickTwice(g: Game, c: Cell)
    requires Inv(g) && InBounds(g.board.size, c) && Fits(g.minesLeft, Short)
    ensures FlagClick(FlagClick(g, c), c).minesLeft == g.minesLeft
  {
    var s := g.board.tiles[c].source;
    if g.face == Happy && s == Normal {
      WrappedStepBack(g.minesLeft, -1, Short);
    } else if g.face == Happy && s == Flag {
      WrappedStepBack(g.minesLeft, 1, Short);
    }
  }

  /** New Game leaves the counter alone, so a flag placed right after it
      steps down from wherever the last game left the counter. */
  lemma NewGameThenFlag(g: Game, c: Cell)
    requires InBounds(g.board.size, c)
    ensures FlagClick(NewGameClick(g), c).minesLeft == Wrapped(g.minesLeft - 1, Short)
  {
    var n := NewGameClick(g);
    KeysAreCells(n.board);
    assert c in n.board.tiles;
  }

  lemma FlagClickKeepsInv(g: Game, c: Cell)
    requires Inv(g) && InBounds(g.board.size, c)
    ensures Inv(FlagClick(g, c))
  {
    ToggleKeepsPending(g.board, g.minesLeft, c);
    var r := FlagClick(g, c);
    if g.face == Happy {
      assert Untouched(g.board) ==> Untouched(r.board);
    }
  }

  /** The first reveal of a game: leave the start state, reset the mines
      counter and place the mines away from c. */
  function StartGame(g: Game, c: Cell, rand: nat -> nat): (r: Game)
    requires Inv(g) && g.start && InBounds(g.board.size, c)
    ensures Inv(r) && !r.start && r.face == g.face && r.totalMines == g.totalMines
    ensures r.minesLeft == g.totalMines && r.board.size == g.board.size
    ensures |Bombs(r.board)| == g.totalMines
    ensures forall d :: d in Bombs(r.board) ==> !Near(c, d)
    ensures forall d :: d in g.board.tiles ==> r.board.tiles[d].source == g.board.tiles[d].source
  {
    var b := PlaceMines(g.board, c, g.totalMines, rand);
    var r := g.(start := false, minesLeft := g.totalMines, board := b);
    PlacedPending(g.board, b);
    r
  }

  /** The game lost: a dead face, the bombs and the false flags shown. */
  function Lose(g: Game): (r: Game)
    ensures r.face == Dead && r.start == g.start && r.totalMines == g.totalMines && r.minesLeft == g.minesLeft
    ensures r.board.size == g.board.size && r.board.safeSpotsLeft == g.board.safeSpotsLeft
    ensures r.board.tiles.Keys == g.board.tiles.Keys
    ensures forall d :: d in g.board.tiles ==> r.board.tiles[d] == ShowBomb(g.board.tiles[d])
  {
    g.(face := Dead, board := MapTiles(g.board, ShowBomb))
  }

  /** `Reveal(x, y)`, as both the human and the AI call it: the first
      reveal of a game sets the mines up, then the tile is opened. */
  function Reveal(g: Game, c: Cell, rand: nat -> nat): (r: Game)
    requires Inv(g) && InBounds(g.board.size, c)
    ensures !r.start && r.totalMines == g.totalMines && r.board.size == g.board.size
    ensures Valid(r.board)
  {
    var g1 := if g.start then StartGame(g, c, rand) else g;
    Open(g1, c)
  }

  /** The rest of `Reveal`: a tile that is not covered is left alone, a
      bomb loses the game, a safe tile floods and may win it. */
  function Open(g: Game, c: Cell): (r: Game)
    requires Valid(g.board) && InBounds(g.board.size, c)
    ensures r.start == g.start && r.totalMines == g.totalMines && r.minesLeft == g.minesLeft
    ensures Valid(r.board) && r.board.size == g.board.size
  {
    var t := g.board.tiles[c];
    if t.source != Normal then g
    else if t.isBomb then
      ShowBombKeepsPending(g.board);
      Lose(g)
    else
      var b := SafeReveal(g.board, c);
      g.(board := b, face := if b.safeSpotsLeft == 0 then Cool else g.face)
  }

  /** Opening a tile never moves a bomb. */
  lemma OpenKeepsBombs(g: Game, c: Cell)
    requires Valid(g.board) && InBounds(g.board.size, c)
    ensures Bombs(Open(g, c).board) == Bombs(g.board)
  {
    var t := g.board.tiles[c];
    if t.source == Normal {
      if t.isBomb {
        ShowBombKeepsPending(g.board);
      } else {
        SameBombsBombs(g.board, SafeReveal(g.board, c));
      }
    }
  }

  /** Every reveal keeps the invariant. */
  lemma RevealKeepsInv(g: Game, c: Cell, rand: nat -> nat)
    requires Inv(g) && InBounds(g.board.size, c)
    ensures Inv(Reveal(g, c, rand))
  {
    var g1 := if g.start then StartGame(g, c, rand) else g;
    OpenKeepsInv(g1, c);
  }

  lemma OpenKeepsInv(g: Game, c: Cell)
    requires Inv(g) && !g.start && InBounds(g.board.size, c)
    ensures Inv(Open(g, c))
  {
    var t := g.board.tiles[c];
    if t.source == Normal {
      if t.isBomb {
        ShowBombKeepsPending(g.board);
      } else {
        var b := SafeReveal(g.board, c);
        RevealKeepsCount(g.board, b);
      }
    }
  }

  /** The first reveal places exactly `totalMines` bombs, none in the 3 × 3
      block around the click, and resets the mines counter; so the first
      click never hits a bomb and, on a covered tile, reveals it. */
  lemma FirstReveal(g: Game, c: Cell, rand: nat -> nat)
    requires Inv(g) && g.start && InBounds(g.board.size, c)
    ensures var r := Reveal(g, c, rand);
      |Bombs(r.board)| == g.totalMines && (forall d :: d in Bombs(r.board) ==> !Near(c, d)) &&
      r.minesLeft == g.totalMines &&
      (g.board.tiles[c].source == Normal ==> r.board.tiles[c].source.Number?)
  {
    var g1 := StartGame(g, c, rand);
    assert Reveal(g, c, rand) == Open(g1, c);
    OpenKeepsBombs(g1, c);
    assert c !in Bombs(g1.board);
    if g.board.tiles[c].source == Normal {
      FirstOpenShows(g1, c);
    }
  }

  lemma FirstOpenShows(g: Game, c: Cell)
    requires Valid(g.board) && InBounds(g.board.size, c)
    requires g.board.tiles[c].source == Normal && c !in Bombs(g.board)
    ensures Open(g, c).board.tiles[c].source.Number?
  {
    var b := SafeReveal(g.board, c);
    assert ShowsCount(g.board, c, b.tiles[c]);
  }

  /** After the first reveal, clicking a tile that is not covered (a flag, a
      number, a shown bomb) changes nothing. */
  lemma RevealCoveredOnly(g: Game, c: Cell, rand: nat -> nat)
    requires Inv(g) && !g.start && InBounds(g.board.size, c)
    requires g.board.tiles[c].source != Normal
    ensures Reveal(g, c, rand) == g
  {
  }

  /** Revealing a bomb: the face dies, unflagged bombs and false flags are
      shown, nothing else changes. */
  lemma RevealBomb(g: Game, c: Cell, rand: nat -> nat)
    requires Inv(g) && !g.start && InBounds(g.board.size, c)
    requires g.board.tiles[c].source == Normal && g.board.tiles[c].isBomb
    ensures var r := Reveal(g, c, rand);
      r.face == Dead && r.minesLeft == g.minesLeft && r.board.safeSpotsLeft == g.board.safeSpotsLeft &&
      forall d :: d in g.board.tiles ==> r.board.tiles[d] == ShowBomb(g.board.tiles[d])
  {
  }

  /** Revealing a safe tile floods from it: a nonzero count uncovers that
      tile alone, and in general the tiles uncovered are exactly those a
      flood from it can get to. The face turns cool exactly when no safe
      tile is left covered. */
  lemma RevealSafe(g: Game, c: Cell, rand: nat -> nat)
    requires Inv(g) && !g.start && InBounds(g.board.size, c)
    requires g.board.tiles[c].source == Normal && !g.board.tiles[c].isBomb
    ensures var r := Reveal(g, c, rand);
      Uncovers(g.board, r.board) && FloodClosed(g.board, r.board) &&
      r.board.tiles[c] == Tile(false, false, Number(BombsNear(g.board, c))) &&
      (BombsNear(g.board, c) != 0 ==> NormalCells(r.board) == NormalCells(g.board) - {c}) &&
      (forall d :: Opened(g.board, r.board, d) <==> Floodable(g.board, c, d)) &&
      r.minesLeft == g.minesLeft &&
      r.face == if Pending(r.board) == {} then Cool else g.face
  {
    var b := SafeReveal(g.board, c);
    assert Reveal(g, c, rand).board == b;
    RevealKeepsCount(g.board, b);
    assert ShowsCount(g.board, c, b.tiles[c]);
    forall d ensures Opened(g.board, b, d) <==> Floodable(g.board, c, d) {
      RevealIsFloodable(g.board, c, d);
    }
  }

  /** The reveal click: acts only when the mouse went down on a happy face
      (which then showed suspense); the face turns happy again first. */
  function RevealClick(g: Game, c: Cell, rand: nat -> nat): (r: Game)
    requires Inv(g) && InBounds(g.board.size, c)
    ensures g.face != Suspense ==> r == g
    ensures g.face == Suspense ==> r == Reveal(g.(face := Happy), c, rand)
  {
    if g.face != Suspense then g else Reveal(g.(face := Happy), c, rand)
  }

  /** The mine-count box: the count is clamped to [1, cells − 9] and a new
      game starts. */
  function ChangeMineCount(g: Game, n: int): (r: Game)
    requires Valid(g.board) && g.board.size * g.board.size >= 10
    ensures r.totalMines == Clamp(n, 1, g.board.size * g.board.size - 9)
    ensures Inv(r)
    ensures r.start && r.face == Happy && r.board.size == g.board.size && r.minesLeft == g.minesLeft
    ensures forall d :: d in r.board.tiles ==> r.board.tiles[d] == Tile(false, false, Normal)
  {
    var total := Clamp(n, 1, g.board.size * g.board.size - 9);
    NewGameClick(g.(totalMines := total))
  }

  /** The size box: the side is clamped to [5, 50]; if the old count leaves
      fewer than nine free cells it becomes a fifth of the cells; a new game
      starts. */
  function ChangeSize(g: Game, n: int): (r: Game)
    requires 0 <= n < 256
    ensures r.board.size == Clamp(n, 5, 50)
    ensures r.totalMines == if r.board.size * r.board.size - 9 < g.totalMines
      then r.board.size * r.board.size / 5 else g.totalMines
    ensures r.start && r.face == Happy && r.minesLeft == g.minesLeft
    ensures forall d :: d in r.board.tiles ==> r.board.tiles[d] == Tile(false, false, Normal)
  {
    var size := Clamp(n, 5, 50);
    var cells := size * size;
    var total := if cells - 9 < g.totalMines then cells / 5 else g.totalMines;
    NewGameClick(g.(board := Blank(size, g.board.safeSpotsLeft), totalMines := total))
  }

  /** Resizing keeps the invariant: the kept or reset count always fits. */
  lemma ChangeSizeKeepsInv(g: Game, n: int)
    requires 0 <= n < 256 && 1 <= g.totalMines
    ensures Inv(ChangeSize(g, n))
  {
    var size := Clamp(n, 5, 50);
    assert 25 <= size * size;
  }
}

=== FILE: images.dfy ===
/** The game's pictures, as the states a tile or the face can show, and the
    table that turns what a tile shows into the value a network input reads. */
module Images {
  import opened Wrappers

  /** The nine number pictures show 0..8 neighbouring bombs. */
  type Digit = n: nat | n <= 8

  /** Every picture: the tile states, then the four faces. */
  datatype Image =
    | Normal | Flag | Number(n: Digit) | Bomb | FalseFlag
    | Happy | Suspense | Dead | Cool

  /** `_imageToInput`: a flag reads -1, a covered tile and a number reads its
      count; the bomb, false-flag and face pictures are not in the table. */
  function ImageToInput(img: Image): (r: Option<int>)
    ensures r.Some? <==> img.Normal? || img.Flag? || img.Number?
    ensures r.Some? ==> -1 <= r.value <= 8
    ensures r == Some(-1) <==> img == Flag
    ensures forall n: Digit :: img == Number(n) ==> r == Some(n)
  {
    match img
    case Flag => Some(-1)
    case Normal => Some(0)
    case Number(n) => Some(n)
    case _ => None
  }

  /** The table loses only one distinction: a covered tile and a revealed
      zero read the same. Any two other pictures in the table read apart. */
  lemma ImageToInputInjective(a: Image, b: Image)
    requires ImageToInput(a).Some? && ImageToInput(a) == ImageToInput(b)
    ensures a == b || (a in {Normal, Number(0)} && b in {Normal, Number(0)})
  {
  }
}

=== FILE: loading.dfy ===
/** `AI.Load`: after deserialisation a connection's `Input` and `Output`
    references are whatever the JSON reader produced, so Load walks the
    neurons in order and points every connection in a neuron's `Outs` back
    at that neuron (its `Input`) and every connection in a neuron's `Ins`
    back at that neuron (its `Output`): first the inputs' `Outs`, then for
    each hidden neuron its `Ins` and its `Outs`, and last the output's
    `Ins`. A later write to the same field wins. Parsing the JSON is not
    modelled: Load starts from the network the reader built. */
module Loading {
  import opened Neurons
  import opened Wrappers
  import opened NeuralNetworks
  import opened HiddenRemoval

  // ---------------------------------------------------------------------------
  // One list

  /** `list.ForEach(o => o.Input = s)`: every live connection of ids gets s
      as its source. */
  function PointOuts(conns: map<nat, Connection>, ids: seq<nat>, s: Source): (r: map<nat, Connection>)
    ensures r.Keys == conns.Keys
    ensures forall id :: id in conns ==>
      r[id] == if id in ids then conns[id].(input := s) else conns[id]
  {
    if ids == [] then conns
    else
      var c := if ids[0] in conns then conns[ids[0] := conns[ids[0]].(input := s)] else conns;
      PointOuts(c, ids[1..], s)
  }

  /** `list.ForEach(i => i.Output = d)`. */
  function PointIns(conns: map<nat, Connection>, ids: seq<nat>, d: Sink): (r: map<nat, Connection>)
    ensures r.Keys == conns.Keys
    ensures forall id :: id in conns ==>
      r[id] == if id in ids then conns[id].(output := d) else conns[id]
  {
    if ids == [] then conns
    else
      var c := if ids[0] in conns then conns[ids[0] := conns[ids[0]].(output := d)] else conns;
      PointIns(c, ids[1..], d)
  }

  // ---------------------------------------------------------------------------
  // Which neuron a connection ends up pointing at

  /** The sources in the order Load visits their `Outs` lists: the inputs,
      then the hidden neurons. */
  function SourceRanked(n: Network, q: nat): Source {
    if q < |n.inputs| then InputSrc(q) else HiddenSrc(q - |n.inputs|)
  }

  /** The sinks in the order Load visits their `Ins` lists: the hidden
      neurons, then the output. */
  function SinkRanked(n: Network, q: nat): Sink {
    if q < |n.hidden| then HiddenDst(q) else OutputDst
  }

  /** The last source among the visits lo .. hi - 1 whose `Outs` list holds id. */
  function LastOutsOwner(n: Network, id: nat, lo: nat, hi: nat): (o: Option<Source>)
    ensures o.Some? ==> id in OutsOf(n, o.value)
    decreases hi
  {
    if hi <= lo then None
    else if id in OutsOf(n, SourceRanked(n, hi - 1)) then Some(SourceRanked(n, hi - 1))
    else LastOutsOwner(n, id, lo, hi - 1)
  }

  /** The last sink among the visits lo .. hi - 1 whose `Ins` list holds id. */
  function LastInsOwner(n: Network, id: nat, lo: nat, hi: nat): (o: Option<Sink>)
    ensures o.Some? ==> id in InsOf(n, o.value)
    decreases hi
  {
    if hi <= lo then None
    else if id in InsOf(n, SinkRanked(n, hi - 1)) then Some(SinkRanked(n, hi - 1))
    else LastInsOwner(n, id, lo, hi - 1)
  }

  function OrElse<T>(o: Option<T>, x: T): T {
    if o.Some? then o.value else x
  }

  /** Visits lo .. hi - 1 are visits lo .. mid - 1 followed by mid .. hi - 1:
      the last owner is the one in the later part when there is one. */
  lemma {:induction false} LastOutsSplit(n: Network, id: nat, lo: nat, mid: nat, hi: nat)
    requires lo <= mid <= hi
    ensures LastOutsOwner(n, id, lo, hi) ==
      if LastOutsOwner(n, id, mid, hi).Some? then LastOutsOwner(n, id, mid, hi) else LastOutsOwner(n, id, lo, mid)
    decreases hi
  {
    if hi > mid {
      LastOutsSplit(n, id, lo, mid, hi - 1);
    }
  }

  lemma {:induction false} LastInsSplit(n: Network, id: nat, lo: nat, mid: nat, hi: nat)
    requires lo <= mid <= hi
    ensures LastInsOwner(n, id, lo, hi) ==
      if LastInsOwner(n, id, mid, hi).Some? then LastInsOwner(n, id, mid, hi) else LastInsOwner(n, id, lo, mid)
    decreases hi
  {
    if hi > mid {
      LastInsSplit(n, id, lo, mid, hi - 1);
    }
  }

  /** A visit in lo .. hi - 1 whose list holds id makes the search succeed. */
  lemma {:induction false} LastOutsFound(n: Network, id: nat, lo: nat, hi: nat, q: nat)
    requires lo <= q < hi && id in OutsOf(n, SourceRanked(n, q))
    ensures LastOutsOwner(n, id, lo, hi).Some?
    decreases hi
  {
    if q < hi - 1 && id !in OutsOf(n, SourceRanked(n, hi - 1)) {
      LastOutsFound(n, id, lo, hi - 1, q);
    }
  }

  lemma {:induction false} LastInsFound(n: Network, id: nat, lo: nat, hi: nat, q: nat)
    requires lo <= q < hi && id in InsOf(n, SinkRanked(n, q))
    ensures LastInsOwner(n, id, lo, hi).Some?
    decreases hi
  {
    if q < hi - 1 && id !in InsOf(n, SinkRanked(n, hi - 1)) {
      LastInsFound(n, id, lo, hi - 1, q);
    }
  }

  // ---------------------------------------------------------------------------
  // The passes

  /** The loop over the inputs, from input i on. */
  function RelinkInputs(n: Network, conns: map<nat, Connection>, i: nat): (r: map<nat, Connection>)
    requires i <= |n.inputs|
    ensures r.Keys == conns.Keys
    decreases |n.inputs| - i
  {
    if i == |n.inputs| then conns
    else RelinkInputs(n, PointOuts(conns, n.inputs[i].outs, InputSrc(i)), i + 1)
  }

  /** After the inputs' loop each connection points at the last input from
      i on whose `Outs` lists it. */
  lemma {:induction false} RelinkInputsPoints(n: Network, conns: map<nat, Connection>, i: nat)
    requires i <= |n.inputs|
    ensures forall id :: id in conns ==>
      RelinkInputs(n, conns, i)[id] == conns[id].(input := OrElse(LastOutsOwner(n, id, i, |n.inputs|), conns[id].input))
    decreases |n.inputs| - i
  {
    if i < |n.inputs| {
      var c := PointOuts(conns, n.inputs[i].outs, InputSrc(i));
      RelinkInputsPoints(n, c, i + 1);
      InputStep(n, conns, c, RelinkInputs(n, c, i + 1), i);
    }
  }

  /** Pointing input i's `Outs` at it, then the later inputs', leaves each
      connection with the last of them that lists it. */
  lemma InputStep(n: Network, conns: map<nat, Connection>, c: map<nat, Connection>, r: map<nat, Connection>, i: nat)
    requires i < |n.inputs|
    requires c.Keys == conns.Keys && r.Keys == c.Keys
    requires forall id :: id in conns ==>
      c[id] == if id in n.inputs[i].outs then conns[id].(input := InputSrc(i)) else conns[id]
    requires forall id :: id in c ==>
      r[id] == c[id].(input := OrElse(LastOutsOwner(n, id, i + 1, |n.inputs|), c[id].input))
    ensures forall id :: id in conns ==>
      r[id] == conns[id].(input := OrElse(LastOutsOwner(n, id, i, |n.inputs|), conns[id].input))
  {
    forall id | id in conns
      ensures r[id] == conns[id].(input := OrElse(LastOutsOwner(n, id, i, |n.inputs|), conns[id].input))
    {
      LastOutsSplit(n, id, i, i + 1, |n.inputs|);
      assert SourceRanked(n, i) == InputSrc(i);
    }
  }

  /** The loop over the hidden neurons, from hidden neuron h on: its `Ins`,
      then its `Outs`. */
  function RelinkHidden(n: Network, conns: map<nat, Connection>, h: nat): (r: map<nat, Connection>)
    requires h <= |n.hidden|
    ensures r.Keys == conns.Keys
    decreases |n.hidden| - h
  {
    if h == |n.hidden| then conns
    else RelinkHidden(n, PointOuts(PointIns(conns, n.hidden[h].ins, HiddenDst(h)), n.hidden[h].outs, HiddenSrc(h)), h + 1)
  }

  /** After the hidden neurons' loop each connection points at the last
      hidden neuron from h on whose `Outs` lists it, and from the last one
      whose `Ins` lists it. */
  lemma {:induction false} RelinkHiddenPoints(n: Network, conns: map<nat, Connection>, h: nat)
    requires h <= |n.hidden|
    ensures forall id :: id in conns ==>
      RelinkHidden(n, conns, h)[id] ==
        conns[id].(input := OrElse(LastOutsOwner(n, id, |n.inputs| + h, SourceVisits(n)), conns[id].input),
                   output := OrElse(LastInsOwner(n, id, h, |n.hidden|), conns[id].output))
    decreases |n.hidden| - h
  {
    if h < |n.hidden| {
      var c := PointOuts(PointIns(conns, n.hidden[h].ins, HiddenDst(h)), n.hidden[h].outs, HiddenSrc(h));
      RelinkHiddenPoints(n, c, h + 1);
      HiddenStep(n, conns, c, RelinkHidden(n, c, h + 1), h);
    }
  }

  lemma HiddenStep(n: Network, conns: map<nat, Connection>, c: map<nat, Connection>, r: map<nat, Connection>, h: nat)
    requires h < |n.hidden|
    requires c.Keys == conns.Keys && r.Keys == c.Keys
    requires forall id :: id in conns ==>
      c[id] == conns[id].(input := if id in n.hidden[h].outs then HiddenSrc(h) else conns[id].input,
                          output := if id in n.hidden[h].ins then HiddenDst(h) else conns[id].output)
    requires forall id :: id in c ==>
      r[id] == c[id].(input := OrElse(LastOutsOwner(n, id, |n.inputs| + h + 1, SourceVisits(n)), c[id].input),
                      output := OrElse(LastInsOwner(n, id, h + 1, |n.hidden|), c[id].output))
    ensures forall id :: id in conns ==>
      r[id] == conns[id].(input := OrElse(LastOutsOwner(n, id, |n.inputs| + h, SourceVisits(n)), conns[id].input),
                          output := OrElse(LastInsOwner(n, id, h, |n.hidden|), conns[id].output))
  {
    forall id | id in conns
      ensures r[id] == conns[id].(input := OrElse(LastOutsOwner(n, id, |n.inputs| + h, SourceVisits(n)), conns[id].input),
                                  output := OrElse(LastInsOwner(n, id, h, |n.hidden|), conns[id].output))
    {
      HiddenStepOne(n, id, h);
    }
  }

  lemma HiddenStepOne(n: Network, id: nat, h: nat)
    requires h < |n.hidden|
    ensures LastOutsOwner(n, id, |n.inputs| + h, SourceVisits(n)) ==
      if LastOutsOwner(n, id, |n.inputs| + h + 1, SourceVisits(n)).Some? then LastOutsOwner(n, id, |n.inputs| + h + 1, SourceVisits(n))
      else if id in n.hidden[h].outs then Some(HiddenSrc(h)) else None
    ensures LastInsOwner(n, id, h, |n.hidden|) ==
      if LastInsOwner(n, id, h + 1, |n.hidden|).Some? then LastInsOwner(n, id, h + 1, |n.hidden|)
      else if id in n.hidden[h].ins then Some(HiddenDst(h)) else None
  {
    LastOutsSplit(n, id, |n.inputs| + h, |n.inputs| + h + 1, SourceVisits(n));
    LastInsSplit(n, id, h, h + 1, |n.hidden|);
    assert SourceRanked(n, |n.inputs| + h) == HiddenSrc(h);
    assert SinkRanked(n, h) == HiddenDst(h);
  }

  /** Every source and every sink in visiting order. */
  function SourceVisits(n: Network): nat {
    |n.inputs| + |n.hidden|
  }

  function SinkVisits(n: Network): nat {
    |n.hidden| + 1
  }

  /** `AI.Load` after deserialisation: the neurons and the set of live
      connections are kept; LoadRelinks says where each connection points. */
  function Load(n: Network): (r: Network)
    ensures r.inputs == n.inputs && r.hidden == n.hidden && r.output == n.output
    ensures r.nextId == n.nextId && r.maxLayer == n.maxLayer && r.score == n.score
    ensures r.conns.Keys == n.conns.Keys
  {
    n.(conns := PointIns(RelinkHidden(n, RelinkInputs(n, n.conns, 0), 0), n.output.ins, OutputDst))
  }

  /** Each live connection's source becomes the last neuron whose `Outs`
      list holds it and its destination the last one whose `Ins` list holds
      it; a field no list speaks for keeps its value, and so does the
      weight. */
  lemma LoadRelinks(n: Network, id: nat)
    requires id in n.conns
    ensures Load(n).conns[id] ==
      n.conns[id].(input := OrElse(LastOutsOwner(n, id, 0, SourceVisits(n)), n.conns[id].input),
                   output := OrElse(LastInsOwner(n, id, 0, SinkVisits(n)), n.conns[id].output))
  {
    LoadSteps(n, id);
    LastOutsSplit(n, id, 0, |n.inputs|, SourceVisits(n));
    LastInsSplit(n, id, 0, |n.hidden|, SinkVisits(n));
    assert SinkRanked(n, |n.hidden|) == OutputDst;
    assert LastInsOwner(n, id, |n.hidden|, SinkVisits(n)) == if id in n.output.ins then Some(OutputDst) else None;
    Assemble(n.conns[id], Load(n).conns[id],
      LastOutsOwner(n, id, 0, SourceVisits(n)), LastOutsOwner(n, id, 0, |n.inputs|),
      LastOutsOwner(n, id, |n.inputs|, SourceVisits(n)),
      LastInsOwner(n, id, 0, SinkVisits(n)), LastInsOwner(n, id, 0, |n.hidden|),
      LastInsOwner(n, id, |n.hidden|, SinkVisits(n)), id in n.output.ins);
  }

  /** The three passes' results put together: a later owner wins. */
  lemma Assemble(x: Connection, c: Connection, oAll: Option<Source>, oi: Option<Source>, oh: Option<Source>,
                 iAll: Option<Sink>, ih: Option<Sink>, last: Option<Sink>, toOutput: bool)
    requires c.weight == x.weight && c.input == OrElse(oh, OrElse(oi, x.input))
    requires c.output == if toOutput then OutputDst else OrElse(ih, x.output)
    requires oAll == (if oh.Some? then oh else oi)
    requires iAll == (if last.Some? then last else ih)
    requires last == if toOutput then Some(OutputDst) else None
    ensures c == x.(input := OrElse(oAll, x.input), output := OrElse(iAll, x.output))
  {
  }

  /** The three passes of Load, one field of the connection at a time. */
  lemma LoadSteps(n: Network, id: nat)
    requires id in n.conns
    ensures var x := n.conns[id];
      var c := Load(n).conns[id];
      c.weight == x.weight &&
      c.input == OrElse(LastOutsOwner(n, id, |n.inputs|, SourceVisits(n)),
                        OrElse(LastOutsOwner(n, id, 0, |n.inputs|), x.input)) &&
      c.output == if id in n.output.ins then OutputDst
                  else OrElse(LastInsOwner(n, id, 0, |n.hidden|), x.output)
  {
    var x := n.conns[id];
    var c1 := RelinkInputs(n, n.conns, 0);
    var c2 := RelinkHidden(n, c1, 0);
    var c3 := PointIns(c2, n.output.ins, OutputDst);
    assert Load(n).conns == c3;
    RelinkInputsPoints(n, n.conns, 0);
    RelinkHiddenPoints(n, c1, 0);
    ThreePasses(x, c1[id], c2[id], c3[id], LastOutsOwner(n, id, 0, |n.inputs|),
      LastOutsOwner(n, id, |n.inputs|, SourceVisits(n)), LastInsOwner(n, id, 0, |n.hidden|), id in n.output.ins);
  }

  lemma ThreePasses(x: Connection, c1: Connection, c2: Connection, c3: Connection,
                    oi: Option<Source>, oh: Option<Source>, ih: Option<Sink>, toOutput: bool)
    requires c1 == x.(input := OrElse(oi, x.input))
    requires c2 == c1.(input := OrElse(oh, c1.input), output := OrElse(ih, c1.output))
    requires c3 == if toOutput then c2.(output := OutputDst) else c2
    ensures c3.weight == x.weight && c3.input == OrElse(oh, OrElse(oi, x.input))
    ensures c3.output == if toOutput then OutputDst else OrElse(ih, x.output)
  {
  }

  // ---------------------------------------------------------------------------
  // What Load achieves

  /** Every live connection that some `Outs` list holds points at a source
      whose `Outs` list holds it, and likewise for `Ins` lists. */
  lemma LoadPointsIntoLists(n: Network, id: nat)
    requires id in n.conns
    ensures (exists s :: id in OutsOf(n, s)) ==> id in OutsOf(n, Load(n).conns[id].input)
    ensures (exists d :: id in InsOf(n, d)) ==> id in InsOf(n, Load(n).conns[id].output)
  {
    LoadRelinks(n, id);
    if s :| id in OutsOf(n, s) {
      var q := match s case InputSrc(i) => i case HiddenSrc(h) => |n.inputs| + h;
      assert SourceRanked(n, q) == s;
      LastOutsFound(n, id, 0, SourceVisits(n), q);
    }
    if d :| id in InsOf(n, d) {
      var q := match d case HiddenDst(h) => h case OutputDst => |n.hidden|;
      assert SinkRanked(n, q) == d;
      LastInsFound(n, id, 0, SinkVisits(n), q);
    }
  }

  /** Each listed connection is live and is held by one `Outs` list and one
      `Ins` list at most: the shape of a saved network. */
  ghost predicate ListedOnce(n: Network) {
    (forall s, id :: id in OutsOf(n, s) ==> id in n.conns) &&
    (forall d, id :: id in InsOf(n, d) ==> id in n.conns) &&
    (forall s, s', id :: id in OutsOf(n, s) && id in OutsOf(n, s') ==> s == s') &&
    (forall d, d', id :: id in InsOf(n, d) && id in InsOf(n, d') ==> d == d')
  }

  /** After Load every connection in a neuron's `Outs` has that neuron as its
      `Input`, and every one in a neuron's `Ins` has it as its `Output`. */
  lemma LoadLinks(n: Network)
    requires ListedOnce(n)
    ensures OutsPointBack(Load(n)) && InsPointBack(Load(n))
  {
    var r := Load(n);
    forall s, id | id in OutsOf(r, s) ensures id in r.conns && r.conns[id].input == s {
      LoadLinksOuts(n, r, s, id);
    }
    LoadLinksInsAll(n, r);
  }

  lemma LoadLinksInsAll(n: Network, r: Network)
    requires ListedOnce(n) && r == Load(n)
    ensures InsPointBack(r)
  {
    forall id, d | id in r.conns && id in InsOf(n, d) ensures id in InsOf(n, r.conns[id].output) {
      LoadPointsIntoLists(n, id);
    }
    InsBackFromLists(n, r);
  }

  /** If every connection of r ends at a neuron whose `Ins` list in n holds
      it, and the lists are n's, r's `Ins` lists point back. */
  lemma InsBackFromLists(n: Network, r: Network)
    requires ListedOnce(n)
    requires r.hidden == n.hidden && r.output == n.output && r.conns.Keys == n.conns.Keys
    requires forall id, d :: id in r.conns && id in InsOf(n, d) ==> id in InsOf(n, r.conns[id].output)
    ensures InsPointBack(r)
  {
    forall d, id | id in InsOf(r, d) ensures id in r.conns && r.conns[id].output == d {
      assert InsOf(r, d) == InsOf(n, d);
      assert id in InsOf(n, r.conns[id].output);
    }
  }

  lemma LoadLinksOuts(n: Network, r: Network, s: Source, id: nat)
    requires ListedOnce(n) && r == Load(n) && id in OutsOf(r, s)
    ensures id in r.conns && r.conns[id].input == s
  {
    assert OutsOf(r, s) == OutsOf(n, s);
    LoadPointsIntoLists(n, id);
  }

  lemma LoadLinksIns(n: Network, r: Network, d: Sink, id: nat)
    requires ListedOnce(n) && r == Load(n) && id in InsOf(r, d)
    ensures id in r.conns && r.conns[id].output == d
  {
    assert InsOf(r, d) == InsOf(n, d);
    LoadPointsIntoLists(n, id);
  }

  /** A network whose connections already point back at their neurons is
      left exactly as it is. */
  lemma LoadLinkedIsNoOp(n: Network)
    requires OutsPointBack(n) && InsPointBack(n)
    ensures Load(n) == n
  {
    var r := Load(n);
    forall id | id in n.conns ensures r.conns[id] == n.conns[id] {
      LoadRelinks(n, id);
      var o := LastOutsOwner(n, id, 0, SourceVisits(n));
      var i := LastInsOwner(n, id, 0, SinkVisits(n));
      assert o.Some? ==> n.conns[id].input == o.value;
      assert i.Some? ==> n.conns[id].output == i.value;
    }
    assert r.conns == n.conns;
  }

  /** Loading twice is loading once. */
  lemma LoadIdempotent(n: Network)
    ensures Load(Load(n)) == Load(n)
  {
    var r := Load(n);
    ReloadAll(n, r, Load(r));
  }

  lemma ReloadAll(n: Network, r: Network, rr: Network)
    requires r == Load(n) && rr == Load(r)
    ensures rr.conns == r.conns
  {
    forall id | id in r.conns ensures rr.conns[id] == r.conns[id] {
      ReloadOne(n, r, rr, id);
    }
  }

  lemma ReloadOne(n: Network, r: Network, rr: Network, id: nat)
    requires r == Load(n) && rr == Load(r) && id in r.conns
    ensures rr.conns[id] == r.conns[id]
  {
    SameListsSameOwners(n, r, id);
    LoadRelinks(n, id);
    LoadRelinks(r, id);
    var o := LastOutsOwner(n, id, 0, SourceVisits(n));
    var i := LastInsOwner(n, id, 0, SinkVisits(n));
    assert r.conns[id] == n.conns[id].(input := OrElse(o, n.conns[id].input), output := OrElse(i, n.conns[id].output));
    assert rr.conns[id] == r.conns[id].(input := OrElse(o, r.conns[id].input), output := OrElse(i, r.conns[id].output));
  }

  /** The owners depend only on the lists. */
  lemma SameListsSameOwners(n: Network, r: Network, id: nat)
    requires r.inputs == n.inputs && r.hidden == n.hidden && r.output == n.output
    ensures LastOutsOwner(r, id, 0, SourceVisits(r)) == LastOutsOwner(n, id, 0, SourceVisits(n))
    ensures LastInsOwner(r, id, 0, SinkVisits(r)) == LastInsOwner(n, id, 0, SinkVisits(n))
  {
    assert forall s :: OutsOf(r, s) == OutsOf(n, s);
    assert forall d :: InsOf(r, d) == InsOf(n, d);
    OwnersAgree(n, r, id, SourceVisits(n), SinkVisits(n));
  }

  lemma {:induction false} OwnersAgree(n: Network, r: Network, id: nat, hi: nat, hj: nat)
    requires r.inputs == n.inputs && r.hidden == n.hidden && r.output == n.output
    ensures LastOutsOwner(r, id, 0, hi) == LastOutsOwner(n, id, 0, hi)
    ensures LastInsOwner(r, id, 0, hj) == LastInsOwner(n, id, 0, hj)
    decreases hi + hj
  {
    if hi > 0 {
      OwnersAgree(n, r, id, hi - 1, hj);
    }
    if hj > 0 {
      OwnersAgree(n, r, id, hi, hj - 1);
    }
  }

  /** A valid network is already linked, so loading it changes nothing. */
  lemma LoadValidIsNoOp(n: Network)
    requires Valid(n)
    ensures Load(n) == n
  {
    PointBack(n);
    LoadLinkedIsNoOp(n);
  }

  /** What the JSON writer keeps of a network, as the reader gives it back:
      the writer's options include neither public fields such as
      `HiddenNeuron.FunctionIndex` nor the internal `Score`, so both read back
      as 0; the lists, layers, offsets and weights survive. */
  function Written(saved: Network): (r: Network)
    ensures r.inputs == saved.inputs && r.output == saved.output && r.conns == saved.conns
    ensures r.nextId == saved.nextId && r.maxLayer == saved.maxLayer && r.score == 0
    ensures |r.hidden| == |saved.hidden|
    ensures forall h :: 0 <= h < |r.hidden| ==> r.hidden[h] == saved.hidden[h].(functionIndex := 0)
  {
    saved.(hidden := seq(|saved.hidden|, h requires 0 <= h < |saved.hidden| => saved.hidden[h].(functionIndex := 0)),
           score := 0)
  }

  /** Dropping the activation indices and the score keeps a network valid:
      index 0 selects a function, and nothing else validity reads changes. */
  lemma WrittenValid(saved: Network)
    requires Valid(saved)
    ensures Valid(Written(saved))
  {
    var w := Written(saved);
    WrittenLists(saved);
    SameListsKeepBookkeeping(saved, w);
    WrittenShape(saved);
  }

  lemma WrittenLists(saved: Network)
    ensures forall s :: OutsOf(Written(saved), s) == OutsOf(saved, s)
    ensures forall d :: InsOf(Written(saved), d) == InsOf(saved, d)
  {
  }

  lemma WrittenShape(saved: Network)
    requires |saved.inputs| == InputCount && EndpointsOk(saved) && Layered(saved) && HiddenOk(saved)
    ensures |Written(saved).inputs| == InputCount && EndpointsOk(Written(saved))
    ensures Layered(Written(saved)) && HiddenOk(Written(saved))
  {
    var w := Written(saved);
    assert forall id :: id in w.conns ==> EdgeLayered(w, w.conns[id].input, w.conns[id].output);
  }

  /** The JSON reader restores the neurons, their lists and every
      connection's weight, but not where a connection points; it reads back
      what the writer wrote, so no activation index and no score. Whatever
      it leaves in the back-pointers, Load gives back the saved valid network
      with those two at 0. */
  lemma LoadRestoresSaved(n: Network, saved: Network)
    requires Valid(saved)
    requires n.inputs == saved.inputs && n.hidden == Written(saved).hidden && n.output == saved.output
    requires n.nextId == saved.nextId && n.maxLayer == saved.maxLayer && n.score == 0
    requires n.conns.Keys == saved.conns.Keys
    requires forall id :: id in n.conns ==> n.conns[id].weight == saved.conns[id].weight
    ensures Load(n) == Written(saved) && Valid(Load(n))
  {
    var w := Written(saved);
    WrittenValid(saved);
    PointBack(w);
    RestoreAll(n, w);
  }

  lemma RestoreAll(n: Network, saved: Network)
    requires Listed(saved) && OutsPointBack(saved) && InsPointBack(saved)
    requires n.inputs == saved.inputs && n.hidden == saved.hidden && n.output == saved.output
    requires n.conns.Keys == saved.conns.Keys
    requires forall id :: id in n.conns ==> n.conns[id].weight == saved.conns[id].weight
    ensures Load(n).conns == saved.conns
  {
    var r := Load(n);
    forall id | id in n.conns ensures r.conns[id] == saved.conns[id] {
      RestoreOne(n, saved, id);
    }
    assert r.conns == saved.conns;
  }

  lemma RestoreOne(n: Network, saved: Network, id: nat)
    requires Listed(saved) && OutsPointBack(saved) && InsPointBack(saved)
    requires n.inputs == saved.inputs && n.hidden == saved.hidden && n.output == saved.output
    requires id in n.conns && id in saved.conns && n.conns[id].weight == saved.conns[id].weight
    ensures Load(n).conns[id] == saved.conns[id]
  {
    var c := saved.conns[id];
    ListedInSameLists(n, saved, id);
    LoadPointsIntoLists(n, id);
    LoadRelinks(n, id);
    var l := Load(n).conns[id];
    SameListsSameEnds(n, saved, id, l);
  }

  /** A connection the saved network lists is listed by the same neurons in n. */
  lemma ListedInSameLists(n: Network, saved: Network, id: nat)
    requires Listed(saved) && id in saved.conns
    requires n.inputs == saved.inputs && n.hidden == saved.hidden && n.output == saved.output
    ensures id in OutsOf(n, saved.conns[id].input) && id in InsOf(n, saved.conns[id].output)
  {
    assert OutsOf(n, saved.conns[id].input) == OutsOf(saved, saved.conns[id].input);
    assert InsOf(n, saved.conns[id].output) == InsOf(saved, saved.conns[id].output);
  }

  /** In a linked network only a connection's own ends list it. */
  lemma SameListsSameEnds(n: Network, saved: Network, id: nat, l: Connection)
    requires OutsPointBack(saved) && InsPointBack(saved)
    requires n.inputs == saved.inputs && n.hidden == saved.hidden && n.output == saved.output
    requires id in OutsOf(n, l.input) && id in InsOf(n, l.output)
    ensures id in saved.conns && l.input == saved.conns[id].input && l.output == saved.conns[id].output
  {
    assert OutsOf(n, l.input) == OutsOf(saved, l.input);
    assert InsOf(n, l.output) == InsOf(saved, l.output);
  }
}

=== FILE: main_window.dfy ===
/** The older game window `MainWindow`: the same board and flood fill, but
    the game keeps an explicit `playing` flag, mines are cleared and placed
    by `SetupMines`, a new mine count outside [1, cells − 9] is refused
    instead of clamped, and a win flags every tile still covered. */
module MainWindow {
  import opened Images
  import opened Boards
  import opened FloodFill
  import opened Mines
  import opened Play

  /** The fields the rules read and write. `start` is true until the first
      reveal of a game; `playing` is true from then until the game is won
      or lost. */
  datatype Window = Window(board: Board, face: Image, playing: bool, start: bool, totalMines: int, minesLeft: int)

  /** Every tile is covered, flagged, or a revealed safe tile showing a
      number: no bomb or crossed-out flag is on show. */
  ghost predicate InPlay(b: Board) {
    forall d :: d in b.tiles ==>
      b.tiles[d].source == Normal || b.tiles[d].source == Flag ||
      (b.tiles[d].source.Number? && !b.tiles[d].isBomb)
  }

  /** What holds between any two events: the mines fit the grid; before the
      first reveal every tile is covered or flagged and the counter is
      cells − mines; afterwards the counter is the number of safe tiles
      still covered; while a game is on, nothing of a lost game is shown. */
  ghost predicate Inv(w: Window) {
    Valid(w.board) && 1 <= w.totalMines <= w.board.size * w.board.size - 9 &&
    (w.start ==> Untouched(w.board) &&
                 w.board.safeSpotsLeft == w.board.size * w.board.size - w.totalMines) &&
    (!w.start ==> w.board.safeSpotsLeft == |Pending(w.board)|) &&
    (w.playing ==> InPlay(w.board))
  }

  /** The window as constructed: 25 × 25 covered tiles, 125 mines, 500 safe
      spots, not playing, mines placed on the first reveal. */
  function Initial(): (w: Window)
    ensures Inv(w) && w.start && !w.playing && w.face == Happy
    ensures w.board.size == 25 && w.totalMines == 125 && w.minesLeft == 125
    ensures w.board.safeSpotsLeft == 500
  {
    Window(Blank(25, 500), Happy, false, true, 125, 125)
  }

  /** A tile with its bomb taken away. */
  function Disarm(t: Tile): (r: Tile)
    ensures !r.isBomb && r.source == t.source && r.canTell == t.canTell
  {
    t.(isBomb := false)
  }

  /** `SetupMines(x, y)`: the counter is reset, every bomb is cleared, then
      `totalMines` bombs are placed outside the 3 × 3 block around c. */
  function SetupMines(w: Window, c: Cell, rand: nat -> nat): (r: Window)
    requires Valid(w.board) && 0 <= w.totalMines <= w.board.size * w.board.size - 9
    ensures r.minesLeft == w.totalMines
    ensures r.face == w.face && r.playing == w.playing && r.start == w.start && r.totalMines == w.totalMines
    ensures Valid(r.board) && r.board.size == w.board.size && r.board.safeSpotsLeft == w.board.safeSpotsLeft
    ensures |Bombs(r.board)| == w.totalMines
    ensures forall d :: d in Bombs(r.board) ==> !Near(c, d)
    ensures forall d :: d in w.board.tiles ==>
      r.board.tiles[d].source == w.board.tiles[d].source && r.board.tiles[d].canTell == w.board.tiles[d].canTell
  {
    var cleared := MapTiles(w.board, Disarm);
    assert Valid(cleared) && Bombs(cleared) == {};
    var b := PlaceMines(cleared, c, w.totalMines, rand);
    w.(minesLeft := w.totalMines, board := b)
  }

  /** `NewGame()`: the face turns happy, every tile is covered without a
      hint, the counter is reset to cells − mines and the mines will be
      placed on the next reveal. The bombs of the last game stay until
      then, and `playing` is left as it was. */
  function NewGame(w: Window): (r: Window)
    ensures r.face == Happy && r.start && r.playing == w.playing
    ensures r.totalMines == w.totalMines && r.minesLeft == w.minesLeft
    ensures r.board.size == w.board.size && r.board.tiles.Keys == w.board.tiles.Keys
    ensures forall d :: d in w.board.tiles ==>
      r.board.tiles[d] == Tile(w.board.tiles[d].isBomb, false, Normal)
    ensures r.board.safeSpotsLeft == r.board.size * r.board.size - r.totalMines
  {
    var b := MapTiles(w.board, (t: Tile) => t.(source := Normal, canTell := false));
    w.(face := Happy, start := true,
       board := b.(safeSpotsLeft := w.board.size * w.board.size - w.totalMines))
  }

  /** A new game keeps the invariant whenever the mine count fits the grid. */
  lemma NewGameKeepsInv(w: Window)
    requires Valid(w.board) && 1 <= w.totalMines <= w.board.size * w.board.size - 9
    ensures Inv(NewGame(w))
  {
  }

  /** What a won game shows on a tile: a covered tile is flagged, and no
      tile keeps its hint. */
  function Crown(t: Tile): (r: Tile)
    ensures r.isBomb == t.isBomb && !r.canTell
    ensures r.source == if t.source == Normal then Flag else t.source
  {
    t.(source := if t.source == Normal then Flag else t.source, canTell := false)
  }

  /** `WinGame()`: a cool face, play over, every covered tile flagged. */
  function WinGame(w: Window): (r: Window)
    ensures r.face == Cool && !r.playing && r.start == w.start
    ensures r.totalMines == w.totalMines && r.minesLeft == w.minesLeft
    ensures r.board.size == w.board.size && r.board.safeSpotsLeft == w.board.safeSpotsLeft
    ensures r.board.tiles.Keys == w.board.tiles.Keys
    ensures forall d :: d in w.board.tiles ==> r.board.tiles[d] == Crown(w.board.tiles[d])
  {
    w.(face := Cool, playing := false, board := MapTiles(w.board, Crown))
  }

  /** On a board in play with no safe tile left covered, the win shows
      exactly the bombs flagged and every other tile revealed. */
  lemma WonBoard(b: Board)
    requires Valid(b) && InPlay(b) && Pending(b) == {}
    ensures forall d :: d in b.tiles ==>
      var t := Crown(b.tiles[d]);
      (t.source == Flag <==> t.isBomb) && (!t.isBomb ==> t.source.Number?) && !t.canTell
  {
    forall d | d in b.tiles
      ensures var t := Crown(b.tiles[d]);
        (t.source == Flag <==> t.isBomb) && (!t.isBomb ==> t.source.Number?)
    {
      assert d !in Pending(b);
    }
  }

  /** What a lost game shows on a tile: `ShowBomb`, and no hint. */
  function Expose(t: Tile): (r: Tile)
    ensures r.isBomb == t.isBomb && !r.canTell
    ensures t.isBomb && t.source == Normal ==> r.source == Bomb
    ensures !t.isBomb && t.source == Flag ==> r.source == FalseFlag
    ensures !(t.isBomb && t.source == Normal) && !(!t.isBomb && t.source == Flag) ==> r.source == t.source
  {
    var s := ShowBomb(t);
    s.(canTell := false)
  }

  /** `LoseGame()`: a dead face, play over, the bombs and false flags shown
      and every hint cleared. */
  function LoseGame(w: Window): (r: Window)
    ensures r.face == Dead && !r.playing && r.start == w.start
    ensures r.totalMines == w.totalMines && r.minesLeft == w.minesLeft
    ensures r.board.size == w.board.size && r.board.safeSpotsLeft == w.board.safeSpotsLeft
    ensures r.board.tiles.Keys == w.board.tiles.Keys
    ensures forall d :: d in w.board.tiles ==> r.board.tiles[d] == Expose(w.board.tiles[d])
  {
    w.(face := Dead, playing := false, board := MapTiles(w.board, Expose))
  }

  /** Losing keeps the bombs and the set of safe covered tiles. */
  lemma LoseKeepsPending(b: Board)
    requires Valid(b)
    ensures Valid(MapTiles(b, Expose)) && Bombs(MapTiles(b, Expose)) == Bombs(b)
    ensures Pending(MapTiles(b, Expose)) == Pending(b)
  {
    MapKeepsPending(b, Expose);
  }

  /** `Flag(x, y)`, the right click: only while playing, toggle the flag.
      The counter steps as an `int` does, wrapping past either end. */
  function FlagAt(w: Window, c: Cell): (r: Window)
    requires c in w.board.tiles
    ensures r.face == w.face && r.playing == w.playing && r.start == w.start && r.totalMines == w.totalMines
    ensures r.board.size == w.board.size && r.board.safeSpotsLeft == w.board.safeSpotsLeft
    ensures r.board.tiles.Keys == w.board.tiles.Keys
    ensures forall d :: d in w.board.tiles && d != c ==> r.board.tiles[d] == w.board.tiles[d]
    ensures Fits(w.minesLeft, Int) ==> Fits(r.minesLeft, Int)
    ensures !w.playing ==> r == w
    ensures w.playing && w.board.tiles[c].source == Normal ==>
      r.board.tiles[c] == w.board.tiles[c].(source := Flag, canTell := false) && r.minesLeft == Wrapped(w.minesLeft - 1, Int)
    ensures w.playing && w.board.tiles[c].source == Flag ==>
      r.board.tiles[c] == w.board.tiles[c].(source := Normal, canTell := true) && r.minesLeft == Wrapped(w.minesLeft + 1, Int)
    ensures w.board.tiles[c].source != Normal && w.board.tiles[c].source != Flag ==> r == w
  {
    var s := w.board.tiles[c].source;
    if !w.playing || (s != Normal && s != Flag) then w
    else
      var t := ToggleFlag(w.board, w.minesLeft, c);
      w.(board := t.board, minesLeft := Wrapped(t.minesLeft, Int))
  }

  /** Two right clicks on a tile put the counter back, even across the wrap. */
  lemma FlagTwice(w: Window, c: Cell)
    requires c in w.board.tiles && Fits(w.minesLeft, Int)
    ensures FlagAt(FlagAt(w, c), c).minesLeft == w.minesLeft
  {
    var s := w.board.tiles[c].source;
    if w.playing && s == Normal {
      WrappedStepBack(w.minesLeft, -1, Int);
    } else if w.playing && s == Flag {
      WrappedStepBack(w.minesLeft, 1, Int);
    }
  }

  lemma FlagKeepsInv(w: Window, c: Cell)
    requires Inv(w) && InBounds(w.board.size, c)
    ensures Inv(FlagAt(w, c))
  {
    ToggleKeepsPending(w.board, w.minesLeft, c);
    var r := FlagAt(w, c);
    if w.playing {
      assert Untouched(w.board) ==> Untouched(r.board);
      assert InPlay(r.board);
    }
  }

  /** `Reveal(x, y)`: the first reveal of a game starts play and sets the
      mines up; any other reveal while not playing does nothing. Then the
      face turns happy and the tile is opened. */
  function Reveal(w: Window, c: Cell, rand: nat -> nat): (r: Window)
    requires Inv(w) && InBounds(w.board.size, c)
    ensures r.totalMines == w.totalMines && r.board.size == w.board.size
    ensures !w.start && !w.playing ==> r == w
    ensures w.start || w.playing ==> !r.start
  {
    if w.start then Open(SetupMines(w.(start := false, playing := true), c, rand), c)
    else if !w.playing then w
    else Open(w, c)
  }

  /** The rest of `Reveal`, once play is on: a tile that is not covered is
      left alone, a bomb loses the game, a safe tile floods and, when no
      safe tile is left covered, wins it. */
  function Open(w: Window, c: Cell): (r: Window)
    requires Valid(w.board) && InBounds(w.board.size, c)
    ensures r.start == w.start && r.totalMines == w.totalMines && r.minesLeft == w.minesLeft
    ensures Valid(r.board) && r.board.size == w.board.size
  {
    var h := w.(face := Happy);
    var t := w.board.tiles[c];
    if t.source != Normal then h
    else if t.isBomb then
      LoseKeepsPending(w.board);
      LoseGame(h)
    else
      var b := SafeReveal(w.board, c);
      var o := h.(board := b);
      if b.safeSpotsLeft == 0 then
        assert Valid(MapTiles(b, Crown));
        WinGame(o)
      else o
  }

  /** Winning keeps the bombs and the set of safe covered tiles. */
  lemma WinKeepsPending(b: Board)
    requires Valid(b)
    ensures Valid(MapTiles(b, Crown)) && Bombs(MapTiles(b, Crown)) == Bombs(b)
    ensures Pending(MapTiles(b, Crown)) == Pending(b)
  {
    MapKeepsPending(b, Crown);
  }

  /** The flood fill keeps a board in play. */
  lemma RevealKeepsInPlay(a: Board, r: Board)
    requires Uncovers(a, r) && InPlay(a)
    ensures InPlay(r)
  {
    forall d | d in r.tiles
      ensures r.tiles[d].source == Normal || r.tiles[d].source == Flag ||
              (r.tiles[d].source.Number? && !r.tiles[d].isBomb)
    {
      if a.tiles[d].source == Normal && r.tiles[d].source != Normal {
        assert ShowsCount(a, d, r.tiles[d]);
      }
    }
  }

  /** Opening a tile during play keeps the invariant. */
  lemma OpenKeepsInv(w: Window, c: Cell)
    requires Inv(w) && !w.start && w.playing && InBounds(w.board.size, c)
    ensures Inv(Open(w, c))
  {
    var t := w.board.tiles[c];
    if t.source == Normal {
      if t.isBomb {
        LoseKeepsPending(w.board);
      } else {
        var b := SafeReveal(w.board, c);
        RevealKeepsCount(w.board, b);
        if b.safeSpotsLeft == 0 {
          WinKeepsPending(b);
        } else {
          RevealKeepsInPlay(w.board, b);
        }
      }
    }
  }

  /** Mine setup on the first reveal leaves a board in play whose counter
      is the number of safe tiles still covered. */
  lemma SetupKeepsInv(w: Window, c: Cell, rand: nat -> nat)
    requires Inv(w) && w.start && InBounds(w.board.size, c)
    ensures Inv(SetupMines(w.(start := false, playing := true), c, rand))
  {
    var s := SetupMines(w.(start := false, playing := true), c, rand);
    PlacedPending(w.board, s.board);
  }

  /** Every reveal keeps the invariant. */
  lemma RevealKeepsInv(w: Window, c: Cell, rand: nat -> nat)
    requires Inv(w) && InBounds(w.board.size, c)
    ensures Inv(Reveal(w, c, rand))
  {
    if w.start {
      SetupKeepsInv(w, c, rand);
      OpenKeepsInv(SetupMines(w.(start := false, playing := true), c, rand), c);
    } else if w.playing {
      OpenKeepsInv(w, c);
    }
  }

  /** The first reveal places exactly `totalMines` bombs, none in the 3 × 3
      block around the click, resets the mines counter, and never loses. */
  lemma FirstReveal(w: Window, c: Cell, rand: nat -> nat)
    requires Inv(w) && w.start && InBounds(w.board.size, c)
    ensures var r := Reveal(w, c, rand);
      |Bombs(r.board)| == w.totalMines && (forall d :: d in Bombs(r.board) ==> !Near(c, d)) &&
      r.minesLeft == w.totalMines && r.face != Dead
  {
    var s := SetupMines(w.(start := false, playing := true), c, rand);
    assert c !in Bombs(s.board);
    OpenKeepsBombs(s, c);
  }

  /** Opening a tile never moves a bomb, and a safe tile never loses. */
  lemma OpenKeepsBombs(w: Window, c: Cell)
    requires Valid(w.board) && InBounds(w.board.size, c)
    ensures Bombs(Open(w, c).board) == Bombs(w.board)
    ensures c !in Bombs(w.board) ==> Open(w, c).face != Dead
  {
    var t := w.board.tiles[c];
    if t.source == Normal {
      if t.isBomb {
        LoseKeepsPending(w.board);
      } else {
        var b := SafeReveal(w.board, c);
        SameBombsBombs(w.board, b);
        if b.safeSpotsLeft == 0 {
          WinKeepsPending(b);
        }
      }
    }
  }

  /** During play, clicking a tile that is not covered only turns the face
      happy. */
  lemma RevealCoveredOnly(w: Window, c: Cell, rand: nat -> nat)
    requires Inv(w) && !w.start && w.playing && InBounds(w.board.size, c)
    requires w.board.tiles[c].source != Normal
    ensures Reveal(w, c, rand) == w.(face := Happy)
  {
  }

  /** During play, revealing a bomb loses: dead face, play over, unflagged
      bombs and false flags shown, every hint cleared. */
  lemma RevealBomb(w: Window, c: Cell, rand: nat -> nat)
    requires Inv(w) && !w.start && w.playing && InBounds(w.board.size, c)
    requires w.board.tiles[c].source == Normal && w.board.tiles[c].isBomb
    ensures var r := Reveal(w, c, rand);
      r.face == Dead && !r.playing && r.minesLeft == w.minesLeft &&
      forall d :: d in w.board.tiles ==> r.board.tiles[d] == Expose(w.board.tiles[d])
  {
  }

  /** During play, revealing a safe tile floods from it; the game is won
      exactly when no safe tile is left covered, and a won board shows the
      bombs flagged and every other tile revealed. */
  lemma RevealSafe(w: Window, c: Cell, rand: nat -> nat)
    requires Inv(w) && !w.start && w.playing && InBounds(w.board.size, c)
    requires w.board.tiles[c].source == Normal && !w.board.tiles[c].isBomb
    ensures var r := Reveal(w, c, rand);
      var b := SafeReveal(w.board, c);
      r.minesLeft == w.minesLeft &&
      (r.face == Cool <==> Pending(b) == {}) &&
      (r.playing <==> Pending(b) != {}) &&
      (Pending(b) != {} ==> r.board == b && r.face == Happy) &&
      (Pending(b) == {} ==> forall d :: d in r.board.tiles ==>
        (r.board.tiles[d].source == Flag <==> r.board.tiles[d].isBomb) &&
        (!r.board.tiles[d].isBomb ==> r.board.tiles[d].source.Number?))
  {
    var b := SafeReveal(w.board, c);
    RevealKeepsCount(w.board, b);
    RevealKeepsInPlay(w.board, b);
    if Pending(b) == {} {
      WonBoard(b);
    }
  }

  /** `MineCountChanged`: a count n with 0 < n ≤ cells − 9 is taken, play
      stops and a new game starts; any other count is refused. */
  function MineCountChanged(w: Window, n: int): (r: Window)
    ensures 0 < n <= w.board.size * w.board.size - 9 ==>
      r.totalMines == n && !r.playing && r.start && r.face == Happy && r.board.size == w.board.size
    ensures !(0 < n <= w.board.size * w.board.size - 9) ==> r == w
  {
    if 0 < n <= w.board.size * w.board.size - 9 then NewGame(w.(totalMines := n, playing := false))
    else w
  }

  lemma MineCountKeepsInv(w: Window, n: int)
    requires Inv(w)
    ensures Inv(MineCountChanged(w, n))
  {
    if 0 < n <= w.board.size * w.board.size - 9 {
      NewGameKeepsInv(w.(totalMines := n, playing := false));
    }
  }

  /** `ChangeSize`: the side is clamped to [5, 50], play stops, a count
      that leaves at most nine free cells becomes a fifth of the cells, and
      a new game starts on a fresh grid. */
  function ChangeSize(w: Window, n: int): (r: Window)
    requires 0 <= n < 256
    ensures r.board.size == Clamp(n, 5, 50)
    ensures r.totalMines == if r.board.size * r.board.size - 9 <= w.totalMines
      then r.board.size * r.board.size / 5 else w.totalMines
    ensures r.start && !r.playing && r.face == Happy
    ensures forall d :: d in r.board.tiles ==> r.board.tiles[d] == Tile(false, false, Normal)
  {
    var size := Clamp(n, 5, 50);
    var cells := size * size;
    var total := if cells - 9 <= w.totalMines then cells / 5 else w.totalMines;
    NewGame(w.(board := Blank(size, w.board.safeSpotsLeft), playing := false, totalMines := total))
  }

  /** Resizing keeps the invariant: the kept or reset count always fits. */
  lemma ChangeSizeKeepsInv(w: Window, n: int)
    requires 0 <= n < 256 && 1 <= w.totalMines
    ensures Inv(ChangeSize(w, n))
  {
    var size := Clamp(n, 5, 50);
    assert 25 <= size * size;
    var total := if size * size - 9 <= w.totalMines then size * size / 5 else w.totalMines;
    NewGameKeepsInv(w.(board := Blank(size, w.board.safeSpotsLeft), playing := false, totalMines := total));
  }
}

=== FILE: mines.dfy ===
/** Mine placement on the first reveal: the cells outside the 3 × 3 block
    around the clicked tile are listed in row order, and each round draws an
    index into what is left of that list, puts a bomb there and removes the
    cell from the list. */
module Mines {
  import opened Images
  import opened Boards
  import opened Draws

  /** The cells of cs whose nearness to c is `near`, in order. */
  function Keep(cs: seq<Cell>, c: Cell, near: bool): (r: seq<Cell>)
    ensures forall d :: d in r <==> d in cs && Near(c, d) == near
  {
    if cs == [] then []
    else (if Near(c, cs[0]) == near then [cs[0]] else []) + Keep(cs[1..], c, near)
  }

  lemma {:induction false} KeepSplits(cs: seq<Cell>, c: Cell)
    ensures |Keep(cs, c, true)| + |Keep(cs, c, false)| == |cs|
  {
    if cs != [] {
      KeepSplits(cs[1..], c);
    }
  }

  lemma {:induction false} KeepDistinct(cs: seq<Cell>, c: Cell, near: bool)
    requires Distinct(cs)
    ensures Distinct(Keep(cs, c, near))
  {
    if cs != [] {
      var t := cs[1..];
      assert Distinct(t) by {
        forall i, j | 0 <= i < j < |t| ensures t[i] != t[j] {
          assert t[i] == cs[i + 1] && t[j] == cs[j + 1];
        }
      }
      KeepDistinct(t, c, near);
      if Near(c, cs[0]) == near {
        assert cs[0] !in t by {
          forall i | 0 <= i < |t| ensures t[i] != cs[0] {
            assert t[i] == cs[i + 1];
          }
        }
        DistinctConcat([cs[0]], Keep(t, c, near));
      }
    }
  }

  /** The 3 × 3 block centred on c. */
  function Block(c: Cell): (r: set<Cell>)
    ensures |r| <= 9
    ensures forall d :: d in r <==> Near(c, d)
  {
    var (x, y) := c;
    var r := {(x - 1, y - 1), (x, y - 1), (x + 1, y - 1), (x - 1, y), (x, y),
              (x + 1, y), (x - 1, y + 1), (x, y + 1), (x + 1, y + 1)};
    assert forall d :: Near(c, d) ==> d in r by {
      forall d | Near(c, d) ensures d in r {
        assert d.0 in {x - 1, x, x + 1} && d.1 in {y - 1, y, y + 1};
      }
    }
    r
  }

  /** A distinct list inside the block has at most nine cells. */
  lemma InsideAtMostNine(cs: seq<Cell>, c: Cell)
    requires Distinct(cs) && forall d :: d in cs ==> Near(c, d)
    ensures |cs| <= 9
  {
    DistinctCard(cs);
    var s := set d | d in cs;
    assert s <= Block(c);
    assert Block(c) == s + (Block(c) - s);
  }

  /** `freeBombLocations`: the grid cells not next to (nor equal to) c, in
      the order the setup loops add them. */
  function FreeCells(size: nat, c: Cell): (r: seq<Cell>)
    ensures Distinct(r)
    ensures forall d :: d in r <==> InBounds(size, d) && !Near(c, d)
    ensures |r| >= size * size - 9
  {
    RowMajorFacts(size);
    var all := RowMajor(size);
    KeepDistinct(all, c, false);
    KeepDistinct(all, c, true);
    KeepSplits(all, c);
    InsideAtMostNine(Keep(all, c, true), c);
    Keep(all, c, false)
  }

  /** `list.RemoveAt(k)`. */
  function RemoveAt(s: seq<Cell>, k: nat): (r: seq<Cell>)
    requires k < |s|
    ensures |r| == |s| - 1
    ensures Distinct(s) ==> Distinct(r) && s[k] !in r
    ensures forall d :: d in r ==> d in s
  {
    var r := s[..k] + s[k + 1..];
    assert forall i :: 0 <= i < |r| ==> r[i] == s[if i < k then i else i + 1];
    r
  }

  /** The cells that receive a bomb: round by round, the cell at a drawn
      index of the remaining list, which is then removed. Draws are read
      from position `pos` on. */
  function PickCells(free: seq<Cell>, count: nat, rand: nat -> nat, pos: nat): (r: seq<Cell>)
    requires count <= |free| && Distinct(free)
    ensures |r| == count && Distinct(r)
    ensures forall d :: d in r ==> d in free
    decreases count
  {
    if count == 0 then []
    else
      var k := Next(rand(pos), |free|);
      var rest := PickCells(RemoveAt(free, k), count - 1, rand, pos + 1);
      DistinctConcat([free[k]], rest);
      [free[k]] + rest
  }

  /** The placement loop of the first reveal, using a generator created for
      it (draws from position 0). Tiles other than the picked cells, and
      every picture and hint, are left alone. */
  function PlaceMines(b: Board, c: Cell, total: nat, rand: nat -> nat): (r: Board)
    requires Valid(b) && total <= |FreeCells(b.size, c)|
    ensures Valid(r) && r.size == b.size && r.safeSpotsLeft == b.safeSpotsLeft
    ensures forall d :: d in b.tiles ==> r.tiles[d].source == b.tiles[d].source
    ensures forall d :: d in b.tiles ==> r.tiles[d].canTell == b.tiles[d].canTell
    ensures Bombs(b) <= Bombs(r)
    ensures forall d :: d in Bombs(r) - Bombs(b) ==> !Near(c, d)
    ensures Bombs(b) == {} ==> |Bombs(r)| == total
  {
    var picks := PickCells(FreeCells(b.size, c), total, rand, 0);
    var r := b.(tiles := map d | d in b.tiles :: if d in picks then b.tiles[d].(isBomb := true) else b.tiles[d]);
    PlacedBombs(b, picks, r);
    r
  }

  lemma PlacedBombs(b: Board, picks: seq<Cell>, r: Board)
    requires Valid(b) && Distinct(picks) && forall d :: d in picks ==> InBounds(b.size, d)
    requires r == b.(tiles := map d | d in b.tiles :: if d in picks then b.tiles[d].(isBomb := true) else b.tiles[d])
    ensures Valid(r)
    ensures Bombs(r) == Bombs(b) + set d | d in picks
    ensures Bombs(b) == {} ==> |Bombs(r)| == |picks|
  {
    assert Bombs(r) == Bombs(b) + set d | d in picks;
    DistinctCard(picks);
  }
}

=== FILE: mixing.dfy ===
/** `AI.Mix`: moving a network that lost towards the best network of the
    generation. Its hidden-neuron count moves one step towards the best's,
    then for each hidden neuron the two have in common, and for each input,
    the number of outgoing connections moves one step towards the best's,
    the weights the two have in common are averaged pairwise, and (for a
    hidden neuron) a fair coin decides whether it takes the best's
    activation function.

    Random draws come from a stream: draw number `pos` is `rand(pos)`, and
    every step returns the position of the next unused draw. */
module Mixing {
  import opened Neurons
  import opened Seqs
  import opened NeuralNetworks
  import opened Connections
  import opened Mutations
  import opened HiddenRemoval
  import opened Draws

  /** A network together with the position of the next unused draw. */
  datatype Drawn = Drawn(net: Network, pos: nat)

  function Min(a: nat, b: nat): nat {
    if a < b then a else b
  }

  function Gap(a: nat, b: nat): nat {
    if a < b then b - a else a - b
  }

  /** One step from x towards target: the gap closes by one unless it is
      already closed. */
  function Toward(x: nat, target: nat): (r: nat)
    ensures x == target ==> r == x
    ensures x != target ==> Gap(r, target) + 1 == Gap(x, target) && Gap(r, x) == 1
  {
    if x > target then x - 1 else if x < target then x + 1 else x
  }

  // ---------------------------------------------------------------------------
  // The hidden-neuron count

  /** Removes a drawn hidden neuron when there are more than in best, adds a
      drawn one when there are fewer. */
  function BalanceHidden(k: Network, best: Network, rand: nat -> nat, pos: nat): (r: Drawn)
    requires Valid(k)
    ensures Valid(r.net)
    ensures |r.net.hidden| == Toward(|k.hidden|, |best.hidden|)
    ensures r.net.score == k.score && r.net.nextId == k.nextId && OffsetsKept(k, r.net)
  {
    if |k.hidden| > |best.hidden| then
      var x := Next(rand(pos), |k.hidden|);
      RemoveHiddenKeepsValid(k, x);
      Drawn(RemoveHidden(k, x), pos + 1)
    else if |k.hidden| < |best.hidden| then
      var layer, fn := Next(rand(pos), k.maxLayer + 2), Next(rand(pos + 1), FunctionCount);
      AddHiddenKeepsValid(k, layer, fn);
      Drawn(AddHidden(k, layer, fn), pos + 2)
    else Drawn(k, pos)
  }

  // ---------------------------------------------------------------------------
  // What one step leaves alone

  /** Every list except that of s, and every connection not out of s, is as
      it was; no id is handed out twice. */
  ghost predicate OthersKept(k: Network, r: Network, s: Source) {
    (forall s' :: s' != s ==> OutsOf(r, s') == OutsOf(k, s')) &&
    (forall x :: x in k.conns && x !in OutsOf(k, s) ==> x in r.conns && r.conns[x] == k.conns[x]) &&
    k.nextId <= r.nextId
  }

  /** Each connection out of s in r was already out of s in k, unchanged, or
      is the one new connection, of weight 1. */
  ghost predicate OldOrNew(k: Network, r: Network, s: Source) {
    forall x :: x in OutsOf(r, s) ==>
      x in r.conns &&
      ((x in OutsOf(k, s) && x in k.conns && r.conns[x] == k.conns[x]) ||
       (x == k.nextId && r.conns[x].weight == 1.0))
  }

  lemma OthersKeptCompose(k: Network, k1: Network, r: Network, s: Source)
    requires FreshIds(k) && OthersKept(k, k1, s) && OldOrNew(k, k1, s) && OthersKept(k1, r, s)
    ensures OthersKept(k, r, s)
  {
    forall x | x in k.conns && x !in OutsOf(k, s) ensures x in r.conns && r.conns[x] == k.conns[x] {
      assert x < k.nextId;
    }
  }

  // ---------------------------------------------------------------------------
  // One neuron's outgoing connections

  /** The slot `AddConnection` uses for source s. */
  function SlotOf(s: Source): (slot: nat)
    requires s.InputSrc? ==> s.i < InputCount
    ensures SourceAt(slot) == s
  {
    match s
    case InputSrc(i) => i
    case HiddenSrc(h) => InputCount + h
  }

  /** Moves the number of connections out of s one step towards target:
      destroys a drawn one when there are more, adds one (to a drawn
      destination) when there are fewer. The draw d is used only then. */
  function BalanceOuts(k: Network, s: Source, target: nat, d: nat): (r: Network)
    requires Valid(k) && SourceOk(k, s) && (s.InputSrc? ==> s.i < InputCount)
    ensures Valid(r) && NeuronsKept(k, r)
    ensures |OutsOf(r, s)| == Toward(|OutsOf(k, s)|, target)
  {
    var outs := OutsOf(k, s);
    if |outs| > target then
      var id := outs[Next(d, |outs|)];
      assert id in k.conns && k.conns[id].input == s;
      DestroyKeepsValid(k, id);
      Destroy(k, id)
    else if |outs| < target then
      var slot := SlotOf(s);
      var outputIndex := Next(d, Choices(k, slot));
      AddConnectionKeepsValid(k, slot, outputIndex);
      AddConnection(k, slot, outputIndex)
    else k
  }

  /** BalanceOuts touches only the connections out of s, and what it leaves
      there is old or new. */
  lemma BalanceOutsMoves(k: Network, s: Source, target: nat, d: nat)
    requires Valid(k) && SourceOk(k, s) && (s.InputSrc? ==> s.i < InputCount)
    ensures OthersKept(k, BalanceOuts(k, s, target, d), s)
    ensures OldOrNew(k, BalanceOuts(k, s, target, d), s)
  {
    PointBack(k);
    var outs := OutsOf(k, s);
    assert NoDup(outs);
    if |outs| > target {
      var id := outs[Next(d, |outs|)];
      ShrinkMoves(k, s, id);
    } else if |outs| < target {
      GrowMoves(k, s, SlotOf(s), Next(d, Choices(k, SlotOf(s))));
    }
  }

  lemma ShrinkMoves(k: Network, s: Source, id: nat)
    requires id in OutsOf(k, s) && id in k.conns && k.conns[id].input == s
    requires SourceOk(k, s) && SinkOk(k, k.conns[id].output)
    requires NoDup(OutsOf(k, s)) && forall x :: x in OutsOf(k, s) ==> x in k.conns
    ensures OthersKept(k, Destroy(k, id), s) && OldOrNew(k, Destroy(k, id), s)
  {
    RemoveFirstIsWithout(OutsOf(k, s), id);
  }

  lemma GrowMoves(k: Network, s: Source, slot: nat, outputIndex: nat)
    requires |k.inputs| == InputCount && slot < InputCount + |k.hidden| && outputIndex < Choices(k, slot)
    requires SourceAt(slot) == s && FreshIds(k) && forall x :: x in OutsOf(k, s) ==> x in k.conns
    ensures OthersKept(k, AddConnection(k, slot, outputIndex), s)
    ensures OldOrNew(k, AddConnection(k, slot, outputIndex), s)
  {
  }

  /** The weight of connection id in n, 1 (the weight of a new connection)
      when id is not live. */
  function WeightOf(n: Network, id: nat): (w: real)
    ensures id in n.conns ==> w == n.conns[id].weight
    ensures id !in n.conns ==> w == 1.0
  {
    if id in n.conns then n.conns[id].weight else 1.0
  }

  /** The weights of the connections out of s in best, in list order. */
  function WeightsOut(best: Network, s: Source): (ws: seq<real>)
    ensures |ws| == |OutsOf(best, s)|
    ensures forall j :: 0 <= j < |ws| ==> ws[j] == WeightOf(best, OutsOf(best, s)[j])
  {
    seq(|OutsOf(best, s)|, j requires 0 <= j < |OutsOf(best, s)| => WeightOf(best, OutsOf(best, s)[j]))
  }

  /** Replaces the weight of each live ids[j] by its mean with ws[j]. */
  function AverageWeights(conns: map<nat, Connection>, ids: seq<nat>, ws: seq<real>): (r: map<nat, Connection>)
    requires |ids| == |ws|
    ensures r.Keys == conns.Keys
    ensures forall id :: id in conns ==> r[id].input == conns[id].input && r[id].output == conns[id].output
    ensures forall id :: id in conns && id !in ids ==> r[id] == conns[id]
    decreases |ids|
  {
    if ids == [] then conns
    else if ids[0] !in conns then AverageWeights(conns, ids[1..], ws[1..])
    else
      var c := conns[ids[0]];
      AverageWeights(conns[ids[0] := c.(weight := (c.weight + ws[0]) / 2.0)], ids[1..], ws[1..])
  }

  /** With distinct ids, each ids[j] ends with the mean of its old weight and ws[j]. */
  lemma {:induction false} AverageWeightsAverages(conns: map<nat, Connection>, ids: seq<nat>, ws: seq<real>)
    requires |ids| == |ws| && (forall id :: id in ids ==> id in conns) && NoDup(ids)
    ensures forall j :: 0 <= j < |ids| ==>
      AverageWeights(conns, ids, ws)[ids[j]].weight == (conns[ids[j]].weight + ws[j]) / 2.0
    decreases |ids|
  {
    if ids != [] {
      var c := conns[ids[0]];
      var conns1 := conns[ids[0] := c.(weight := (c.weight + ws[0]) / 2.0)];
      var ids1, ws1 := ids[1..], ws[1..];
      assert forall id :: id in ids1 ==> id in ids;
      NoDupTail(ids);
      AverageWeightsAverages(conns1, ids1, ws1);
      AverageStep(conns, ids, ws, conns1, AverageWeights(conns1, ids1, ws1));
    }
  }

  lemma AverageStep(conns: map<nat, Connection>, ids: seq<nat>, ws: seq<real>,
                    conns1: map<nat, Connection>, r: map<nat, Connection>)
    requires |ids| == |ws| && ids != [] && ids[0] in conns && ids[0] !in ids[1..]
    requires conns1 == conns[ids[0] := conns[ids[0]].(weight := (conns[ids[0]].weight + ws[0]) / 2.0)]
    requires r == AverageWeights(conns1, ids[1..], ws[1..])
    requires forall id :: id in ids ==> id in conns
    requires forall j :: 0 <= j < |ids| - 1 ==>
      ids[1..][j] in conns1 && r[ids[1..][j]].weight == (conns1[ids[1..][j]].weight + ws[1..][j]) / 2.0
    ensures AverageWeights(conns, ids, ws) == r
    ensures forall j :: 0 <= j < |ids| ==> r[ids[j]].weight == (conns[ids[j]].weight + ws[j]) / 2.0
  {
    forall j | 0 < j < |ids| ensures r[ids[j]].weight == (conns[ids[j]].weight + ws[j]) / 2.0 {
      assert ids[1..][j - 1] == ids[j] && ws[1..][j - 1] == ws[j];
      assert ids[j] in ids[1..];
    }
  }

  /** Averages the first connections out of s, pairwise, with the weights ws. */
  function AverageOuts(k: Network, s: Source, ws: seq<real>): (r: Network)
    ensures forall s' :: OutsOf(r, s') == OutsOf(k, s')
    ensures forall d :: InsOf(r, d) == InsOf(k, d)
    ensures r.conns.Keys == k.conns.Keys && r.nextId == k.nextId
    ensures forall id :: id in k.conns ==>
      r.conns[id].input == k.conns[id].input && r.conns[id].output == k.conns[id].output
    ensures r.inputs == k.inputs && r.hidden == k.hidden && r.maxLayer == k.maxLayer && r.score == k.score
  {
    var m := Min(|OutsOf(k, s)|, |ws|);
    k.(conns := AverageWeights(k.conns, OutsOf(k, s)[..m], ws[..m]))
  }

  lemma AverageOutsKeepsValid(k: Network, s: Source, ws: seq<real>)
    requires Valid(k)
    ensures Valid(AverageOuts(k, s, ws)) && NeuronsKept(k, AverageOuts(k, s, ws))
  {
    ListsKeptKeepsValid(k, AverageOuts(k, s, ws));
  }

  lemma AverageOutsFacts(k: Network, s: Source, ids: seq<nat>)
    requires OutsLinked(k) && NoDup(OutsOf(k, s))
    requires |ids| <= |OutsOf(k, s)| && ids == OutsOf(k, s)[..|ids|]
    ensures forall id :: id in ids ==> id in k.conns
    ensures forall x :: x in ids ==> x in OutsOf(k, s)
    ensures forall j :: |ids| <= j < |OutsOf(k, s)| ==> OutsOf(k, s)[j] !in ids
    ensures NoDup(ids)
  {
    var l := OutsOf(k, s);
    forall x | x in ids ensures x in k.conns && x in l {
      var t :| 0 <= t < |ids| && ids[t] == x;
      assert l[t] == x;
    }
    forall j | |ids| <= j < |l| ensures l[j] !in ids {
      forall t | 0 <= t < |ids| ensures ids[t] != l[j] {
        assert ids[t] == l[t];
        NoDupAt(l, t, j);
      }
    }
    forall i, j | 0 <= i < j < |ids| ensures At(ids, i) != At(ids, j) {
      NoDupAt(l, i, j);
    }
  }

  /** AverageOuts: position j of the list of s takes the mean of its weight
      and ws[j] while ws lasts. */
  lemma AverageOutsWeights(k: Network, s: Source, ws: seq<real>)
    requires OutsLinked(k) && NoDup(OutsOf(k, s))
    ensures var r := AverageOuts(k, s, ws);
      forall j :: 0 <= j < |OutsOf(k, s)| ==>
        OutsOf(k, s)[j] in k.conns && OutsOf(k, s)[j] in r.conns &&
        r.conns[OutsOf(k, s)[j]].weight ==
          if j < |ws| then (k.conns[OutsOf(k, s)[j]].weight + ws[j]) / 2.0
          else k.conns[OutsOf(k, s)[j]].weight
  {
    var l := OutsOf(k, s);
    var m := Min(|l|, |ws|);
    var ids := l[..m];
    AverageOutsFacts(k, s, ids);
    AverageWeightsAverages(k.conns, ids, ws[..m]);
    AveragedAt(k.conns, l, ws, AverageOuts(k, s, ws).conns);
  }

  lemma AveragedAt(conns: map<nat, Connection>, l: seq<nat>, ws: seq<real>, r: map<nat, Connection>)
    requires forall x :: x in l ==> x in conns
    requires var m := Min(|l|, |ws|);
      (forall j :: m <= j < |l| ==> l[j] !in l[..m]) &&
      r == AverageWeights(conns, l[..m], ws[..m]) &&
      forall j :: 0 <= j < m ==> r[l[..m][j]].weight == (conns[l[..m][j]].weight + ws[..m][j]) / 2.0
    ensures forall j :: 0 <= j < |l| ==>
      l[j] in conns && l[j] in r &&
      r[l[j]].weight == if j < |ws| then (conns[l[j]].weight + ws[j]) / 2.0 else conns[l[j]].weight
  {
    var m := Min(|l|, |ws|);
    forall j | 0 <= j < |l|
      ensures l[j] in conns && l[j] in r
      ensures r[l[j]].weight == if j < |ws| then (conns[l[j]].weight + ws[j]) / 2.0 else conns[l[j]].weight
    {
      if j < m {
        assert l[..m][j] == l[j] && ws[..m][j] == ws[j];
      }
    }
  }

  /** AverageOuts changes no connection other than those out of s. */
  lemma AverageOutsKeepsOthers(k: Network, s: Source, ws: seq<real>)
    requires OutsLinked(k) && NoDup(OutsOf(k, s))
    ensures OthersKept(k, AverageOuts(k, s, ws), s)
  {
    var l := OutsOf(k, s);
    var m := Min(|l|, |ws|);
    AverageOutsFacts(k, s, l[..m]);
    forall x | x in k.conns && x !in l ensures x !in l[..m] {
    }
  }

  // ---------------------------------------------------------------------------
  // The two loops

  /** The part shared by both loops, for source s: the count of its
      connections moves towards best's (using a draw only when the counts
      differ), then their weights are averaged with best's. */
  function MixOuts(k: Network, best: Network, s: Source, rand: nat -> nat, pos: nat): (r: Drawn)
    requires Valid(k) && SourceOk(k, s) && (s.InputSrc? ==> s.i < InputCount)
    ensures Valid(r.net) && NeuronsKept(k, r.net)
    ensures |OutsOf(r.net, s)| == Toward(|OutsOf(k, s)|, |OutsOf(best, s)|)
    ensures r.pos == if |OutsOf(k, s)| == |OutsOf(best, s)| then pos else pos + 1
  {
    var target := |OutsOf(best, s)|;
    var k1 := BalanceOuts(k, s, target, rand(pos));
    var r := AverageOuts(k1, s, WeightsOut(best, s));
    AverageOutsKeepsValid(k1, s, WeightsOut(best, s));
    NeuronsKeptTrans(k, k1, r);
    Drawn(r, if |OutsOf(k, s)| == target then pos else pos + 1)
  }

  /** Iteration i of the hidden loop: the outgoing connections of hidden
      neuron i, then a fair coin for taking best's activation function. */
  function MixHiddenAt(k: Network, best: Network, i: nat, rand: nat -> nat, pos: nat): (r: Drawn)
    requires Valid(k) && Valid(best) && i < |k.hidden| && i < |best.hidden|
    ensures Valid(r.net) && LayersKept(k, r.net) && |r.net.hidden| == |k.hidden|
  {
    var st := MixOuts(k, best, HiddenSrc(i), rand, pos);
    if Next(rand(st.pos), 2) == 0 then
      assert HiddenOk(best);
      var r := SetFunction(st.net, i, best.hidden[i].functionIndex);
      SetFunctionKeepsValid(st.net, i, best.hidden[i].functionIndex);
      SetFunctionKeepsLayers(k, st.net, r, i, best.hidden[i].functionIndex);
      Drawn(r, st.pos + 1)
    else Drawn(st.net, st.pos + 1)
  }

  /** Iterations i .. len - 1 of the hidden loop. Each hidden neuron in
      [i, len) ends settled against k, every other source keeps its
      connections, and each activation index is k's or, inside [i, len),
      best's. */
  function MixHiddenFrom(k: Network, best: Network, i: nat, len: nat, rand: nat -> nat, pos: nat): (r: Drawn)
    requires Valid(k) && Valid(best) && i <= len && len <= |k.hidden| && len <= |best.hidden|
    ensures Valid(r.net) && LayersKept(k, r.net) && |r.net.hidden| == |k.hidden|
    ensures k.nextId <= r.net.nextId
    ensures forall h :: i <= h < len ==> Settled(k, best, r.net, HiddenSrc(h))
    ensures forall s: Source :: (s.InputSrc? || s.h < i || s.h >= len) ==> Untouched(k, r.net, s)
    ensures forall h :: 0 <= h < |k.hidden| ==>
      r.net.hidden[h].functionIndex == k.hidden[h].functionIndex ||
      (i <= h < len && r.net.hidden[h].functionIndex == best.hidden[h].functionIndex)
    decreases len - i
  {
    if i == len then
      PointBack(k);
      UntouchedAtStart(k);
      Drawn(k, pos)
    else
      var st := MixHiddenAt(k, best, i, rand, pos);
      var r := MixHiddenFrom(st.net, best, i + 1, len, rand, st.pos);
      LayersKeptTrans(k, st.net, r.net);
      MixHiddenAtSettles(k, best, i, rand, pos);
      MixHiddenAtFunctions(k, best, i, rand, pos);
      HiddenStepSettles(k, best, st.net, r.net, i, len);
      FunctionsChain(k, best, st.net, r.net, i, len);
      r
  }

  /** Iterations i .. 79 of the input loop. Each input from i on ends
      settled against k and every other source keeps its connections. */
  function MixInputsFrom(k: Network, best: Network, i: nat, rand: nat -> nat, pos: nat): (r: Drawn)
    requires Valid(k) && i <= InputCount
    ensures Valid(r.net) && NeuronsKept(k, r.net)
    ensures k.nextId <= r.net.nextId
    ensures forall t :: i <= t < InputCount ==> Settled(k, best, r.net, InputSrc(t))
    ensures forall s: Source :: (s.HiddenSrc? || s.i < i) ==> Untouched(k, r.net, s)
    decreases InputCount - i
  {
    if i == InputCount then
      PointBack(k);
      UntouchedAtStart(k);
      Drawn(k, pos)
    else
      var st := MixOuts(k, best, InputSrc(i), rand, pos);
      var r := MixInputsFrom(st.net, best, i + 1, rand, st.pos);
      NeuronsKeptTrans(k, st.net, r.net);
      MixOutsSettles(k, best, InputSrc(i), rand, pos);
      InputStepSettles(k, best, st.net, r.net, i);
      r
  }

  /** Mix: the hidden count, then the hidden loop, then the input loop. */
  function Mix(k: Network, best: Network, rand: nat -> nat, pos: nat): (r: Drawn)
    requires Valid(k) && Valid(best)
    ensures Valid(r.net)
    ensures |r.net.hidden| == Toward(|k.hidden|, |best.hidden|)
    ensures r.net.score == k.score && OffsetsKept(k, r.net)
  {
    var b := BalanceHidden(k, best, rand, pos);
    var len := Min(|b.net.hidden|, |best.hidden|);
    var h := MixHiddenFrom(b.net, best, 0, len, rand, b.pos);
    var r := MixInputsFrom(h.net, best, 0, rand, h.pos);
    OffsetsKeptTrans(k, b.net, h.net, r.net);
    r
  }

  lemma SetFunctionKeepsLayers(k: Network, n: Network, r: Network, i: nat, fn: nat)
    requires NeuronsKept(k, n) && i < |n.hidden| && fn < FunctionCount && r == SetFunction(n, i, fn)
    ensures LayersKept(k, r) && |r.hidden| == |k.hidden|
  {
  }

  lemma LayersKeptTrans(a: Network, b: Network, c: Network)
    requires LayersKept(a, b) && LayersKept(b, c)
    ensures LayersKept(a, c)
  {
  }

  lemma OffsetsKeptTrans(a: Network, b: Network, c: Network, d: Network)
    requires OffsetsKept(a, b) && b.score == a.score
    requires LayersKept(b, c) && |c.hidden| == |b.hidden| && NeuronsKept(c, d)
    ensures OffsetsKept(a, d) && |d.hidden| == |b.hidden| && d.score == a.score
  {
  }

  // ---------------------------------------------------------------------------
  // What Mix achieves

  /** Source s of r after its iteration, measured against b (the network
      before the loops) and best: its number of connections has moved one
      step towards best's; each of them is one b had or a new one; and the
      connection at position j has the mean of its weight in b (1 for a new
      one) and the weight of best's connection at position j, or its weight
      in b when best has no connection there. */
  ghost predicate Settled(b: Network, best: Network, r: Network, s: Source) {
    |OutsOf(r, s)| == Toward(|OutsOf(b, s)|, |OutsOf(best, s)|) &&
    (forall x :: x in OutsOf(r, s) ==> x in OutsOf(b, s) || x >= b.nextId) &&
    forall j :: 0 <= j < |OutsOf(r, s)| ==>
      OutsOf(r, s)[j] in r.conns &&
      r.conns[OutsOf(r, s)[j]].weight ==
        if j < |OutsOf(best, s)| then (WeightOf(b, OutsOf(r, s)[j]) + WeightOf(best, OutsOf(best, s)[j])) / 2.0
        else WeightOf(b, OutsOf(r, s)[j])
  }

  /** Source s of r is as in b: the same list of the same connections. */
  ghost predicate Untouched(b: Network, r: Network, s: Source) {
    OutsOf(r, s) == OutsOf(b, s) &&
    forall x :: x in OutsOf(b, s) ==> x in b.conns && x in r.conns && r.conns[x] == b.conns[x]
  }

  lemma UntouchedAtStart(b: Network)
    requires OutsPointBack(b)
    ensures forall s :: Untouched(b, b, s)
  {
  }

  /** The shared part of an iteration settles its source against the network
      it started from and leaves every other source alone. */
  lemma MixOutsSettles(k: Network, best: Network, s: Source, rand: nat -> nat, pos: nat)
    requires Valid(k) && SourceOk(k, s) && (s.InputSrc? ==> s.i < InputCount)
    ensures Settled(k, best, MixOuts(k, best, s, rand, pos).net, s)
    ensures OthersKept(k, MixOuts(k, best, s, rand, pos).net, s)
  {
    var target := |OutsOf(best, s)|;
    var k1 := BalanceOuts(k, s, target, rand(pos));
    var ws := WeightsOut(best, s);
    var r := AverageOuts(k1, s, ws);
    assert r == MixOuts(k, best, s, rand, pos).net;
    BalanceOutsMoves(k, s, target, rand(pos));
    assert OutsLinked(k1) && NoDup(OutsOf(k1, s));
    AverageOutsWeights(k1, s, ws);
    AverageOutsKeepsOthers(k1, s, ws);
    OthersKeptCompose(k, k1, r, s);
    OneSourceSettles(k, best, k1, r, s, ws);
  }

  lemma OneSourceSettles(k: Network, best: Network, k1: Network, r: Network, s: Source, ws: seq<real>)
    requires FreshIds(k) && OldOrNew(k, k1, s)
    requires |OutsOf(k1, s)| == Toward(|OutsOf(k, s)|, |OutsOf(best, s)|)
    requires OutsOf(r, s) == OutsOf(k1, s) && ws == WeightsOut(best, s)
    requires forall j :: 0 <= j < |OutsOf(k1, s)| ==>
      OutsOf(k1, s)[j] in k1.conns && OutsOf(k1, s)[j] in r.conns &&
      r.conns[OutsOf(k1, s)[j]].weight ==
        if j < |ws| then (k1.conns[OutsOf(k1, s)[j]].weight + ws[j]) / 2.0
        else k1.conns[OutsOf(k1, s)[j]].weight
    ensures Settled(k, best, r, s)
  {
    var l := OutsOf(k1, s);
    forall j | 0 <= j < |l| ensures k1.conns[l[j]].weight == WeightOf(k, l[j]) {
      assert l[j] in OutsOf(k1, s);
      if l[j] !in OutsOf(k, s) {
        assert l[j] == k.nextId && l[j] !in k.conns;
      }
    }
  }

  /** A network with the same lists and connections as n is settled and
      framed exactly when n is. */
  lemma SameOutsSame(k: Network, best: Network, n: Network, r: Network, s: Source)
    requires forall s' :: OutsOf(r, s') == OutsOf(n, s')
    requires r.conns == n.conns && r.nextId == n.nextId
    ensures Settled(k, best, n, s) ==> Settled(k, best, r, s)
    ensures OthersKept(k, n, s) ==> OthersKept(k, r, s)
  {
    assert OutsOf(r, s) == OutsOf(n, s);
  }

  /** Iteration i of the hidden loop settles hidden neuron i, leaves every
      other source alone, and gives neuron i either its own activation index
      or best's. */
  lemma MixHiddenAtSettles(k: Network, best: Network, i: nat, rand: nat -> nat, pos: nat)
    requires Valid(k) && Valid(best) && i < |k.hidden| && i < |best.hidden|
    ensures var r := MixHiddenAt(k, best, i, rand, pos).net;
      Settled(k, best, r, HiddenSrc(i)) && OthersKept(k, r, HiddenSrc(i))
  {
    var st := MixOuts(k, best, HiddenSrc(i), rand, pos);
    MixOutsSettles(k, best, HiddenSrc(i), rand, pos);
    assert HiddenOk(best);
    var fn := best.hidden[i].functionIndex;
    if Next(rand(st.pos), 2) == 0 {
      SameOutsSame(k, best, st.net, SetFunction(st.net, i, fn), HiddenSrc(i));
    }
  }

  /** Iteration i of the hidden loop gives neuron i either its own
      activation index or best's, and leaves every other index alone. */
  lemma MixHiddenAtFunctions(k: Network, best: Network, i: nat, rand: nat -> nat, pos: nat)
    requires Valid(k) && Valid(best) && i < |k.hidden| && i < |best.hidden|
    ensures var r := MixHiddenAt(k, best, i, rand, pos).net;
      (r.hidden[i].functionIndex == k.hidden[i].functionIndex ||
       r.hidden[i].functionIndex == best.hidden[i].functionIndex) &&
      forall h :: 0 <= h < |k.hidden| && h != i ==> r.hidden[h].functionIndex == k.hidden[h].functionIndex
  {
    var st := MixOuts(k, best, HiddenSrc(i), rand, pos);
    assert NeuronsKept(k, st.net);
  }

  /** A step that only touches source s' keeps every other source settled,
      and untouched, as it was. */
  lemma KeptSettled(b: Network, best: Network, k: Network, r: Network, s: Source, s': Source)
    requires s != s' && OthersKept(k, r, s') && OutsPointBack(k)
    ensures Settled(b, best, k, s) ==> Settled(b, best, r, s)
    ensures Untouched(b, k, s) ==> Untouched(b, r, s)
  {
    assert OutsOf(r, s) == OutsOf(k, s);
    forall x | x in OutsOf(k, s) ensures x in r.conns && r.conns[x] == k.conns[x] {
      assert k.conns[x].input == s;
    }
  }

  /** Settling against the network an iteration started from is settling
      against b, as long as the source was untouched since b. */
  lemma SettledTransfer(b: Network, k: Network, best: Network, r: Network, s: Source)
    requires Untouched(b, k, s) && FreshIds(b) && FreshIds(k) && b.nextId <= k.nextId
    requires Settled(k, best, r, s)
    ensures Settled(b, best, r, s)
  {
    var l := OutsOf(r, s);
    forall j | 0 <= j < |l| ensures WeightOf(k, l[j]) == WeightOf(b, l[j]) {
      assert l[j] in l;
      if l[j] !in OutsOf(k, s) {
        assert l[j] !in k.conns && l[j] !in b.conns;
      }
    }
  }

  /** Settled, then untouched, is settled. */
  lemma SettledThenUntouched(b: Network, best: Network, n: Network, r: Network, s: Source)
    requires Settled(b, best, n, s) && Untouched(n, r, s)
    ensures Settled(b, best, r, s)
  {
    var l := OutsOf(r, s);
    forall j | 0 <= j < |l| ensures l[j] in r.conns && r.conns[l[j]] == n.conns[l[j]] {
      assert l[j] in OutsOf(n, s);
    }
  }

  lemma UntouchedTrans(a: Network, b: Network, c: Network, s: Source)
    requires Untouched(a, b, s) && Untouched(b, c, s)
    ensures Untouched(a, c, s)
  {
  }

  /** One iteration of the hidden loop followed by the rest of it: what the
      iteration settles stays settled, what the rest settles against n is
      settled against k, and what both leave alone stays alone. */
  lemma HiddenStepSettles(k: Network, best: Network, n: Network, r: Network, i: nat, len: nat)
    requires Valid(k) && Valid(n) && i < len
    requires Settled(k, best, n, HiddenSrc(i)) && OthersKept(k, n, HiddenSrc(i))
    requires n.nextId <= r.nextId
    requires forall h :: i + 1 <= h < len ==> Settled(n, best, r, HiddenSrc(h))
    requires forall s: Source :: (s.InputSrc? || s.h < i + 1 || s.h >= len) ==> Untouched(n, r, s)
    ensures k.nextId <= r.nextId
    ensures forall h :: i <= h < len ==> Settled(k, best, r, HiddenSrc(h))
    ensures forall s: Source :: (s.InputSrc? || s.h < i || s.h >= len) ==> Untouched(k, r, s)
  {
    PointBack(k);
    UntouchedAtStart(k);
    assert Untouched(n, r, HiddenSrc(i));
    SettledThenUntouched(k, best, n, r, HiddenSrc(i));
    forall s: Source | s != HiddenSrc(i) ensures Untouched(k, n, s) {
      KeptSettled(k, best, k, n, s, HiddenSrc(i));
    }
    forall h | i + 1 <= h < len ensures Settled(k, best, r, HiddenSrc(h)) {
      SettledTransfer(k, n, best, r, HiddenSrc(h));
    }
    forall s: Source | s.InputSrc? || s.h < i || s.h >= len ensures Untouched(k, r, s) {
      UntouchedTrans(k, n, r, s);
    }
  }

  /** One iteration of the input loop followed by the rest of it. */
  lemma InputStepSettles(k: Network, best: Network, n: Network, r: Network, i: nat)
    requires Valid(k) && Valid(n) && i < InputCount
    requires Settled(k, best, n, InputSrc(i)) && OthersKept(k, n, InputSrc(i))
    requires n.nextId <= r.nextId
    requires forall t :: i + 1 <= t < InputCount ==> Settled(n, best, r, InputSrc(t))
    requires forall s: Source :: (s.HiddenSrc? || s.i < i + 1) ==> Untouched(n, r, s)
    ensures k.nextId <= r.nextId
    ensures forall t :: i <= t < InputCount ==> Settled(k, best, r, InputSrc(t))
    ensures forall s: Source :: (s.HiddenSrc? || s.i < i) ==> Untouched(k, r, s)
  {
    PointBack(k);
    UntouchedAtStart(k);
    assert Untouched(n, r, InputSrc(i));
    SettledThenUntouched(k, best, n, r, InputSrc(i));
    forall s: Source | s != InputSrc(i) ensures Untouched(k, n, s) {
      KeptSettled(k, best, k, n, s, InputSrc(i));
    }
    forall t | i + 1 <= t < InputCount ensures Settled(k, best, r, InputSrc(t)) {
      SettledTransfer(k, n, best, r, InputSrc(t));
    }
    forall s: Source | s.HiddenSrc? || s.i < i ensures Untouched(k, r, s) {
      UntouchedTrans(k, n, r, s);
    }
  }

  /** What Mix does to the connections: measured against b, the network
      after the hidden-count step, every hidden neuron the two networks
      share and every input is settled, and the other hidden neurons keep
      their connections. */
  lemma MixSettles(k: Network, best: Network, rand: nat -> nat, pos: nat)
    requires Valid(k) && Valid(best)
    ensures var b := BalanceHidden(k, best, rand, pos).net;
      var r := Mix(k, best, rand, pos).net;
      (forall h :: 0 <= h < Min(|b.hidden|, |best.hidden|) ==> Settled(b, best, r, HiddenSrc(h))) &&
      (forall h :: Min(|b.hidden|, |best.hidden|) <= h ==> Untouched(b, r, HiddenSrc(h))) &&
      (forall t :: 0 <= t < InputCount ==> Settled(b, best, r, InputSrc(t)))
  {
    MixSettlesShared(k, best, rand, pos);
    MixKeepsOthers(k, best, rand, pos);
    MixSettlesInputs(k, best, rand, pos);
  }

  lemma MixSettlesShared(k: Network, best: Network, rand: nat -> nat, pos: nat)
    requires Valid(k) && Valid(best)
    ensures var b := BalanceHidden(k, best, rand, pos).net;
      SharedSettled(b, best, Mix(k, best, rand, pos).net, Min(|b.hidden|, |best.hidden|))
  {
    var bd := BalanceHidden(k, best, rand, pos);
    var b := bd.net;
    var len := Min(|b.hidden|, |best.hidden|);
    var hd := MixHiddenFrom(b, best, 0, len, rand, bd.pos);
    var r := MixInputsFrom(hd.net, best, 0, rand, hd.pos).net;
    assert Mix(k, best, rand, pos).net == r;
    SharedStaySettled(b, best, hd.net, r, len);
  }

  /** Every hidden neuron below len is settled. */
  ghost predicate SharedSettled(b: Network, best: Network, r: Network, len: nat) {
    forall hh :: 0 <= hh < len ==> Settled(b, best, r, HiddenSrc(hh))
  }

  /** The input loop does not undo what the hidden loop settled. */
  lemma SharedStaySettled(b: Network, best: Network, h: Network, r: Network, len: nat)
    requires forall hh :: 0 <= hh < len ==> Settled(b, best, h, HiddenSrc(hh))
    requires forall s: Source :: s.HiddenSrc? ==> Untouched(h, r, s)
    ensures SharedSettled(b, best, r, len)
  {
    forall hh | 0 <= hh < len ensures Settled(b, best, r, HiddenSrc(hh)) {
      SettledThenUntouched(b, best, h, r, HiddenSrc(hh));
    }
  }

  lemma MixKeepsOthers(k: Network, best: Network, rand: nat -> nat, pos: nat)
    requires Valid(k) && Valid(best)
    ensures var b := BalanceHidden(k, best, rand, pos).net;
      forall h :: Min(|b.hidden|, |best.hidden|) <= h ==> Untouched(b, Mix(k, best, rand, pos).net, HiddenSrc(h))
  {
    var bd := BalanceHidden(k, best, rand, pos);
    var b := bd.net;
    var len := Min(|b.hidden|, |best.hidden|);
    var hd := MixHiddenFrom(b, best, 0, len, rand, bd.pos);
    var r := MixInputsFrom(hd.net, best, 0, rand, hd.pos).net;
    assert Mix(k, best, rand, pos).net == r;
    OthersStayUntouched(b, hd.net, r, len);
  }

  /** Neither loop touches a hidden neuron beyond the shared ones. */
  lemma OthersStayUntouched(b: Network, h: Network, r: Network, len: nat)
    requires forall s: Source :: (s.InputSrc? || s.h >= len) ==> Untouched(b, h, s)
    requires forall s: Source :: s.HiddenSrc? ==> Untouched(h, r, s)
    ensures forall hh :: len <= hh ==> Untouched(b, r, HiddenSrc(hh))
  {
    forall hh | len <= hh ensures Untouched(b, r, HiddenSrc(hh)) {
      UntouchedTrans(b, h, r, HiddenSrc(hh));
    }
  }

  lemma MixSettlesInputs(k: Network, best: Network, rand: nat -> nat, pos: nat)
    requires Valid(k) && Valid(best)
    ensures var b := BalanceHidden(k, best, rand, pos).net;
      forall t :: 0 <= t < InputCount ==> Settled(b, best, Mix(k, best, rand, pos).net, InputSrc(t))
  {
    var bd := BalanceHidden(k, best, rand, pos);
    var b := bd.net;
    var len := Min(|b.hidden|, |best.hidden|);
    var hd := MixHiddenFrom(b, best, 0, len, rand, bd.pos);
    var r := MixInputsFrom(hd.net, best, 0, rand, hd.pos).net;
    assert Mix(k, best, rand, pos).net == r;
    InputsSettledFromStart(b, best, hd.net, r);
  }

  /** The hidden loop leaves the inputs alone, so the inputs the input loop
      settles against h are settled against b too. */
  lemma InputsSettledFromStart(b: Network, best: Network, h: Network, r: Network)
    requires FreshIds(b) && FreshIds(h) && b.nextId <= h.nextId
    requires forall s: Source :: s.InputSrc? ==> Untouched(b, h, s)
    requires forall t :: 0 <= t < InputCount ==> Settled(h, best, r, InputSrc(t))
    ensures forall t :: 0 <= t < InputCount ==> Settled(b, best, r, InputSrc(t))
  {
    forall t | 0 <= t < InputCount ensures Settled(b, best, r, InputSrc(t)) {
      SettledTransfer(b, h, best, r, InputSrc(t));
    }
  }

  lemma FunctionsChain(k: Network, best: Network, n: Network, r: Network, i: nat, len: nat)
    requires |n.hidden| == |k.hidden| && |r.hidden| == |k.hidden| && i < len <= |best.hidden|
    requires i < |k.hidden|
    requires n.hidden[i].functionIndex == k.hidden[i].functionIndex ||
      n.hidden[i].functionIndex == best.hidden[i].functionIndex
    requires forall h :: 0 <= h < |k.hidden| && h != i ==> n.hidden[h].functionIndex == k.hidden[h].functionIndex
    requires forall h :: 0 <= h < |n.hidden| ==>
      r.hidden[h].functionIndex == n.hidden[h].functionIndex ||
      (i + 1 <= h < len && r.hidden[h].functionIndex == best.hidden[h].functionIndex)
    ensures forall h :: 0 <= h < |k.hidden| ==>
      r.hidden[h].functionIndex == k.hidden[h].functionIndex ||
      (i <= h < len && r.hidden[h].functionIndex == best.hidden[h].functionIndex)
  {
  }

  /** After Mix each shared hidden neuron has its activation index from
      before the loops or best's; the others keep theirs. */
  lemma MixFunctions(k: Network, best: Network, rand: nat -> nat, pos: nat)
    requires Valid(k) && Valid(best)
    ensures var b := BalanceHidden(k, best, rand, pos).net;
      var r := Mix(k, best, rand, pos).net;
      |r.hidden| == |b.hidden| &&
      forall h :: 0 <= h < |b.hidden| ==>
        r.hidden[h].functionIndex == b.hidden[h].functionIndex ||
        (h < Min(|b.hidden|, |best.hidden|) && r.hidden[h].functionIndex == best.hidden[h].functionIndex)
  {
    var bd := BalanceHidden(k, best, rand, pos);
    var len := Min(|bd.net.hidden|, |best.hidden|);
    var hd := MixHiddenFrom(bd.net, best, 0, len, rand, bd.pos);
    var r := MixInputsFrom(hd.net, best, 0, rand, hd.pos).net;
    assert Mix(k, best, rand, pos).net == r;
    LoopsKeepFunctions(bd.net, best, hd.net, r, len);
  }

  lemma LoopsKeepFunctions(b: Network, best: Network, h: Network, r: Network, len: nat)
    requires |h.hidden| == |b.hidden| && NeuronsKept(h, r) && len <= |best.hidden|
    requires forall hh :: 0 <= hh < |b.hidden| ==>
      h.hidden[hh].functionIndex == b.hidden[hh].functionIndex ||
      (0 <= hh < len && h.hidden[hh].functionIndex == best.hidden[hh].functionIndex)
    ensures |r.hidden| == |b.hidden|
    ensures forall hh :: 0 <= hh < |b.hidden| ==>
      r.hidden[hh].functionIndex == b.hidden[hh].functionIndex ||
      (hh < len && r.hidden[hh].functionIndex == best.hidden[hh].functionIndex)
  {
  }
}

=== FILE: mutations.dfy ===
/** The mutations of a network (Mutations.cs): adding a hidden neuron, adding
    a connection, nudging a weight and changing an activation function, and
    `Mutate`, which picks one of them from a draw out of 28. */
module Mutations {
  import opened Neurons
  import opened Seqs
  import opened NeuralNetworks
  import opened Connections
  import opened Draws

  // ---------------------------------------------------------------------------
  // AddHidden

  /** Appends a hidden neuron of the given layer and activation index with no
      connections; `maxLayer` rises to the layer when the layer is above it.
      The layer is a value of `Next(maxLayer + 2)`, the index one of `Next(4)`. */
  function AddHidden(n: Network, layer: nat, fn: nat): (r: Network)
    requires layer < n.maxLayer + 2 && fn < FunctionCount
    ensures |r.hidden| == |n.hidden| + 1 && r.hidden[..|n.hidden|] == n.hidden
    ensures r.hidden[|n.hidden|] == HiddenNeuron(layer, fn, [], [])
    ensures r.maxLayer >= layer && n.maxLayer <= r.maxLayer <= n.maxLayer + 1
    ensures forall s :: OutsOf(r, s) == OutsOf(n, s)
    ensures forall d :: InsOf(r, d) == InsOf(n, d)
    ensures r.inputs == n.inputs && r.output == n.output && r.conns == n.conns
    ensures r.nextId == n.nextId && r.score == n.score
    ensures LayersKept(n, r)
  {
    var top := if layer > n.maxLayer then layer else n.maxLayer;
    n.(hidden := n.hidden + [NewHidden(layer, fn)], maxLayer := top)
  }

  lemma AddHiddenKeepsValid(n: Network, layer: nat, fn: nat)
    requires Valid(n) && layer < n.maxLayer + 2 && fn < FunctionCount
    ensures Valid(AddHidden(n, layer, fn))
  {    var r := AddHidden(n, layer, fn);
    forall h | 0 <= h < |r.hidden|
      ensures 0 <= r.hidden[h].layer <= r.maxLayer && r.hidden[h].functionIndex < FunctionCount
    {
      if h < |n.hidden| {
        assert r.hidden[h] == n.hidden[h];
      }
    }
    ListsKeptKeepsValid(n, r);
  }

  // ---------------------------------------------------------------------------
  // AddNeuronOut and AddConnection

  /** The indices of the hidden neurons whose layer is above `layer`, in list
      order: the candidate destinations of a hidden neuron of that layer. */
  function Above(hs: seq<HiddenNeuron>, layer: int): (r: seq<nat>)
    ensures forall j :: 0 <= j < |r| ==> r[j] < |hs| && hs[r[j]].layer > layer
    ensures forall k :: 0 <= k < |hs| && hs[k].layer > layer ==> k in r
    ensures forall i, j :: 0 <= i < j < |r| ==> r[i] < r[j]
    decreases |hs|
  {
    if hs == [] then []
    else
      var rest := Above(hs[..|hs| - 1], layer);
      if hs[|hs| - 1].layer > layer then rest + [|hs| - 1] else rest
  }

  /** Destination of a new connection out of hidden neuron h: candidate
      `outputIndex` among the higher neurons, or the output for the slot
      after the last candidate. */
  function NeuronOutTarget(n: Network, h: nat, outputIndex: nat): (d: Sink)
    requires h < |n.hidden| && outputIndex <= |Above(n.hidden, n.hidden[h].layer)|
    ensures SinkOk(n, d) && EdgeLayered(n, HiddenSrc(h), d)
    ensures d == OutputDst <==> outputIndex == |Above(n.hidden, n.hidden[h].layer)|
  {
    var above := Above(n.hidden, n.hidden[h].layer);
    if outputIndex == |above| then OutputDst else HiddenDst(above[outputIndex])
  }

  /** Every admissible destination of hidden neuron h is the target of some
      slot: the output, and each hidden neuron of a higher layer. */
  lemma NeuronOutTargetsAll(n: Network, h: nat, d: Sink) returns (outputIndex: nat)
    requires h < |n.hidden| && SinkOk(n, d) && EdgeLayered(n, HiddenSrc(h), d)
    ensures outputIndex <= |Above(n.hidden, n.hidden[h].layer)|
    ensures NeuronOutTarget(n, h, outputIndex) == d
  {
    var above := Above(n.hidden, n.hidden[h].layer);
    if d == OutputDst {
      outputIndex := |above|;
    } else {
      var j :| 0 <= j < |above| && above[j] == d.h;
      outputIndex := j;
    }
  }

  /** Connects hidden neuron h to a higher hidden neuron or to the output. */
  function AddNeuronOut(n: Network, h: nat, outputIndex: nat): (r: Network)
    requires h < |n.hidden| && outputIndex <= |Above(n.hidden, n.hidden[h].layer)|
    ensures n.nextId in r.conns && r.conns[n.nextId].input == HiddenSrc(h)
    ensures r.conns[n.nextId].weight == 1.0
    ensures EdgeLayered(n, HiddenSrc(h), r.conns[n.nextId].output)
    ensures OutsOf(r, HiddenSrc(h)) == OutsOf(n, HiddenSrc(h)) + [n.nextId]
    ensures forall s :: s != HiddenSrc(h) ==> OutsOf(r, s) == OutsOf(n, s)
  {
    Link(n, HiddenSrc(h), NeuronOutTarget(n, h, outputIndex))
  }

  /** The number of destinations `AddConnection` chooses among for source
      slot inputIndex (an input below 80, hidden neuron inputIndex - 80 above). */
  function Choices(n: Network, inputIndex: nat): (c: nat)
    requires inputIndex < InputCount + |n.hidden|
    ensures c >= 1
  {
    if inputIndex < InputCount then |n.hidden| + 1
    else |Above(n.hidden, n.hidden[inputIndex - InputCount].layer)| + 1
  }

  /** The neuron behind source slot inputIndex. */
  function SourceAt(inputIndex: nat): (s: Source) {
    if inputIndex < InputCount then InputSrc(inputIndex) else HiddenSrc(inputIndex - InputCount)
  }

  /** Adds one connection of weight 1: from input inputIndex to hidden neuron
      outputIndex or (for the last slot) the output, or, for inputIndex of 80
      and above, out of hidden neuron inputIndex - 80 as AddNeuronOut does. */
  function AddConnection(n: Network, inputIndex: nat, outputIndex: nat): (r: Network)
    requires |n.inputs| == InputCount
    requires inputIndex < InputCount + |n.hidden| && outputIndex < Choices(n, inputIndex)
    ensures n.nextId in r.conns && r.conns[n.nextId].input == SourceAt(inputIndex)
    ensures r.conns[n.nextId].weight == 1.0
    ensures SinkOk(n, r.conns[n.nextId].output)
    ensures EdgeLayered(n, r.conns[n.nextId].input, r.conns[n.nextId].output)
    ensures inputIndex < InputCount ==>
      (r.conns[n.nextId].output == OutputDst <==> outputIndex == |n.hidden|)
    ensures r.conns.Keys == n.conns.Keys + {n.nextId} && r.nextId == n.nextId + 1
    ensures forall id :: id in n.conns && id != n.nextId ==> r.conns[id] == n.conns[id]
    ensures OutsOf(r, SourceAt(inputIndex)) == OutsOf(n, SourceAt(inputIndex)) + [n.nextId]
    ensures forall s :: s != SourceAt(inputIndex) ==> OutsOf(r, s) == OutsOf(n, s)
    ensures NeuronsKept(n, r) && NeuronsKept(r, n)
  {
    if inputIndex < InputCount then
      Link(n, InputSrc(inputIndex), if outputIndex == |n.hidden| then OutputDst else HiddenDst(outputIndex))
    else
      var h := inputIndex - InputCount;
      assert Choices(n, inputIndex) == |Above(n.hidden, n.hidden[h].layer)| + 1;
      AddNeuronOut(n, h, outputIndex)
  }

  lemma AddConnectionKeepsValid(n: Network, inputIndex: nat, outputIndex: nat)
    requires Valid(n)
    requires inputIndex < InputCount + |n.hidden| && outputIndex < Choices(n, inputIndex)
    ensures Valid(AddConnection(n, inputIndex, outputIndex))
  {
    if inputIndex < InputCount {
      LinkKeepsValid(n, InputSrc(inputIndex), if outputIndex == |n.hidden| then OutputDst else HiddenDst(outputIndex));
    } else {
      var h := inputIndex - InputCount;
      assert Choices(n, inputIndex) == |Above(n.hidden, n.hidden[h].layer)| + 1;
      LinkKeepsValid(n, HiddenSrc(h), NeuronOutTarget(n, h, outputIndex));
    }
  }

  // ---------------------------------------------------------------------------
  // ModifyWeight and ModifyActivationFunction

  /** The `Outs` lists of the inputs and then of the hidden neurons. */
  function OutLists(n: Network): seq<seq<nat>> {
    seq(|n.inputs|, i requires 0 <= i < |n.inputs| => n.inputs[i].outs) +
    seq(|n.hidden|, h requires 0 <= h < |n.hidden| => n.hidden[h].outs)
  }

  lemma OutListsMembers(n: Network)
    ensures forall id :: id in Flatten(OutLists(n)) <==> exists s :: SourceOk(n, s) && id in OutsOf(n, s)
  {
    var ls := OutLists(n);
    forall id | id in Flatten(ls)
      ensures exists s :: SourceOk(n, s) && id in OutsOf(n, s)
    {
      var k :| 0 <= k < |ls| && id in ls[k];
      if k < |n.inputs| {
        assert id in OutsOf(n, InputSrc(k));
      } else {
        assert id in OutsOf(n, HiddenSrc(k - |n.inputs|));
      }
    }
    forall id, s | SourceOk(n, s) && id in OutsOf(n, s)
      ensures id in Flatten(ls)
    {
      match s
      case InputSrc(i) => assert id in ls[i];
      case HiddenSrc(h) => assert id in ls[|n.inputs| + h];
    }
  }

  /** The `Outs` of every input and then of every hidden neuron, in order. */
  function AllOuts(n: Network): (r: seq<nat>)
    ensures forall id :: id in r <==> exists s :: SourceOk(n, s) && id in OutsOf(n, s)
  {
    OutListsMembers(n);
    Flatten(OutLists(n))
  }

  /** A valid network lists some connection in an `Outs` list exactly when it
      has a connection at all. */
  lemma AllOutsEmptyIffNoConnections(n: Network)
    requires Valid(n)
    ensures AllOuts(n) == [] <==> n.conns == map[]
  {
    if n.conns != map[] {
      var id :| id in n.conns;
      assert id in OutsOf(n, n.conns[id].input);
      assert id in AllOuts(n);
    }
    if AllOuts(n) != [] {
      AllOutsLive(n);
      assert AllOuts(n)[0] in AllOuts(n);
      assert AllOuts(n)[0] in n.conns;
    }
  }

  /** Every id in AllOuts is a live connection. */
  lemma AllOutsLive(n: Network)
    requires OutsLinked(n)
    ensures forall id :: id in AllOuts(n) ==> id in n.conns
  {
    forall id | id in AllOuts(n) ensures id in n.conns {
      var s :| SourceOk(n, s) && id in OutsOf(n, s);
      var j :| 0 <= j < |OutsOf(n, s)| && OutsOf(n, s)[j] == id;
    }
  }

  /** Adds delta to the weight of connection id; nothing else changes. */
  function NudgeWeight(n: Network, id: nat, delta: real): (r: Network)
    requires id in n.conns
    ensures r.conns.Keys == n.conns.Keys
    ensures r.conns[id].weight == n.conns[id].weight + delta
    ensures r.conns[id].input == n.conns[id].input && r.conns[id].output == n.conns[id].output
    ensures forall k :: k in n.conns && k != id ==> r.conns[k] == n.conns[k]
    ensures r.inputs == n.inputs && r.hidden == n.hidden && r.output == n.output
    ensures r.nextId == n.nextId && r.maxLayer == n.maxLayer && r.score == n.score
  {
    n.(conns := n.conns[id := n.conns[id].(weight := n.conns[id].weight + delta)])
  }

  lemma NudgeWeightFrame(n: Network, id: nat, delta: real, r: Network)
    requires HiddenOk(n) && id in n.conns && r == NudgeWeight(n, id, delta)
    ensures forall s :: OutsOf(r, s) == OutsOf(n, s)
    ensures forall d :: InsOf(r, d) == InsOf(n, d)
    ensures forall k :: k in n.conns ==>
      r.conns[k].input == n.conns[k].input && r.conns[k].output == n.conns[k].output
    ensures HiddenOk(r)
  {
  }

  lemma NudgeWeightKeepsValid(n: Network, id: nat, delta: real)
    requires Valid(n) && id in n.conns
    ensures Valid(NudgeWeight(n, id, delta))
  {    var r := NudgeWeight(n, id, delta);
    NudgeWeightFrame(n, id, delta, r);
    ListsKeptKeepsValid(n, r);
  }

  /** Sets the activation index of hidden neuron h; nothing else changes. */
  function SetFunction(n: Network, h: nat, fn: nat): (r: Network)
    requires h < |n.hidden| && fn < FunctionCount
    ensures |r.hidden| == |n.hidden| && r.hidden[h].functionIndex == fn
    ensures forall k :: 0 <= k < |n.hidden| && k != h ==> r.hidden[k] == n.hidden[k]
    ensures r.hidden[h].layer == n.hidden[h].layer
    ensures forall s :: OutsOf(r, s) == OutsOf(n, s)
    ensures forall d :: InsOf(r, d) == InsOf(n, d)
    ensures r.inputs == n.inputs && r.output == n.output && r.conns == n.conns
    ensures r.nextId == n.nextId && r.maxLayer == n.maxLayer && r.score == n.score
  {
    n.(hidden := n.hidden[h := n.hidden[h].(functionIndex := fn)])
  }

  lemma SetFunctionKeepsValid(n: Network, h: nat, fn: nat)
    requires Valid(n) && h < |n.hidden| && fn < FunctionCount
    ensures Valid(SetFunction(n, h, fn))
  {    ListsKeptKeepsValid(n, SetFunction(n, h, fn));
  }

  // ---------------------------------------------------------------------------
  // Mutate

  /** AddHidden with its two draws. */
  function DrawHidden(n: Network, d1: nat, d2: nat): (r: Network)
    requires 0 <= n.maxLayer
    ensures |r.hidden| == |n.hidden| + 1
  {
    AddHidden(n, Next(d1, n.maxLayer + 2), Next(d2, FunctionCount))
  }

  /** AddConnection with its two draws. */
  function DrawConnection(n: Network, d1: nat, d2: nat): (r: Network)
    requires |n.inputs| == InputCount
    ensures n.nextId in r.conns
  {
    var inputIndex := Next(d1, InputCount + |n.hidden|);
    AddConnection(n, inputIndex, Next(d2, Choices(n, inputIndex)))
  }

  /** One mutation. b picks the kind: below 2 a hidden neuron, below 8 a
      connection, below 20 a weight nudge by delta (a connection instead when
      there is none), otherwise a new activation index (a hidden neuron
      instead when there is none). d1 and d2 are the next two draws. delta is
      the value of `NextSingle() * 2 - 1`, which the nudge takes in place of
      d2, so every kind reads three draws. */
  function Mutate(n: Network, b: nat, d1: nat, d2: nat, delta: real): (r: Network)
    requires Valid(n) && -1.0 <= delta < 1.0
    ensures LayersKept(n, r) && |r.hidden| <= |n.hidden| + 1
    ensures n.conns.Keys <= r.conns.Keys <= n.conns.Keys + {n.nextId}
    ensures forall id :: id in n.conns ==>
      r.conns[id].input == n.conns[id].input && r.conns[id].output == n.conns[id].output
  {
    var kind := Next(b, 28);
    if kind < 2 then DrawHidden(n, d1, d2)
    else if kind < 8 then DrawConnection(n, d1, d2)
    else if kind < 20 then
      var all := AllOuts(n);
      if all == [] then DrawConnection(n, d1, d2)
      else
        AllOutsLive(n);
        NudgeWeight(n, all[Next(d1, |all|)], delta)
    else if n.hidden == [] then DrawHidden(n, d1, d2)
    else SetFunction(n, Next(d1, |n.hidden|), Next(d2, FunctionCount))
  }

  // The four outcomes of a mutation.

  /** One hidden neuron without connections was appended; nothing else but
      `maxLayer` changed. */
  ghost predicate HiddenAdded(n: Network, r: Network) {
    |r.hidden| == |n.hidden| + 1 && r.hidden[..|n.hidden|] == n.hidden &&
    r.hidden[|n.hidden|].ins == [] && r.hidden[|n.hidden|].outs == [] &&
    0 <= r.hidden[|n.hidden|].layer <= n.maxLayer + 1 &&
    r.inputs == n.inputs && r.output == n.output && r.conns == n.conns && r.nextId == n.nextId
  }

  /** One connection of weight 1 with a fresh id was added between existing,
      layer-respecting endpoints and listed by both; no other list changed. */
  ghost predicate ConnectionAdded(n: Network, r: Network) {
    var id := n.nextId;
    id !in n.conns && id in r.conns && r.conns.Keys == n.conns.Keys + {id} &&
    r.conns[id].weight == 1.0 &&
    SourceOk(n, r.conns[id].input) && SinkOk(n, r.conns[id].output) &&
    EdgeLayered(n, r.conns[id].input, r.conns[id].output) &&
    (forall k :: k in n.conns ==> r.conns[k] == n.conns[k]) &&
    OutsOf(r, r.conns[id].input) == OutsOf(n, r.conns[id].input) + [id] &&
    InsOf(r, r.conns[id].output) == InsOf(n, r.conns[id].output) + [id] &&
    (forall s :: s != r.conns[id].input ==> OutsOf(r, s) == OutsOf(n, s)) &&
    (forall d :: d != r.conns[id].output ==> InsOf(r, d) == InsOf(n, d)) &&
    NeuronsKept(n, r)
  }

  /** Exactly one connection's weight moved by delta; nothing else changed. */
  ghost predicate WeightNudged(n: Network, r: Network, delta: real) {
    exists id :: id in n.conns &&
      r == n.(conns := n.conns[id := n.conns[id].(weight := n.conns[id].weight + delta)])
  }

  /** Exactly one hidden neuron got a (possibly equal) valid activation index;
      nothing else changed. */
  ghost predicate FunctionChanged(n: Network, r: Network) {
    exists h, fn :: 0 <= h < |n.hidden| && 0 <= fn < FunctionCount &&
      r == n.(hidden := n.hidden[h := n.hidden[h].(functionIndex := fn)])
  }

  /** Which outcome each draw of the kind produces, fallbacks included. */
  lemma MutateOutcome(n: Network, b: nat, d1: nat, d2: nat, delta: real)
    requires Valid(n) && -1.0 <= delta < 1.0
    ensures var r := Mutate(n, b, d1, d2, delta); var kind := b % 28;
      ((kind < 2 || (kind >= 20 && n.hidden == [])) ==> HiddenAdded(n, r)) &&
      ((2 <= kind < 8 || (8 <= kind < 20 && n.conns == map[])) ==> ConnectionAdded(n, r)) &&
      (8 <= kind < 20 && n.conns != map[] ==> WeightNudged(n, r, delta)) &&
      (kind >= 20 && n.hidden != [] ==> FunctionChanged(n, r))
  {
    var r := Mutate(n, b, d1, d2, delta);
    var kind := b % 28;
    AllOutsEmptyIffNoConnections(n);
    if kind < 2 || (kind >= 20 && n.hidden == []) {
    } else if 2 <= kind < 8 || (8 <= kind < 20 && n.conns == map[]) {
      assert n.nextId !in n.conns;
    } else if 8 <= kind < 20 {
      AllOutsLive(n);
      var all := AllOuts(n);
      assert all[Next(d1, |all|)] in n.conns;
    } else {
      assert 0 <= Next(d1, |n.hidden|) < |n.hidden| && 0 <= Next(d2, FunctionCount) < FunctionCount;
    }
  }

  /** Every mutation keeps the network valid. */
  lemma MutateKeepsValid(n: Network, b: nat, d1: nat, d2: nat, delta: real)
    requires Valid(n) && -1.0 <= delta < 1.0
    ensures Valid(Mutate(n, b, d1, d2, delta))
  {
    var kind := Next(b, 28);
    if kind < 2 || (kind >= 20 && n.hidden == []) {
      AddHiddenKeepsValid(n, Next(d1, n.maxLayer + 2), Next(d2, FunctionCount));
    } else if kind < 8 || (kind < 20 && AllOuts(n) == []) {
      var inputIndex := Next(d1, InputCount + |n.hidden|);
      AddConnectionKeepsValid(n, inputIndex, Next(d2, Choices(n, inputIndex)));
    } else if kind < 20 {
      AllOutsLive(n);
      NudgeWeightKeepsValid(n, AllOuts(n)[Next(d1, |AllOuts(n)|)], delta);
    } else {
      SetFunctionKeepsValid(n, Next(d1, |n.hidden|), Next(d2, FunctionCount));
    }
  }
}

=== FILE: neural_network.dfy ===
/** The network: 80 input neurons, a growable list of hidden neurons, one
    output neuron, and the pool of connections they share.

    Connections are addressed by id. A neuron's `Ins`/`Outs` list holds ids,
    `conns` maps each live id to its weight and back-references, and `nextId`
    is the next id to hand out (it plays the role of allocating a fresh
    object). `maxLayer` is the network's running maximum hidden layer. */
module NeuralNetworks {
  import opened Neurons
  import opened Wrappers
  import opened Seqs

  const InputCount: nat := 80

  datatype Network = Network(
    inputs: seq<InputNeuron>,
    hidden: seq<HiddenNeuron>,
    output: OutputNeuron,
    conns: map<nat, Connection>,
    nextId: nat,
    maxLayer: int,
    score: int)

  // ---------------------------------------------------------------------------
  // Access to a neuron's lists through a handle

  predicate SourceOk(n: Network, s: Source) {
    match s
    case InputSrc(i) => i < |n.inputs|
    case HiddenSrc(h) => h < |n.hidden|
  }

  predicate SinkOk(n: Network, d: Sink) {
    match d
    case HiddenDst(h) => h < |n.hidden|
    case OutputDst => true
  }

  /** The `Outs` list of a source; empty for a handle that names no neuron. */
  function OutsOf(n: Network, s: Source): seq<nat> {
    match s
    case InputSrc(i) => if i < |n.inputs| then n.inputs[i].outs else []
    case HiddenSrc(h) => if h < |n.hidden| then n.hidden[h].outs else []
  }

  /** The `Ins` list of a sink; empty for a handle that names no neuron. */
  function InsOf(n: Network, d: Sink): seq<nat> {
    match d
    case HiddenDst(h) => if h < |n.hidden| then n.hidden[h].ins else []
    case OutputDst => n.output.ins
  }

  /** Replaces the `Outs` list of a source, leaving every other list alone. */
  function WithOuts(n: Network, s: Source, l: seq<nat>): (r: Network)
    requires SourceOk(n, s)
    ensures OutsOf(r, s) == l
    ensures forall s' :: s' != s ==> OutsOf(r, s') == OutsOf(n, s')
    ensures forall d :: InsOf(r, d) == InsOf(n, d)
    ensures r.conns == n.conns && r.nextId == n.nextId && r.maxLayer == n.maxLayer && r.score == n.score
    ensures |r.inputs| == |n.inputs| && |r.hidden| == |n.hidden|
    ensures forall i :: 0 <= i < |n.inputs| ==>
      r.inputs[i].offsetX == n.inputs[i].offsetX && r.inputs[i].offsetY == n.inputs[i].offsetY
    ensures forall h :: 0 <= h < |n.hidden| ==>
      r.hidden[h].layer == n.hidden[h].layer && r.hidden[h].functionIndex == n.hidden[h].functionIndex
  {
    match s
    case InputSrc(i) => n.(inputs := n.inputs[i := n.inputs[i].(outs := l)])
    case HiddenSrc(h) => n.(hidden := n.hidden[h := n.hidden[h].(outs := l)])
  }

  /** Replaces the `Ins` list of a sink, leaving every other list alone. */
  function WithIns(n: Network, d: Sink, l: seq<nat>): (r: Network)
    requires SinkOk(n, d)
    ensures InsOf(r, d) == l
    ensures forall d' :: d' != d ==> InsOf(r, d') == InsOf(n, d')
    ensures forall s :: OutsOf(r, s) == OutsOf(n, s)
    ensures r.conns == n.conns && r.nextId == n.nextId && r.maxLayer == n.maxLayer && r.score == n.score
    ensures r.inputs == n.inputs && |r.hidden| == |n.hidden|
    ensures forall h :: 0 <= h < |n.hidden| ==>
      r.hidden[h].layer == n.hidden[h].layer && r.hidden[h].functionIndex == n.hidden[h].functionIndex
  {
    match d
    case HiddenDst(h) => n.(hidden := n.hidden[h := n.hidden[h].(ins := l)])
    case OutputDst => n.(output := n.output.(ins := l))
  }

  /** Input offsets never change. */
  ghost predicate OffsetsKept(n: Network, r: Network) {
    |r.inputs| == |n.inputs| &&
    forall i :: 0 <= i < |n.inputs| ==>
      r.inputs[i].offsetX == n.inputs[i].offsetX && r.inputs[i].offsetY == n.inputs[i].offsetY
  }

  /** The neurons of n are still there in r, with the same layers (and maxLayer
      and score unchanged); more hidden neurons may have been appended. */
  ghost predicate LayersKept(n: Network, r: Network) {
    OffsetsKept(n, r) && |n.hidden| <= |r.hidden| && r.maxLayer >= n.maxLayer && r.score == n.score &&
    forall h :: 0 <= h < |n.hidden| ==> r.hidden[h].layer == n.hidden[h].layer
  }

  /** As LayersKept, with no hidden neuron added and every activation index kept. */
  ghost predicate NeuronsKept(n: Network, r: Network) {
    LayersKept(n, r) && |r.hidden| == |n.hidden| && r.maxLayer == n.maxLayer &&
    forall h :: 0 <= h < |n.hidden| ==> r.hidden[h].functionIndex == n.hidden[h].functionIndex
  }

  lemma NeuronsKeptTrans(a: Network, b: Network, c: Network)
    requires NeuronsKept(a, b) && NeuronsKept(b, c)
    ensures NeuronsKept(a, c)
  {
  }

  /** Two networks that agree on every list, on the connections and on every
      neuron's fixed data are equal. */
  lemma SameListsSameNetwork(n: Network, r: Network)
    requires NeuronsKept(n, r)
    requires forall s :: OutsOf(r, s) == OutsOf(n, s)
    requires forall d :: InsOf(r, d) == InsOf(n, d)
    requires r.conns == n.conns && r.nextId == n.nextId
    ensures r == n
  {
    assert r.inputs == n.inputs by {
      forall i | 0 <= i < |n.inputs| ensures r.inputs[i] == n.inputs[i] {
        assert OutsOf(r, InputSrc(i)) == OutsOf(n, InputSrc(i));
      }
    }
    assert r.hidden == n.hidden by {
      forall h | 0 <= h < |n.hidden| ensures r.hidden[h] == n.hidden[h] {
        assert OutsOf(r, HiddenSrc(h)) == OutsOf(n, HiddenSrc(h));
        assert InsOf(r, HiddenDst(h)) == InsOf(n, HiddenDst(h));
      }
    }
    assert r.output == n.output by {
      assert InsOf(r, OutputDst) == InsOf(n, OutputDst);
    }
  }

  // ---------------------------------------------------------------------------
  // Well-formedness of the connection bookkeeping

  /** Every connection's back-references name existing neurons. */
  ghost predicate EndpointsOk(n: Network) {
    forall id :: id in n.conns ==> SourceOk(n, n.conns[id].input) && SinkOk(n, n.conns[id].output)
  }

  /** Every live connection is listed by both of its endpoints. */
  ghost predicate Listed(n: Network) {
    forall id :: id in n.conns ==> id in OutsOf(n, n.conns[id].input) && id in InsOf(n, n.conns[id].output)
  }

  /** Every listed id is live and points back at the neuron whose list holds it. */
  ghost predicate OutsLinked(n: Network) {
    forall s, j :: 0 <= j < |OutsOf(n, s)| ==>
      OutsOf(n, s)[j] in n.conns && n.conns[OutsOf(n, s)[j]].input == s
  }

  ghost predicate InsLinked(n: Network) {
    forall d, j :: 0 <= j < |InsOf(n, d)| ==>
      InsOf(n, d)[j] in n.conns && n.conns[InsOf(n, d)[j]].output == d
  }

  ghost predicate NoDuplicates(n: Network) {
    (forall s :: NoDup(OutsOf(n, s))) && (forall d :: NoDup(InsOf(n, d)))
  }

  /** Ids not yet handed out are not in use. */
  ghost predicate FreshIds(n: Network) {
    forall id :: id in n.conns ==> id < n.nextId
  }

  /** A hidden-to-hidden edge goes to a strictly higher layer. */
  predicate EdgeLayered(n: Network, s: Source, d: Sink) {
    s.HiddenSrc? && d.HiddenDst? && s.h < |n.hidden| && d.h < |n.hidden| ==>
      n.hidden[s.h].layer < n.hidden[d.h].layer
  }

  ghost predicate Layered(n: Network) {
    forall id :: id in n.conns ==> EdgeLayered(n, n.conns[id].input, n.conns[id].output)
  }

  /** Hidden layers lie in [0, maxLayer] and activation indices select a function. */
  ghost predicate HiddenOk(n: Network) {
    0 <= n.maxLayer &&
    forall h :: 0 <= h < |n.hidden| ==>
      0 <= n.hidden[h].layer <= n.maxLayer && n.hidden[h].functionIndex < FunctionCount
  }

  ghost predicate Valid(n: Network) {
    |n.inputs| == InputCount &&
    EndpointsOk(n) && Listed(n) && OutsLinked(n) && InsLinked(n) &&
    NoDuplicates(n) && FreshIds(n) && Layered(n) && HiddenOk(n)
  }

  /** Removing connections from a network whose neurons are unchanged keeps
      the endpoint, layer and neuron parts of validity. */
  lemma KeptNeuronsKeepShape(n: Network, r: Network)
    requires |n.inputs| == InputCount && EndpointsOk(n) && FreshIds(n) && Layered(n) && HiddenOk(n)
    requires NeuronsKept(n, r) && NeuronsKept(r, n) && r.conns.Keys <= n.conns.Keys && r.nextId == n.nextId
    requires forall id :: id in r.conns ==> r.conns[id].input == n.conns[id].input && r.conns[id].output == n.conns[id].output
    ensures |r.inputs| == InputCount && EndpointsOk(r) && FreshIds(r) && Layered(r) && HiddenOk(r)
  {
  }

  /** A change that leaves every list, every live id and every endpoint
      alone keeps the bookkeeping part of validity. */
  lemma SameListsKeepBookkeeping(n: Network, r: Network)
    requires Listed(n) && OutsLinked(n) && InsLinked(n) && NoDuplicates(n) && FreshIds(n)
    requires forall s :: OutsOf(r, s) == OutsOf(n, s)
    requires forall d :: InsOf(r, d) == InsOf(n, d)
    requires r.conns.Keys == n.conns.Keys && r.nextId == n.nextId
    requires forall id :: id in n.conns ==>
      r.conns[id].input == n.conns[id].input && r.conns[id].output == n.conns[id].output
    ensures Listed(r) && OutsLinked(r) && InsLinked(r) && NoDuplicates(r) && FreshIds(r)
  {
    forall s, j | 0 <= j < |OutsOf(r, s)|
      ensures OutsOf(r, s)[j] in r.conns && r.conns[OutsOf(r, s)[j]].input == s
    {
      assert OutsOf(r, s)[j] == OutsOf(n, s)[j];
    }
    forall d, j | 0 <= j < |InsOf(r, d)|
      ensures InsOf(r, d)[j] in r.conns && r.conns[InsOf(r, d)[j]].output == d
    {
      assert InsOf(r, d)[j] == InsOf(n, d)[j];
    }
    forall id | id in r.conns
      ensures id in OutsOf(r, r.conns[id].input) && id in InsOf(r, r.conns[id].output)
    {
      assert id in OutsOf(n, n.conns[id].input) && id in InsOf(n, n.conns[id].output);
    }
    forall s ensures NoDup(OutsOf(r, s)) {
      assert OutsOf(r, s) == OutsOf(n, s);
    }
    forall d ensures NoDup(InsOf(r, d)) {
      assert InsOf(r, d) == InsOf(n, d);
    }
  }

  /** A change that leaves every list and every connection's endpoints alone,
      keeps the inputs and the layers of the existing hidden neurons, and may
      append hidden neurons, keeps a network valid once its hidden neurons are
      well-formed. */
  lemma ListsKeptKeepsValid(n: Network, r: Network)
    requires Valid(n)
    requires forall s :: OutsOf(r, s) == OutsOf(n, s)
    requires forall d :: InsOf(r, d) == InsOf(n, d)
    requires r.conns.Keys == n.conns.Keys && r.nextId == n.nextId
    requires forall id :: id in n.conns ==>
      r.conns[id].input == n.conns[id].input && r.conns[id].output == n.conns[id].output
    requires |r.inputs| == |n.inputs| && |n.hidden| <= |r.hidden|
    requires forall h :: 0 <= h < |n.hidden| ==> r.hidden[h].layer == n.hidden[h].layer
    requires HiddenOk(r)
    ensures Valid(r)
  {
    SameListsKeepBookkeeping(n, r);
    forall id | id in r.conns
      ensures SourceOk(r, r.conns[id].input) && SinkOk(r, r.conns[id].output)
      ensures EdgeLayered(r, r.conns[id].input, r.conns[id].output)
    {
      assert SourceOk(n, n.conns[id].input) && SinkOk(n, n.conns[id].output);
      assert EdgeLayered(n, n.conns[id].input, n.conns[id].output);
    }
  }

  /** An id that is not live is in no list. */
  lemma FreshIdUnlisted(n: Network, id: nat)
    requires OutsLinked(n) && InsLinked(n) && id !in n.conns
    ensures forall s :: id !in OutsOf(n, s)
    ensures forall d :: id !in InsOf(n, d)
  {
  }

  /** A connection of a valid network occurs exactly once in the `Outs` list of
      its source and in no other `Outs` list, and likewise for `Ins`. */
  lemma ExactlyOneOwner(n: Network, id: nat)
    requires Valid(n) && id in n.conns
    ensures forall s :: Count(OutsOf(n, s), id) == if s == n.conns[id].input then 1 else 0
    ensures forall d :: Count(InsOf(n, d), id) == if d == n.conns[id].output then 1 else 0
  {
    forall s ensures Count(OutsOf(n, s), id) == if s == n.conns[id].input then 1 else 0 {
      NoDupCount(OutsOf(n, s), id);
    }
    forall d ensures Count(InsOf(n, d), id) == if d == n.conns[id].output then 1 else 0 {
      NoDupCount(InsOf(n, d), id);
    }
  }

  // ---------------------------------------------------------------------------
  // Construction

  /** The linear 9x9 cell index of input slot k: slots 0..39 take cells 0..39,
      slots 40..79 take cells 41..80, so the centre cell 40 is skipped. */
  function CellOf(k: nat): nat
    requires k < InputCount
  {
    if k < 40 then k else k + 1
  }

  /** The (x, y) offset of input slot k. */
  function Offset(k: nat): (int, int)
    requires k < InputCount
  {
    (CellOf(k) % 9 - 4, CellOf(k) / 9 - 4)
  }

  /** Every input offset lies in the 9x9 block and none is the centre. */
  lemma OffsetsInBlock(k: nat)
    requires k < InputCount
    ensures -4 <= Offset(k).0 <= 4 && -4 <= Offset(k).1 <= 4
    ensures Offset(k) != (0, 0)
  {
  }

  /** Distinct slots have distinct offsets. */
  lemma OffsetsDistinct(k1: nat, k2: nat)
    requires k1 < InputCount && k2 < InputCount && k1 != k2
    ensures Offset(k1) != Offset(k2)
  {
    var c1, c2 := CellOf(k1), CellOf(k2);
    assert c1 == 9 * (c1 / 9) + c1 % 9;
    assert c2 == 9 * (c2 / 9) + c2 % 9;
  }

  /** Every cell of the 9x9 block other than the centre is some slot's offset. */
  lemma OffsetsCoverBlock(x: int, y: int) returns (k: nat)
    requires -4 <= x <= 4 && -4 <= y <= 4 && (x, y) != (0, 0)
    ensures k < InputCount && Offset(k) == (x, y)
  {
    var c := (y + 4) * 9 + (x + 4);
    assert c != 40;
    k := if c < 40 then c else c - 1;
    assert CellOf(k) == c;
    assert c % 9 == x + 4 && c / 9 == y + 4;
  }

  function NewInputs(): (r: seq<InputNeuron>)
    ensures |r| == InputCount
    ensures forall k :: 0 <= k < InputCount ==>
      (r[k].offsetX as int, r[k].offsetY as int) == Offset(k) && r[k].outs == []
  {
    seq(InputCount, k requires 0 <= k < InputCount =>
      OffsetsInBlock(k);
      NewInput(Offset(k).0, Offset(k).1))
  }

  /** A freshly constructed network: the 80 inputs, nothing else. */
  function NewNetwork(): (r: Network)
    ensures Valid(r)
    ensures |r.inputs| == InputCount && r.hidden == [] && r.output.ins == [] && r.conns == map[]
    ensures r.score == 0
    ensures forall s :: OutsOf(r, s) == []
    ensures forall k :: 0 <= k < InputCount ==>
      (r.inputs[k].offsetX as int, r.inputs[k].offsetY as int) == Offset(k)
  {
    Network(NewInputs(), [], NewOutput(), map[], 0, 0, 0)
  }

  /** The answer `Process` gives without evaluating anything: an output
      with no incoming connection answers 0. Otherwise the answer comes from
      the floating-point evaluation (`Sum(...) % 3`, which may also be 0);
      `None` stands for it, as it is not part of this model. */
  function Process(n: Network): (r: Option<nat>)
    ensures n.output.ins == [] ==> r == Some(0)
    ensures n.output.ins != [] ==> r == None
  {
    if |n.output.ins| == 0 then Some(0) else None
  }

  lemma NewNetworkIsNoOp()
    ensures Process(NewNetwork()) == Some(0)
  {
  }
}

=== FILE: neurons.dfy ===
/** The three neuron kinds of the network and the connection between them.

    A connection's endpoints are handles into the owning network: a `Source`
    names a neuron that can have outgoing connections (an input or a hidden
    neuron) and a `Sink` one that can have incoming connections (a hidden
    neuron or the output). The output neuron therefore cannot be the source of
    a connection and an input neuron cannot be its destination: neither has a
    handle of the other kind. */
module Neurons {

  /** C#'s `sbyte` and `byte`. */
  type SByte = x: int | -128 <= x < 128
  type Byte = x: int | 0 <= x < 256

  /** Number of activation functions a hidden neuron can select. */
  const FunctionCount: nat := 4

  /** A neuron with an `Outs` list: input `i` or hidden neuron `h`. */
  datatype Source = InputSrc(i: nat) | HiddenSrc(h: nat)

  /** A neuron with an `Ins` list: hidden neuron `h` or the output. */
  datatype Sink = HiddenDst(h: nat) | OutputDst

  /** A weighted edge with its two back-references. */
  datatype Connection = Connection(weight: real, input: Source, output: Sink)

  /** Offsets are fixed at construction; `outs` holds connection ids. */
  datatype InputNeuron = InputNeuron(offsetX: SByte, offsetY: SByte, outs: seq<nat>)

  /** `layer` is fixed at construction; only `functionIndex` and the lists change. */
  datatype HiddenNeuron = HiddenNeuron(layer: int, functionIndex: Byte, ins: seq<nat>, outs: seq<nat>)

  /** The single output neuron has only an `Ins` list. */
  datatype OutputNeuron = OutputNeuron(ins: seq<nat>)

  function NewInput(offsetX: SByte, offsetY: SByte): InputNeuron {
    InputNeuron(offsetX, offsetY, [])
  }

  function NewHidden(layer: int, functionIndex: Byte): HiddenNeuron {
    HiddenNeuron(layer, functionIndex, [], [])
  }

  function NewOutput(): OutputNeuron {
    OutputNeuron([])
  }
}

=== FILE: play.dfy ===
/** Rules both game windows share on top of the board: the flag toggle, the
    picture a lost game shows on each tile, the size and count clamps, and
    why `safeSpotsLeft` always counts the safe tiles still covered. */
module Play {
  import opened Images
  import opened Boards
  import opened FloodFill

  /** `Math.Clamp(v, lo, hi)`. */
  function Clamp(v: int, lo: int, hi: int): (r: int)
    requires lo <= hi
    ensures lo <= r <= hi
    ensures lo <= v <= hi ==> r == v
    ensures v < lo ==> r == lo
    ensures v > hi ==> r == hi
  {
    if v < lo then lo else if v > hi then hi else v
  }

  /** The two integer types the windows keep their mine counters in: C#'s
      16-bit `short` and 32-bit `int`. */
  datatype Width = Short | Int

  /** Half the number of values of the width. */
  function Half(w: Width): nat {
    match w
    case Short => 0x8000
    case Int => 0x8000_0000
  }

  /** x is a value of the width: it lies in [−half, half). */
  predicate Fits(x: int, w: Width) {
    -(Half(w) as int) <= x < Half(w)
  }

  /** x wrapped two's-complement style into the width, as `--` and `++`
      leave a counter that steps past an end: the one value of the width
      that differs from x by a multiple of 2 · half. */
  function Wrapped(x: int, w: Width): (r: int)
    ensures Fits(r, w)
    ensures (x - r) % (2 * Half(w)) == 0
    ensures Fits(x, w) ==> r == x
  {
    match w
    case Short => (x + 0x8000) % 0x1_0000 - 0x8000
    case Int => (x + 0x8000_0000) % 0x1_0000_0000 - 0x8000_0000
  }

  /** The two properties of `Wrapped` fix its value. */
  lemma WrappedUnique(x: int, w: Width, y: int)
    requires Fits(y, w) && (x - y) % (2 * Half(w)) == 0
    ensures Wrapped(x, w) == y
  {
    var m := 2 * Half(w);
    var r := Wrapped(x, w);
    var k, j := (x - y) / m, (x - r) / m;
    match w
    case Short =>
      assert x - y == k * 0x1_0000 && x - r == j * 0x1_0000;
      assert r - y == (k - j) * 0x1_0000;
    case Int =>
      assert x - y == k * 0x1_0000_0000 && x - r == j * 0x1_0000_0000;
      assert r - y == (k - j) * 0x1_0000_0000;
  }

  /** A step by a and a step back by a cancel, also across the wrap. */
  lemma WrappedStepBack(x: int, a: int, w: Width)
    requires Fits(x, w)
    ensures Wrapped(Wrapped(x + a, w) - a, w) == x
  {
    var y := Wrapped(x + a, w);
    assert (x - (y - a)) % (2 * Half(w)) == 0;
    WrappedUnique(y - a, w, x);
  }

  /** A `short` at its lowest, stepped down once more, comes back at the top. */
  lemma ShortWrapsBelow()
    ensures Wrapped(-32769, Short) == 32767
  {
  }

  /** The board and the mines counter after a right click. */
  datatype Toggled = Toggled(board: Board, minesLeft: int)

  /** The flag toggle: a covered tile gets a flag (one mine fewer left, no
      hint), a flag is taken off (one more left, hint back on); any other
      tile is left alone. */
  function ToggleFlag(b: Board, minesLeft: int, c: Cell): (r: Toggled)
    requires c in b.tiles
    ensures r.board.size == b.size && r.board.safeSpotsLeft == b.safeSpotsLeft
    ensures r.board.tiles.Keys == b.tiles.Keys
    ensures forall d :: d in b.tiles && d != c ==> r.board.tiles[d] == b.tiles[d]
    ensures r.board.tiles[c].isBomb == b.tiles[c].isBomb
    ensures b.tiles[c].source == Normal ==>
      r.board.tiles[c].source == Flag && !r.board.tiles[c].canTell && r.minesLeft == minesLeft - 1
    ensures b.tiles[c].source == Flag ==>
      r.board.tiles[c].source == Normal && r.board.tiles[c].canTell && r.minesLeft == minesLeft + 1
    ensures b.tiles[c].source != Normal && b.tiles[c].source != Flag ==> r == Toggled(b, minesLeft)
  {
    var t := b.tiles[c];
    if t.source == Normal then Toggled(SetTile(b, c, t.(source := Flag, canTell := false)), minesLeft - 1)
    else if t.source == Flag then Toggled(SetTile(b, c, t.(source := Normal, canTell := true)), minesLeft + 1)
    else Toggled(b, minesLeft)
  }

  /** Toggling twice puts the picture and the counter back, and a flag
      (whose hint is off) comes back exactly; a covered tile comes back with
      its hint switched on. */
  lemma ToggleTwice(b: Board, minesLeft: int, c: Cell)
    requires c in b.tiles
    ensures var r := ToggleFlag(b, minesLeft, c);
      var r2 := ToggleFlag(r.board, r.minesLeft, c);
      r2.minesLeft == minesLeft && r2.board.tiles.Keys == b.tiles.Keys &&
      (forall d :: d in b.tiles ==> r2.board.tiles[d].source == b.tiles[d].source) &&
      (forall d :: d in b.tiles ==> r2.board.tiles[d].isBomb == b.tiles[d].isBomb) &&
      (forall d :: d in b.tiles && d != c ==> r2.board.tiles[d] == b.tiles[d]) &&
      (b.tiles[c].source == Flag && !b.tiles[c].canTell ==> r2.board.tiles[c] == b.tiles[c])
  {
    var r := ToggleFlag(b, minesLeft, c);
    var t := b.tiles[c];
    if t.source == Normal {
      assert r.board.tiles[c].source == Flag;
    } else if t.source == Flag {
      assert r.board.tiles[c].source == Normal;
    }
  }

  /** Toggling keeps the grid, the bombs and the set of safe covered tiles. */
  lemma ToggleKeepsPending(b: Board, minesLeft: int, c: Cell)
    requires Valid(b) && c in b.tiles
    ensures Valid(ToggleFlag(b, minesLeft, c).board)
    ensures Bombs(ToggleFlag(b, minesLeft, c).board) == Bombs(b)
    ensures Pending(ToggleFlag(b, minesLeft, c).board) == Pending(b)
  {
    var r := ToggleFlag(b, minesLeft, c).board;
    assert Pending(r) == Pending(b);
    assert Bombs(r) == Bombs(b);
  }

  /** What a lost game shows on a tile: an unflagged bomb appears, a flag on
      a safe tile is crossed out. */
  function ShowBomb(t: Tile): (r: Tile)
    ensures r.isBomb == t.isBomb && r.canTell == t.canTell
    ensures t.isBomb && t.source == Normal ==> r.source == Bomb
    ensures !t.isBomb && t.source == Flag ==> r.source == FalseFlag
    ensures !(t.isBomb && t.source == Normal) && !(!t.isBomb && t.source == Flag) ==> r == t
  {
    if t.isBomb then (if t.source == Normal then t.(source := Bomb) else t)
    else if t.source == Flag then t.(source := FalseFlag)
    else t
  }

  /** Redrawing every tile with a picture map that keeps the bombs and does
      not cover or uncover a safe tile keeps the set of safe covered tiles. */
  lemma MapKeepsPending(b: Board, f: Tile -> Tile)
    requires Valid(b)
    requires forall t: Tile :: f(t).isBomb == t.isBomb
    requires forall t: Tile :: !t.isBomb ==> (Covered(f(t).source) <==> Covered(t.source))
    ensures Valid(MapTiles(b, f)) && Bombs(MapTiles(b, f)) == Bombs(b)
    ensures Pending(MapTiles(b, f)) == Pending(b)
  {
    var r := MapTiles(b, f);
    assert Pending(r) == Pending(b);
    assert Bombs(r) == Bombs(b);
  }

  lemma ShowBombKeepsPending(b: Board)
    requires Valid(b)
    ensures Valid(MapTiles(b, ShowBomb)) && Bombs(MapTiles(b, ShowBomb)) == Bombs(b)
    ensures Pending(MapTiles(b, ShowBomb)) == Pending(b)
  {
    MapKeepsPending(b, ShowBomb);
  }

  /** Every tile is covered by Normal or a flag: the state before the first
      reveal. */
  ghost predicate Untouched(b: Board) {
    forall d :: d in b.tiles ==> b.tiles[d].source == Normal || b.tiles[d].source == Flag
  }

  /** Before the first reveal every safe tile is pending. */
  lemma UntouchedPending(b: Board)
    requires Valid(b) && Untouched(b)
    ensures Pending(b) == b.tiles.Keys - Bombs(b)
    ensures |Pending(b)| == b.size * b.size - |Bombs(b)|
  {
    assert Pending(b) == b.tiles.Keys - Bombs(b);
    KeysAreCells(b);
    assert b.tiles.Keys == Bombs(b) + Pending(b);
  }

  /** Placing mines on an untouched board keeps it untouched, and then
      every safe tile is pending. */
  lemma PlacedPending(b: Board, p: Board)
    requires Valid(b) && Untouched(b) && Valid(p) && p.size == b.size
    requires forall d :: d in b.tiles ==> p.tiles[d].source == b.tiles[d].source
    ensures Untouched(p) && |Pending(p)| == p.size * p.size - |Bombs(p)|
  {
    assert Untouched(p);
    UntouchedPending(p);
  }

  /** The flood fill counts exactly the safe tiles it uncovers: if the
      counter matched the pending tiles before, it matches them after. */
  lemma RevealKeepsCount(a: Board, r: Board)
    requires Uncovers(a, r) && CountsReveals(a, r) && NormalCells(r) <= NormalCells(a)
    requires a.safeSpotsLeft == |Pending(a)|
    ensures r.safeSpotsLeft == |Pending(r)|
    ensures Bombs(r) == Bombs(a)
  {
    var gone := NormalCells(a) - NormalCells(r);
    PendingLoses(a, r, gone);
    assert NormalCells(a) == NormalCells(r) + gone;
    assert Bombs(r) == Bombs(a);
  }

  lemma PendingLoses(a: Board, r: Board, gone: set<Cell>)
    requires Uncovers(a, r) && gone == NormalCells(a) - NormalCells(r)
    ensures Pending(a) == Pending(r) + gone && Pending(r) !! gone
  {
    forall d | d in gone ensures d in Pending(a) && d !in Pending(r) {
      assert ShowsCount(a, d, r.tiles[d]);
    }
    forall d | d in Pending(a) && d !in gone ensures d in Pending(r) {
      assert a.tiles[d].source != Normal || r.tiles[d].source == Normal;
    }
  }
}

=== FILE: removal.dfy ===
/** Removing hidden neuron x from a network, as `AI.Mix` does when the
    network has more hidden neurons than the best one: every incoming
    connection is removed (List.Remove) from its source's `Outs`, every
    outgoing one from its destination's `Ins`, and the neuron is cut out of
    the hidden list. In the arena the neurons after x move down one place,
    so the handles stored in the surviving connections are renumbered, and
    the connections that lost their neuron leave the pool. */
module HiddenRemoval {
  import opened Neurons
  import opened Seqs
  import opened NeuralNetworks

  // ---------------------------------------------------------------------------
  // The two unlinking passes

  /** Networks with as many inputs and hidden neurons have the same handles. */
  lemma SameShapeSameHandles(n: Network, r: Network)
    requires |r.inputs| == |n.inputs| && |r.hidden| == |n.hidden|
    ensures forall s :: SourceOk(r, s) == SourceOk(n, s)
    ensures forall d :: SinkOk(r, d) == SinkOk(n, d)
  {
  }

  /** For each id in turn, removes it from the `Outs` list of its source. */
  function UnlinkFromSources(n: Network, ids: seq<nat>): (r: Network)
    requires forall id :: id in ids ==> id in n.conns && SourceOk(n, n.conns[id].input)
    ensures forall d :: InsOf(r, d) == InsOf(n, d)
    ensures r.conns == n.conns && r.nextId == n.nextId
    ensures NeuronsKept(n, r) && NeuronsKept(r, n)
    decreases |ids|
  {
    if ids == [] then n
    else
      var s := n.conns[ids[0]].input;
      var n1 := WithOuts(n, s, RemoveFirst(OutsOf(n, s), ids[0]));
      SameShapeSameHandles(n, n1);
      assert forall id :: id in ids[1..] ==> id in ids;
      var r := UnlinkFromSources(n1, ids[1..]);
      NeuronsKeptTrans(n, n1, r);
      NeuronsKeptTrans(r, n1, n);
      r
  }

  /** For each id in turn, removes it from the `Ins` list of its destination. */
  function UnlinkFromSinks(n: Network, ids: seq<nat>): (r: Network)
    requires forall id :: id in ids ==> id in n.conns && SinkOk(n, n.conns[id].output)
    ensures forall s :: OutsOf(r, s) == OutsOf(n, s)
    ensures r.conns == n.conns && r.nextId == n.nextId
    ensures NeuronsKept(n, r) && NeuronsKept(r, n)
    decreases |ids|
  {
    if ids == [] then n
    else
      var d := n.conns[ids[0]].output;
      var n1 := WithIns(n, d, RemoveFirst(InsOf(n, d), ids[0]));
      SameShapeSameHandles(n, n1);
      assert forall id :: id in ids[1..] ==> id in ids;
      var r := UnlinkFromSinks(n1, ids[1..]);
      NeuronsKeptTrans(n, n1, r);
      NeuronsKeptTrans(r, n1, n);
      r
  }

  /** The set of elements of a list. */
  function Elems(s: seq<nat>): (r: set<nat>)
    ensures forall x :: x in r <==> x in s
  {
    set x | x in s
  }

  /** `Outs` lists in membership form: every listed id is live and names the
      list's owner as its source. */
  ghost predicate OutsPointBack(n: Network) {
    forall s, id :: id in OutsOf(n, s) ==> id in n.conns && n.conns[id].input == s
  }

  ghost predicate InsPointBack(n: Network) {
    forall d, id :: id in InsOf(n, d) ==> id in n.conns && n.conns[id].output == d
  }

  lemma PointBack(n: Network)
    requires OutsLinked(n) && InsLinked(n)
    ensures OutsPointBack(n) && InsPointBack(n)
  {
    forall s, id | id in OutsOf(n, s) ensures id in n.conns && n.conns[id].input == s {
      var j :| 0 <= j < |OutsOf(n, s)| && OutsOf(n, s)[j] == id;
    }
    forall d, id | id in InsOf(n, d) ensures id in n.conns && n.conns[id].output == d {
      var j :| 0 <= j < |InsOf(n, d)| && InsOf(n, d)[j] == id;
    }
  }

  /** One step of the first pass filters id0 out of every `Outs` list. */
  lemma UnlinkOneFromSource(n: Network, id0: nat, n1: Network)
    requires OutsPointBack(n) && forall s :: NoDup(OutsOf(n, s))
    requires id0 in n.conns && SourceOk(n, n.conns[id0].input)
    requires n1 == WithOuts(n, n.conns[id0].input, RemoveFirst(OutsOf(n, n.conns[id0].input), id0))
    ensures forall s :: OutsOf(n1, s) == Without(OutsOf(n, s), {id0})
  {
    var s0 := n.conns[id0].input;
    forall s ensures OutsOf(n1, s) == Without(OutsOf(n, s), {id0}) {
      if s == s0 {
        RemoveFirstIsWithout(OutsOf(n, s), id0);
      } else {
        WithoutAbsent(OutsOf(n, s), {id0});
      }
    }
  }

  /** Filtering every `Outs` list keeps them duplicate-free and pointing back. */
  lemma FilteredOuts(n: Network, n1: Network, xs: set<nat>)
    requires OutsPointBack(n) && forall s :: NoDup(OutsOf(n, s))
    requires n1.conns == n.conns && forall s :: OutsOf(n1, s) == Without(OutsOf(n, s), xs)
    ensures OutsPointBack(n1) && forall s :: NoDup(OutsOf(n1, s))
  {
    forall s ensures NoDup(OutsOf(n1, s)) {
      NoDupWithout(OutsOf(n, s), xs);
    }
    forall s, id | id in OutsOf(n1, s) ensures id in n1.conns && n1.conns[id].input == s {
      assert id in OutsOf(n, s);
    }
  }

  /** One step of the second pass filters id0 out of every `Ins` list. */
  lemma UnlinkOneFromSink(n: Network, id0: nat, n1: Network)
    requires InsPointBack(n) && forall d :: NoDup(InsOf(n, d))
    requires id0 in n.conns && SinkOk(n, n.conns[id0].output)
    requires n1 == WithIns(n, n.conns[id0].output, RemoveFirst(InsOf(n, n.conns[id0].output), id0))
    ensures forall d :: InsOf(n1, d) == Without(InsOf(n, d), {id0})
  {
    var d0 := n.conns[id0].output;
    forall d ensures InsOf(n1, d) == Without(InsOf(n, d), {id0}) {
      if d == d0 {
        RemoveFirstIsWithout(InsOf(n, d), id0);
      } else {
        WithoutAbsent(InsOf(n, d), {id0});
      }
    }
  }

  lemma FilteredIns(n: Network, n1: Network, xs: set<nat>)
    requires InsPointBack(n) && forall d :: NoDup(InsOf(n, d))
    requires n1.conns == n.conns && forall d :: InsOf(n1, d) == Without(InsOf(n, d), xs)
    ensures InsPointBack(n1) && forall d :: NoDup(InsOf(n1, d))
  {
    forall d ensures NoDup(InsOf(n1, d)) {
      NoDupWithout(InsOf(n, d), xs);
    }
    forall d, id | id in InsOf(n1, d) ensures id in n1.conns && n1.conns[id].output == d {
      assert id in InsOf(n, d);
    }
  }

  /** In a network whose `Outs` lists are duplicate-free and point back, the
      first pass filters the ids out of every `Outs` list. */
  lemma {:induction false} UnlinkFromSourcesFilters(n: Network, ids: seq<nat>)
    requires OutsPointBack(n) && forall s :: NoDup(OutsOf(n, s))
    requires forall id :: id in ids ==> id in n.conns && SourceOk(n, n.conns[id].input)
    ensures forall s :: OutsOf(UnlinkFromSources(n, ids), s) == Without(OutsOf(n, s), Elems(ids))
    decreases |ids|
  {
    if ids == [] {
      assert Elems(ids) == {};
      forall s ensures OutsOf(n, s) == Without(OutsOf(n, s), {}) {
        WithoutAbsent(OutsOf(n, s), {});
      }
    } else {
      var id0 := ids[0];
      var s0 := n.conns[id0].input;
      var n1 := WithOuts(n, s0, RemoveFirst(OutsOf(n, s0), id0));
      UnlinkOneFromSource(n, id0, n1);
      FilteredOuts(n, n1, {id0});
      assert forall id :: id in ids[1..] ==> id in ids;
      UnlinkFromSourcesFilters(n1, ids[1..]);
      assert UnlinkFromSources(n, ids) == UnlinkFromSources(n1, ids[1..]);
      assert {id0} + Elems(ids[1..]) == Elems(ids);
      OutsFiltersCombine(n, n1, UnlinkFromSources(n1, ids[1..]), id0, Elems(ids[1..]));
    }
  }

  /** Filtering id0 out of every `Outs` list, then the rest, filters both. */
  lemma OutsFiltersCombine(n: Network, n1: Network, r: Network, id0: nat, rest: set<nat>)
    requires forall s :: OutsOf(n1, s) == Without(OutsOf(n, s), {id0})
    requires forall s :: OutsOf(r, s) == Without(OutsOf(n1, s), rest)
    ensures forall s :: OutsOf(r, s) == Without(OutsOf(n, s), {id0} + rest)
  {
    forall s ensures OutsOf(r, s) == Without(OutsOf(n, s), {id0} + rest) {
      WithoutWithout(OutsOf(n, s), {id0}, rest);
    }
  }

  /** Likewise the second pass filters the ids out of every `Ins` list. */
  lemma {:induction false} UnlinkFromSinksFilters(n: Network, ids: seq<nat>)
    requires InsPointBack(n) && forall d :: NoDup(InsOf(n, d))
    requires forall id :: id in ids ==> id in n.conns && SinkOk(n, n.conns[id].output)
    ensures forall d :: InsOf(UnlinkFromSinks(n, ids), d) == Without(InsOf(n, d), Elems(ids))
    decreases |ids|
  {
    if ids == [] {
      assert Elems(ids) == {};
      forall d ensures InsOf(n, d) == Without(InsOf(n, d), {}) {
        WithoutAbsent(InsOf(n, d), {});
      }
    } else {
      var id0 := ids[0];
      var d0 := n.conns[id0].output;
      var n1 := WithIns(n, d0, RemoveFirst(InsOf(n, d0), id0));
      UnlinkOneFromSink(n, id0, n1);
      FilteredIns(n, n1, {id0});
      assert forall id :: id in ids[1..] ==> id in ids;
      UnlinkFromSinksFilters(n1, ids[1..]);
      assert UnlinkFromSinks(n, ids) == UnlinkFromSinks(n1, ids[1..]);
      assert {id0} + Elems(ids[1..]) == Elems(ids);
      InsFiltersCombine(n, n1, UnlinkFromSinks(n1, ids[1..]), id0, Elems(ids[1..]));
    }
  }

  /** Filtering id0 out of every `Ins` list, then the rest, filters both. */
  lemma InsFiltersCombine(n: Network, n1: Network, r: Network, id0: nat, rest: set<nat>)
    requires forall d :: InsOf(n1, d) == Without(InsOf(n, d), {id0})
    requires forall d :: InsOf(r, d) == Without(InsOf(n1, d), rest)
    ensures forall d :: InsOf(r, d) == Without(InsOf(n, d), {id0} + rest)
  {
    forall d ensures InsOf(r, d) == Without(InsOf(n, d), {id0} + rest) {
      WithoutWithout(InsOf(n, d), {id0}, rest);
    }
  }

  // ---------------------------------------------------------------------------
  // Cutting the neuron out

  /** The handle a neuron has once hidden neuron x is gone. */
  function ShiftSource(s: Source, x: nat): Source {
    match s
    case InputSrc(_) => s
    case HiddenSrc(h) => if h > x then HiddenSrc(h - 1) else s
  }

  function ShiftSink(d: Sink, x: nat): Sink {
    match d
    case OutputDst => d
    case HiddenDst(h) => if h > x then HiddenDst(h - 1) else d
  }

  /** The handle a neuron had before hidden neuron x was removed. */
  function UnshiftSource(s: Source, x: nat): Source {
    match s
    case InputSrc(_) => s
    case HiddenSrc(h) => if h >= x then HiddenSrc(h + 1) else s
  }

  function UnshiftSink(d: Sink, x: nat): Sink {
    match d
    case OutputDst => d
    case HiddenDst(h) => if h >= x then HiddenDst(h + 1) else d
  }

  function Renumber(c: Connection, x: nat): Connection {
    c.(input := ShiftSource(c.input, x), output := ShiftSink(c.output, x))
  }

  /** Position in the old hidden list of position h of the new one. */
  function Up(h: nat, x: nat): nat {
    if h < x then h else h + 1
  }

  /** r's hidden neurons are n's without neuron x, layers and activation
      indices kept, in the same order. */
  ghost predicate Moved(n: Network, r: Network, x: nat) {
    x < |n.hidden| && |r.hidden| == |n.hidden| - 1 &&
    forall h :: 0 <= h < |r.hidden| ==>
      r.hidden[h].layer == n.hidden[Up(h, x)].layer &&
      r.hidden[h].functionIndex == n.hidden[Up(h, x)].functionIndex
  }

  /** Drops hidden neuron x and the connections in dead, renumbering the
      handles of the connections that stay. */
  function Erase(n: Network, x: nat, dead: set<nat>): (r: Network)
    requires x < |n.hidden|
    ensures |r.hidden| == |n.hidden| - 1
    ensures forall h :: 0 <= h < |r.hidden| ==> r.hidden[h] == n.hidden[Up(h, x)]
    ensures forall s :: SourceOk(r, s) ==> OutsOf(r, s) == OutsOf(n, UnshiftSource(s, x))
    ensures forall d :: SinkOk(r, d) ==> InsOf(r, d) == InsOf(n, UnshiftSink(d, x))
    ensures r.conns.Keys == n.conns.Keys - dead
    ensures forall id :: id in r.conns ==> r.conns[id] == Renumber(n.conns[id], x)
    ensures r.inputs == n.inputs && r.output == n.output
    ensures r.nextId == n.nextId && r.maxLayer == n.maxLayer && r.score == n.score
  {
    n.(hidden := n.hidden[..x] + n.hidden[x + 1..],
       conns := map id | id in n.conns && id !in dead :: Renumber(n.conns[id], x))
  }

  // ---------------------------------------------------------------------------
  // RemoveHidden

  /** The connections that touch hidden neuron x. */
  function Touching(n: Network, x: nat): set<nat>
    requires x < |n.hidden|
  {
    Elems(n.hidden[x].ins) + Elems(n.hidden[x].outs)
  }

  /** The connections listed by hidden neuron x are live and their other
      endpoints exist. */
  lemma TouchingLive(n: Network, x: nat)
    requires Valid(n) && x < |n.hidden|
    ensures forall id :: id in n.hidden[x].ins ==> id in n.conns && SourceOk(n, n.conns[id].input)
    ensures forall id :: id in n.hidden[x].outs ==> id in n.conns && SinkOk(n, n.conns[id].output)
  {
    PointBack(n);
    assert InsOf(n, HiddenDst(x)) == n.hidden[x].ins && OutsOf(n, HiddenSrc(x)) == n.hidden[x].outs;
  }

  /** Removes hidden neuron x with all its connections. */
  function RemoveHidden(n: Network, x: nat): (r: Network)
    requires Valid(n) && x < |n.hidden|
    ensures Moved(n, r, x)
    ensures r.conns.Keys == n.conns.Keys - Touching(n, x)
    ensures forall id :: id in r.conns ==> r.conns[id] == Renumber(n.conns[id], x)
    ensures r.nextId == n.nextId && r.maxLayer == n.maxLayer && r.score == n.score
    ensures OffsetsKept(n, r)
  {
    var ins, outs := n.hidden[x].ins, n.hidden[x].outs;
    TouchingLive(n, x);
    var n1 := UnlinkFromSources(n, ins);
    var n2 := UnlinkFromSinks(n1, outs);
    Erase(n2, x, Elems(ins) + Elems(outs))
  }

  /** What removal does to the lists: every surviving `Outs` list is the old
      list of the same neuron without the removed neuron's incoming
      connections, every surviving `Ins` list the old one without its
      outgoing connections. */
  lemma RemoveHiddenLists(n: Network, x: nat)
    requires Valid(n) && x < |n.hidden|
    ensures var r := RemoveHidden(n, x);
      (forall s :: SourceOk(r, s) ==>
        OutsOf(r, s) == Without(OutsOf(n, UnshiftSource(s, x)), Elems(n.hidden[x].ins))) &&
      (forall d :: SinkOk(r, d) ==>
        InsOf(r, d) == Without(InsOf(n, UnshiftSink(d, x)), Elems(n.hidden[x].outs)))
  {
    var ins, outs := n.hidden[x].ins, n.hidden[x].outs;
    PointBack(n);
    TouchingLive(n, x);
    var n1 := UnlinkFromSources(n, ins);
    UnlinkFromSourcesFilters(n, ins);
    assert InsPointBack(n1) && forall d :: NoDup(InsOf(n1, d)) by {
      assert NoDuplicates(n);
    }
    UnlinkFromSinksFilters(n1, outs);
  }

  /** No surviving connection touched the removed neuron. */
  lemma SurvivorsAvoidRemoved(n: Network, x: nat)
    requires Valid(n) && x < |n.hidden|
    ensures forall id :: id in n.conns && id !in Touching(n, x) ==>
      n.conns[id].input != HiddenSrc(x) && n.conns[id].output != HiddenDst(x)
  {
    assert Listed(n);
  }

  lemma ShiftRoundTrip(s: Source, d: Sink, x: nat)
    ensures s != HiddenSrc(x) ==> UnshiftSource(ShiftSource(s, x), x) == s
    ensures d != HiddenDst(x) ==> UnshiftSink(ShiftSink(d, x), x) == d
    ensures ShiftSource(UnshiftSource(s, x), x) == s && UnshiftSource(s, x) != HiddenSrc(x)
    ensures ShiftSink(UnshiftSink(d, x), x) == d && UnshiftSink(d, x) != HiddenDst(x)
  {
  }

  /** The connections listed by hidden neuron x point back at it. */
  lemma TouchingPointsBack(n: Network, x: nat)
    requires OutsPointBack(n) && InsPointBack(n) && x < |n.hidden|
    ensures forall id :: id in Elems(n.hidden[x].outs) ==> id in n.conns && n.conns[id].input == HiddenSrc(x)
    ensures forall id :: id in Elems(n.hidden[x].ins) ==> id in n.conns && n.conns[id].output == HiddenDst(x)
  {
    assert OutsOf(n, HiddenSrc(x)) == n.hidden[x].outs && InsOf(n, HiddenDst(x)) == n.hidden[x].ins;
  }

  /** Removal keeps the network valid. */
  lemma RemoveHiddenKeepsValid(n: Network, x: nat)
    requires Valid(n) && x < |n.hidden|
    ensures Valid(RemoveHidden(n, x))
  {
    var r := RemoveHidden(n, x);
    var insSet, outsSet := Elems(n.hidden[x].ins), Elems(n.hidden[x].outs);
    RemoveHiddenLists(n, x);
    SurvivorsAvoidRemoved(n, x);
    PointBack(n);
    TouchingPointsBack(n, x);
    RemovedShape(n, x, r, insSet + outsSet);
    RemovedListed(n, x, r, insSet, outsSet);
    RemovedOuts(n, x, r, insSet, outsSet);
    RemovedIns(n, x, r, insSet, outsSet);
    RemovedNoDuplicates(n, x, r, insSet, outsSet);
  }

  lemma RemovedShape(n: Network, x: nat, r: Network, dead: set<nat>)
    requires |n.inputs| == InputCount && EndpointsOk(n) && FreshIds(n) && Layered(n) && HiddenOk(n)
    requires Moved(n, r, x)
    requires r.conns.Keys == n.conns.Keys - dead
    requires forall id :: id in r.conns ==> r.conns[id] == Renumber(n.conns[id], x)
    requires r.nextId == n.nextId && r.maxLayer == n.maxLayer && OffsetsKept(n, r)
    requires forall id :: id in n.conns && id !in dead ==>
      n.conns[id].input != HiddenSrc(x) && n.conns[id].output != HiddenDst(x)
    ensures |r.inputs| == InputCount && EndpointsOk(r) && FreshIds(r) && Layered(r) && HiddenOk(r)
  {
    forall id | id in r.conns
      ensures SourceOk(r, r.conns[id].input) && SinkOk(r, r.conns[id].output)
      ensures EdgeLayered(r, r.conns[id].input, r.conns[id].output)
    {
      var c := n.conns[id];
      assert SourceOk(n, c.input) && SinkOk(n, c.output) && EdgeLayered(n, c.input, c.output);
      ShiftRoundTrip(c.input, c.output, x);
    }
    forall h | 0 <= h < |r.hidden|
      ensures 0 <= r.hidden[h].layer <= r.maxLayer && r.hidden[h].functionIndex < FunctionCount
    {
      assert 0 <= Up(h, x) < |n.hidden|;
    }
  }

  lemma RemovedListed(n: Network, x: nat, r: Network, insSet: set<nat>, outsSet: set<nat>)
    requires Listed(n) && EndpointsOk(n) && Moved(n, r, x) && |r.inputs| == |n.inputs|
    requires r.conns.Keys == n.conns.Keys - (insSet + outsSet)
    requires forall id :: id in r.conns ==> r.conns[id] == Renumber(n.conns[id], x)
    requires forall id :: id in n.conns && id !in insSet + outsSet ==>
      n.conns[id].input != HiddenSrc(x) && n.conns[id].output != HiddenDst(x)
    requires forall s :: SourceOk(r, s) ==> OutsOf(r, s) == Without(OutsOf(n, UnshiftSource(s, x)), insSet)
    requires forall d :: SinkOk(r, d) ==> InsOf(r, d) == Without(InsOf(n, UnshiftSink(d, x)), outsSet)
    ensures Listed(r)
  {
    forall id | id in r.conns
      ensures id in OutsOf(r, r.conns[id].input) && id in InsOf(r, r.conns[id].output)
    {
      var c := n.conns[id];
      assert id in OutsOf(n, c.input) && id in InsOf(n, c.output);
      assert SourceOk(n, c.input) && SinkOk(n, c.output);
      ShiftRoundTrip(c.input, c.output, x);
      assert SourceOk(r, ShiftSource(c.input, x)) && SinkOk(r, ShiftSink(c.output, x));
    }
  }

  lemma RemovedOuts(n: Network, x: nat, r: Network, insSet: set<nat>, outsSet: set<nat>)
    requires OutsPointBack(n)
    requires forall id :: id in outsSet ==> id in n.conns && n.conns[id].input == HiddenSrc(x)
    requires r.conns.Keys == n.conns.Keys - (insSet + outsSet)
    requires forall id :: id in r.conns ==> r.conns[id] == Renumber(n.conns[id], x)
    requires forall s :: SourceOk(r, s) ==> OutsOf(r, s) == Without(OutsOf(n, UnshiftSource(s, x)), insSet)
    ensures OutsLinked(r)
  {
    forall s, j | 0 <= j < |OutsOf(r, s)|
      ensures OutsOf(r, s)[j] in r.conns && r.conns[OutsOf(r, s)[j]].input == s
    {
      var id := OutsOf(r, s)[j];
      var u := UnshiftSource(s, x);
      assert SourceOk(r, s);
      assert id in OutsOf(r, s);
      assert id in OutsOf(n, u) && id !in insSet;
      ShiftRoundTrip(s, OutputDst, x);
      assert n.conns[id].input == u && u != HiddenSrc(x);
      assert id !in outsSet;
    }
  }

  lemma RemovedIns(n: Network, x: nat, r: Network, insSet: set<nat>, outsSet: set<nat>)
    requires InsPointBack(n)
    requires forall id :: id in insSet ==> id in n.conns && n.conns[id].output == HiddenDst(x)
    requires r.conns.Keys == n.conns.Keys - (insSet + outsSet)
    requires forall id :: id in r.conns ==> r.conns[id] == Renumber(n.conns[id], x)
    requires forall d :: SinkOk(r, d) ==> InsOf(r, d) == Without(InsOf(n, UnshiftSink(d, x)), outsSet)
    ensures InsLinked(r)
  {
    forall d, j | 0 <= j < |InsOf(r, d)|
      ensures InsOf(r, d)[j] in r.conns && r.conns[InsOf(r, d)[j]].output == d
    {
      var id := InsOf(r, d)[j];
      var u := UnshiftSink(d, x);
      assert SinkOk(r, d);
      assert id in InsOf(r, d);
      assert id in InsOf(n, u) && id !in outsSet;
      ShiftRoundTrip(InputSrc(0), d, x);
      assert n.conns[id].output == u && u != HiddenDst(x);
      assert id !in insSet;
    }
  }

  lemma RemovedNoDuplicates(n: Network, x: nat, r: Network, insSet: set<nat>, outsSet: set<nat>)
    requires NoDuplicates(n)
    requires forall s :: SourceOk(r, s) ==> OutsOf(r, s) == Without(OutsOf(n, UnshiftSource(s, x)), insSet)
    requires forall d :: SinkOk(r, d) ==> InsOf(r, d) == Without(InsOf(n, UnshiftSink(d, x)), outsSet)
    ensures NoDuplicates(r)
  {
    forall s ensures NoDup(OutsOf(r, s)) {
      if SourceOk(r, s) {
        NoDupWithout(OutsOf(n, UnshiftSource(s, x)), insSet);
      }
    }
    forall d ensures NoDup(InsOf(r, d)) {
      if SinkOk(r, d) {
        NoDupWithout(InsOf(n, UnshiftSink(d, x)), outsSet);
      }
    }
  }
}

=== FILE: seqs.dfy ===
/** Helpers on lists of connection ids: duplicate-freedom, the
    first-occurrence removal performed by List.Remove, and filtering. */
module Seqs {

  /** Element i of s. NoDup is stated through it, so that its quantifier is
      used only where a proof names the positions it compares. */
  function At(s: seq<nat>, i: nat): nat
    requires i < |s|
  {
    s[i]
  }

  /** No element occurs twice. */
  ghost predicate NoDup(s: seq<nat>) {
    forall i, j :: 0 <= i < j < |s| ==> At(s, i) != At(s, j)
  }

  lemma NoDupAt(s: seq<nat>, i: nat, j: nat)
    requires NoDup(s) && i < |s| && j < |s| && i != j
    ensures s[i] != s[j]
  {
    if i < j { assert At(s, i) != At(s, j); } else { assert At(s, j) != At(s, i); }
  }

  /** Number of occurrences of x in s. */
  function Count(s: seq<nat>, x: nat): nat {
    if s == [] then 0 else (if s[0] == x then 1 else 0) + Count(s[1..], x)
  }

  /** List.Remove: drops the first occurrence of x, if any. */
  function RemoveFirst(s: seq<nat>, x: nat): (r: seq<nat>)
    ensures x !in s ==> r == s
    ensures x in s ==> |r| == |s| - 1
    ensures forall y :: y in r ==> y in s
  {
    if s == [] then []
    else if s[0] == x then s[1..]
    else [s[0]] + RemoveFirst(s[1..], x)
  }

  /** The elements of s that are not in xs, in their original order. */
  function Without(s: seq<nat>, xs: set<nat>): (r: seq<nat>)
    ensures |r| <= |s|
    ensures forall y :: y in r <==> y in s && y !in xs
  {
    if s == [] then []
    else if s[0] in xs then Without(s[1..], xs)
    else [s[0]] + Without(s[1..], xs)
  }

  /** The index of the first occurrence of x. */
  function IndexOf(s: seq<nat>, x: nat): (k: nat)
    requires x in s
    ensures k < |s| && s[k] == x
    ensures forall i :: 0 <= i < k ==> s[i] != x
  {
    if s[0] == x then 0 else 1 + IndexOf(s[1..], x)
  }

  /** RemoveFirst cuts the first occurrence out and keeps the order of the rest. */
  lemma {:induction false} RemoveFirstSplices(s: seq<nat>, x: nat)
    requires x in s
    ensures RemoveFirst(s, x) == s[..IndexOf(s, x)] + s[IndexOf(s, x) + 1..]
  {
    if s[0] != x {
      RemoveFirstSplices(s[1..], x);
      assert s[1..][..IndexOf(s[1..], x)] == s[1..IndexOf(s, x)];
      assert s[..IndexOf(s, x)] == [s[0]] + s[1..IndexOf(s, x)];
    }
  }

  /** On a duplicate-free list, RemoveFirst removes every occurrence. */
  lemma {:induction false} RemoveFirstIsWithout(s: seq<nat>, x: nat)
    requires NoDup(s)
    ensures RemoveFirst(s, x) == Without(s, {x})
  {
    if s != [] {
      NoDupTail(s);
      RemoveFirstIsWithout(s[1..], x);
      if s[0] == x {
        assert x !in s[1..] by {
          forall i | 0 <= i < |s[1..]| ensures s[1..][i] != x {
            assert s[1..][i] == s[i + 1];
          }
        }
        WithoutAbsent(s[1..], {x});
      }
    }
  }

  lemma {:induction false} NoDupTail(s: seq<nat>)
    requires NoDup(s) && s != []
    ensures NoDup(s[1..]) && s[0] !in s[1..]
  {
    forall t | 0 <= t < |s[1..]| ensures s[1..][t] != s[0] {
      NoDupAt(s, 0, t + 1);
    }
    forall i, j | 0 <= i < j < |s[1..]| ensures At(s[1..], i) != At(s[1..], j) {
      NoDupAt(s, i + 1, j + 1);
    }
  }

  /** Filtering out elements that are absent changes nothing. */
  lemma {:induction false} WithoutAbsent(s: seq<nat>, xs: set<nat>)
    requires forall y :: y in s ==> y !in xs
    ensures Without(s, xs) == s
  {
    if s != [] {
      assert s[1..] + [] == s[1..];
      forall y | y in s[1..] ensures y !in xs { assert y in s; }
      WithoutAbsent(s[1..], xs);
    }
  }

  /** Filtering twice is filtering once by the union. */
  lemma {:induction false} WithoutWithout(s: seq<nat>, xs: set<nat>, ys: set<nat>)
    ensures Without(Without(s, xs), ys) == Without(s, xs + ys)
  {
    if s != [] {
      WithoutWithout(s[1..], xs, ys);
    }
  }

  lemma {:induction false} NoDupWithout(s: seq<nat>, xs: set<nat>)
    requires NoDup(s)
    ensures NoDup(Without(s, xs))
  {
    if s != [] {
      NoDupTail(s);
      NoDupWithout(s[1..], xs);
      if s[0] !in xs {
        var r := Without(s[1..], xs);
        assert s[0] !in r;
        forall i, j | 0 <= i < j < |[s[0]] + r| ensures At([s[0]] + r, i) != At([s[0]] + r, j) {
          if i == 0 {
            assert ([s[0]] + r)[j] == r[j - 1];
          } else {
            assert ([s[0]] + r)[i] == r[i - 1] && ([s[0]] + r)[j] == r[j - 1];
            NoDupAt(r, i - 1, j - 1);
          }
        }
      }
    }
  }

  lemma NoDupAppend(s: seq<nat>, x: nat)
    requires NoDup(s) && x !in s
    ensures NoDup(s + [x])
  {
    forall i, j | 0 <= i < j < |s + [x]| ensures At(s + [x], i) != At(s + [x], j) {
      if j == |s| {
        assert (s + [x])[i] == s[i];
      } else {
        assert (s + [x])[i] == s[i] && (s + [x])[j] == s[j];
        NoDupAt(s, i, j);
      }
    }
  }

  /** On a duplicate-free list an element occurs exactly once. */
  lemma {:induction false} NoDupCount(s: seq<nat>, x: nat)
    requires NoDup(s)
    ensures Count(s, x) == if x in s then 1 else 0
  {
    if s != [] {
      NoDupTail(s);
      NoDupCount(s[1..], x);
      if s[0] == x {
        assert x !in s[1..] by {
          forall i | 0 <= i < |s[1..]| ensures s[1..][i] != x {
            assert s[1..][i] == s[i + 1];
          }
        }
      } else {
        assert x in s <==> x in s[1..] by {
          if x in s {
            var i :| 0 <= i < |s| && s[i] == x;
            assert s[1..][i - 1] == x;
          }
        }
      }
    }
  }

  /** Removing an element just appended (and not present before) undoes the append. */
  lemma {:induction false} RemoveFirstAppended(s: seq<nat>, x: nat)
    requires x !in s
    ensures RemoveFirst(s + [x], x) == s
  {
    if s != [] {
      assert (s + [x])[1..] == s[1..] + [x];
      RemoveFirstAppended(s[1..], x);
    }
  }

  /** The lists of ls joined in order (LINQ's SelectMany). */
  function Flatten(ls: seq<seq<nat>>): (r: seq<nat>)
    ensures forall x :: x in r <==> exists k :: 0 <= k < |ls| && x in ls[k]
  {
    if ls == [] then []
    else
      var rest := Flatten(ls[1..]);
      assert forall x :: x in rest <==> exists k :: 1 <= k < |ls| && x in ls[k] by {
        forall x | x in rest ensures exists k :: 1 <= k < |ls| && x in ls[k] {
          var k :| 0 <= k < |ls[1..]| && x in ls[1..][k];
          assert x in ls[k + 1];
        }
        forall x | exists k :: 1 <= k < |ls| && x in ls[k] ensures x in rest {
          var k :| 1 <= k < |ls| && x in ls[k];
          assert x in ls[1..][k - 1];
        }
      }
      ls[0] + rest
  }
}

=== FILE: training.dfy ===
/** The population side of `AI`: the 100 networks built at start-up or from
    a saved file, the choice of the best network after a round of games, and
    the generation step that mixes every other network with the best one and
    mutates it. Playing the games that produce the scores is not modelled:
    the scores are whatever the networks carry. */
module Training {
  import opened Neurons
  import opened NeuralNetworks
  import opened Draws
  import opened Mutations
  import opened Mixing
  import opened Loading

  /** `_ais` holds 100 networks. */
  const PopulationSize: nat := 100

  /** A population together with the position of the next unread draw. */
  datatype Population = Population(nets: seq<Network>, pos: nat)

  /** Network i of the population is well formed. */
  ghost predicate ValidAt(nets: seq<Network>, i: nat)
    requires i < |nets|
  {
    Valid(nets[i])
  }

  /** Every network of the population is well formed (stated through ValidAt
      so that it is used only where a proof names the index). */
  ghost predicate AllValid(nets: seq<Network>) {
    forall i :: 0 <= i < |nets| ==> ValidAt(nets, i)
  }

  lemma AllValidUpdate(nets: seq<Network>, i: nat, x: Network)
    requires AllValid(nets) && i < |nets| && Valid(x)
    ensures AllValid(nets[i := x])
  {
    var nets' := nets[i := x];
    forall j | 0 <= j < |nets'| ensures ValidAt(nets', j) {
      if j != i {
        assert ValidAt(nets, j);
      }
    }
  }

  // ---------------------------------------------------------------------------
  // One network

  /** `Mutate()` reading its draws from position pos. Every branch makes
      exactly three draws: the kind, then two more. They are two indices, or
      an index followed by the float behind the weight nudge. */
  function MutateDrawn(n: Network, rand: nat -> nat, pos: nat): (r: Drawn)
    requires Valid(n)
    ensures Valid(r.net)
    ensures LayersKept(n, r.net) && |r.net.hidden| <= |n.hidden| + 1
    ensures n.conns.Keys <= r.net.conns.Keys <= n.conns.Keys + {n.nextId}
    ensures r.pos == pos + 3
  {
    var delta := NextSingle(rand(pos + 2)) * 2.0 - 1.0;
    MutateKeepsValid(n, rand(pos), rand(pos + 1), rand(pos + 2), delta);
    Drawn(Mutate(n, rand(pos), rand(pos + 1), rand(pos + 2), delta), pos + 3)
  }

  /** `Mix(_ais[i]); _ais[i].Mutate();` for a network other than the best. */
  function Evolve(k: Network, best: Network, rand: nat -> nat, pos: nat): (r: Drawn)
    requires Valid(k) && Valid(best)
    ensures Valid(r.net)
    ensures Toward(|k.hidden|, |best.hidden|) <= |r.net.hidden| <= Toward(|k.hidden|, |best.hidden|) + 1
    ensures OffsetsKept(k, r.net)
  {
    var m := Mix(k, best, rand, pos);
    var r := MutateDrawn(m.net, rand, m.pos);
    OffsetsThenLayers(k, m.net, r.net);
    r
  }

  lemma OffsetsThenLayers(a: Network, b: Network, c: Network)
    requires OffsetsKept(a, b) && LayersKept(b, c)
    ensures OffsetsKept(a, c)
  {
  }

  // ---------------------------------------------------------------------------
  // Best selection

  /** The scan of `Train` from network i on, with b the best index so far:
      a later network takes over only with a strictly greater score. */
  function BestFrom(scores: seq<int>, i: nat, b: nat): (r: nat)
    requires b < |scores| && b <= i <= |scores|
    requires forall j :: 0 <= j < i ==> scores[j] <= scores[b]
    requires forall j :: 0 <= j < b ==> scores[j] < scores[b]
    ensures r < |scores|
    ensures forall j :: 0 <= j < |scores| ==> scores[j] <= scores[r]
    ensures forall j :: 0 <= j < r ==> scores[j] < scores[r]
    decreases |scores| - i
  {
    if i == |scores| then b
    else if scores[i] > scores[b] then BestFrom(scores, i + 1, i)
    else BestFrom(scores, i + 1, b)
  }

  /** `bestIndex`: a network with the highest score, the first one when
      several share it. */
  function BestIndex(scores: seq<int>): (b: nat)
    requires |scores| > 0
    ensures b < |scores|
    ensures forall j :: 0 <= j < |scores| ==> scores[j] <= scores[b]
    ensures forall j :: 0 <= j < b ==> scores[j] < scores[b]
  {
    BestFrom(scores, 0, 0)
  }

  /** The two properties of BestIndex pin it down: the lowest index among
      the maximal scores is the only index that has them. */
  lemma BestIndexUnique(scores: seq<int>, c: nat)
    requires |scores| > 0 && c < |scores|
    requires forall j :: 0 <= j < |scores| ==> scores[j] <= scores[c]
    requires forall j :: 0 <= j < c ==> scores[j] < scores[c]
    ensures BestIndex(scores) == c
  {
    var b := BestIndex(scores);
    assert scores[c] <= scores[b] && scores[b] <= scores[c];
  }

  function Scores(nets: seq<Network>): (r: seq<int>)
    ensures |r| == |nets| && forall i :: 0 <= i < |nets| ==> r[i] == nets[i].score
  {
    seq(|nets|, i requires 0 <= i < |nets| => nets[i].score)
  }

  // ---------------------------------------------------------------------------
  // Sweeping a step over part of the population

  /** `for (i = lo; i < hi; ++i)` applying step to network i, each step
      reading its draws where the previous one stopped. */
  function Sweep(nets: seq<Network>, step: (Network, nat) --> Drawn, lo: nat, hi: nat, pos: nat): (r: Population)
    requires lo <= hi <= |nets|
    requires forall i, p :: lo <= i < hi ==> step.requires(nets[i], p)
    ensures |r.nets| == |nets|
    ensures forall i :: 0 <= i < |nets| && !(lo <= i < hi) ==> r.nets[i] == nets[i]
    decreases hi - lo
  {
    if lo == hi then Population(nets, pos)
    else
      var e := step(nets[lo], pos);
      Sweep(nets[lo := e.net], step, lo + 1, hi, e.pos)
  }

  /** Network i of the range is step applied once to what it was before, with
      the draws that follow those of the networks before it. */
  lemma {:induction false} SweepAt(nets: seq<Network>, step: (Network, nat) --> Drawn, lo: nat, hi: nat, pos: nat, i: nat)
    requires lo <= i < hi <= |nets|
    requires forall i, p :: lo <= i < hi ==> step.requires(nets[i], p)
    ensures step.requires(nets[i], Sweep(nets, step, lo, i, pos).pos)
    ensures Sweep(nets, step, lo, hi, pos).nets[i] == step(nets[i], Sweep(nets, step, lo, i, pos).pos).net
    decreases hi - lo
  {
    var e := step(nets[lo], pos);
    var nets' := nets[lo := e.net];
    if i > lo {
      SweepAt(nets', step, lo + 1, hi, e.pos, i);
      assert Sweep(nets, step, lo, i, pos) == Sweep(nets', step, lo + 1, i, e.pos);
    }
  }

  /** A step that maps every well-formed network to a well-formed one. */
  ghost predicate KeepsValid(step: (Network, nat) --> Drawn) {
    forall k, p :: Valid(k) ==> step.requires(k, p) && Valid(step(k, p).net)
  }

  lemma StepApplies(nets: seq<Network>, step: (Network, nat) --> Drawn, lo: nat, hi: nat)
    requires lo <= hi <= |nets| && AllValid(nets) && KeepsValid(step)
    ensures forall i, p :: lo <= i < hi ==> step.requires(nets[i], p)
  {
    forall i, p | lo <= i < hi ensures step.requires(nets[i], p) {
      assert ValidAt(nets, i);
    }
  }

  /** A sweep of a step that keeps networks well formed keeps the population
      well formed. */
  lemma SweepKeepsValid(nets: seq<Network>, step: (Network, nat) --> Drawn, lo: nat, hi: nat, pos: nat)
    requires lo <= hi <= |nets| && AllValid(nets) && KeepsValid(step)
    ensures forall i, p :: lo <= i < hi ==> step.requires(nets[i], p)
    ensures AllValid(Sweep(nets, step, lo, hi, pos).nets)
  {
    StepApplies(nets, step, lo, hi);
    var r := Sweep(nets, step, lo, hi, pos).nets;
    forall i | 0 <= i < |r| ensures ValidAt(r, i) {
      assert ValidAt(nets, i);
      if lo <= i < hi {
        SweepAt(nets, step, lo, hi, pos, i);
      }
    }
  }

  // ---------------------------------------------------------------------------
  // A generation

  /** `Mix(_ais[i]); _ais[i].Mutate();` as a step, with best the network of the
      highest score. */
  function EvolveStep(best: Network, rand: nat -> nat): (step: (Network, nat) --> Drawn)
    requires Valid(best)
    ensures KeepsValid(step)
  {
    (k: Network, p: nat) requires Valid(k) => Evolve(k, best, rand, p)
  }

  /** One pass of `Train` after the games: the best network is kept as it is
      and every other one is mixed with it and mutated, in index order. */
  function Generation(nets: seq<Network>, rand: nat -> nat, pos: nat): (r: Population)
    requires |nets| == PopulationSize && AllValid(nets)
    ensures |r.nets| == |nets| && AllValid(r.nets)
  {
    var b := BestIndex(Scores(nets));
    assert ValidAt(nets, b);
    var step := EvolveStep(nets[b], rand);
    SweepKeepsValid(nets, step, 0, b, pos);
    var first := Sweep(nets, step, 0, b, pos);
    SweepKeepsValid(first.nets, step, b + 1, |nets|, first.pos);
    Sweep(first.nets, step, b + 1, |nets|, first.pos)
  }

  /** Each generation, the best network is untouched and every other network
      is mixed with it and mutated exactly once. */
  lemma GenerationKeepsBest(nets: seq<Network>, rand: nat -> nat, pos: nat)
    requires |nets| == PopulationSize && AllValid(nets)
    ensures var b := BestIndex(Scores(nets));
      var r := Generation(nets, rand, pos).nets;
      r[b] == nets[b] &&
      forall i :: 0 <= i < |nets| && i != b ==>
        ValidAt(nets, i) && ValidAt(nets, b) && exists p :: r[i] == Evolve(nets[i], nets[b], rand, p).net
  {
    var b := BestIndex(Scores(nets));
    assert ValidAt(nets, b);
    var step := EvolveStep(nets[b], rand);
    SweepKeepsValid(nets, step, 0, b, pos);
    var first := Sweep(nets, step, 0, b, pos);
    SweepKeepsValid(first.nets, step, b + 1, |nets|, first.pos);
    var r := Generation(nets, rand, pos).nets;
    forall i | 0 <= i < |nets| && i != b
      ensures ValidAt(nets, i) && ValidAt(nets, b) && exists p :: r[i] == Evolve(nets[i], nets[b], rand, p).net
    {
      assert ValidAt(nets, i);
      if i < b {
        SweepEvolves(nets, nets[b], rand, 0, b, pos, i);
        assert r[i] == first.nets[i];
      } else {
        SweepEvolves(first.nets, nets[b], rand, b + 1, |nets|, first.pos, i);
        assert first.nets[i] == nets[i];
      }
    }
  }

  /** Within a sweep of EvolveStep, network i is mixed and mutated once. */
  lemma SweepEvolves(nets: seq<Network>, best: Network, rand: nat -> nat, lo: nat, hi: nat, pos: nat, i: nat)
    requires lo <= i < hi <= |nets| && AllValid(nets) && Valid(best)
    ensures forall j, p :: lo <= j < hi ==> EvolveStep(best, rand).requires(nets[j], p)
    ensures ValidAt(nets, i)
    ensures exists p :: Sweep(nets, EvolveStep(best, rand), lo, hi, pos).nets[i] == Evolve(nets[i], best, rand, p).net
  {
    var step := EvolveStep(best, rand);
    StepApplies(nets, step, lo, hi);
    assert ValidAt(nets, i);
    SweepAt(nets, step, lo, hi, pos, i);
  }

  // ---------------------------------------------------------------------------
  // Start-up

  /** `_ais[i].Mutate()` as a step. */
  function MutateStep(rand: nat -> nat): (step: (Network, nat) --> Drawn)
    ensures KeepsValid(step)
  {
    (k: Network, p: nat) requires Valid(k) => MutateDrawn(k, rand, p)
  }

  /** count networks equal to n, each well formed when n is. */
  function Copies(n: Network, count: nat): (r: seq<Network>)
    ensures |r| == count && forall i :: 0 <= i < count ==> r[i] == n
    ensures Valid(n) ==> AllValid(r)
  {
    var r := seq(count, i => n);
    assert Valid(n) ==> AllValid(r) by {
      if Valid(n) {
        forall i | 0 <= i < count ensures ValidAt(r, i) { }
      }
    }
    r
  }

  /** count copies of base, those from index first on mutated once each, in
      index order. */
  function Spawn(base: Network, count: nat, first: nat, rand: nat -> nat, pos: nat): (r: Population)
    requires Valid(base) && first <= count
    ensures |r.nets| == count && AllValid(r.nets)
    ensures forall i :: 0 <= i < first ==> r.nets[i] == base
  {
    var copies := Copies(base, count);
    SweepKeepsValid(copies, MutateStep(rand), first, count, pos);
    Sweep(copies, MutateStep(rand), first, count, pos)
  }

  /** Each network of Spawn from index first on is base mutated once. */
  lemma SpawnMutates(base: Network, count: nat, first: nat, rand: nat -> nat, pos: nat, i: nat) returns (p: nat)
    requires Valid(base) && first <= i < count
    ensures Spawn(base, count, first, rand, pos).nets[i] == MutateDrawn(base, rand, p).net
  {
    var copies := Copies(base, count);
    StepApplies(copies, MutateStep(rand), first, count);
    SweepAt(copies, MutateStep(rand), first, count, pos, i);
    p := Sweep(copies, MutateStep(rand), first, i, pos).pos;
  }

  /** `new AI(game)`: 100 blank networks, each mutated once. */
  function NewPopulation(rand: nat -> nat, pos: nat): (r: Population)
    ensures |r.nets| == PopulationSize && AllValid(r.nets)
  {
    Spawn(NewNetwork(), PopulationSize, 0, rand, pos)
  }

  /** `new AI(game, path, out success)` after a successful read: network 0 is
      the loaded one and each of the other 99 is loaded again and mutated
      once. loaded is the network the JSON reader produced. */
  function LoadPopulation(loaded: Network, rand: nat -> nat, pos: nat): (r: Population)
    requires Valid(Load(loaded))
    ensures |r.nets| == PopulationSize && AllValid(r.nets)
    ensures r.nets[0] == Load(loaded)
  {
    Spawn(Load(loaded), PopulationSize, 1, rand, pos)
  }

  /** Every network of a new population is a blank network mutated once. */
  lemma NewPopulationMutatesBlank(rand: nat -> nat, pos: nat, i: nat) returns (p: nat)
    requires i < PopulationSize
    ensures NewPopulation(rand, pos).nets[i] == MutateDrawn(NewNetwork(), rand, p).net
  {
    p := SpawnMutates(NewNetwork(), PopulationSize, 0, rand, pos, i);
  }

  /** So each starts with score 0, the fixed input offsets, at most one hidden
      neuron and at most the one connection with id 0. */
  lemma NewPopulationShape(rand: nat -> nat, pos: nat, i: nat)
    requires i < PopulationSize
    ensures StartShape(NewPopulation(rand, pos).nets[i])
  {
    var p := NewPopulationMutatesBlank(rand, pos, i);
    MutatedBlankShape(rand, p);
  }

  /** Score 0, the fixed input offsets, at most one hidden neuron and at most
      the one connection with id 0. */
  ghost predicate StartShape(n: Network) {
    n.score == 0 && |n.hidden| <= 1 && n.conns.Keys <= {0} && |n.inputs| == InputCount &&
    forall k :: 0 <= k < InputCount ==>
      (n.inputs[k].offsetX as int, n.inputs[k].offsetY as int) == Offset(k)
  }

  lemma MutatedBlankShape(rand: nat -> nat, p: nat)
    ensures StartShape(MutateDrawn(NewNetwork(), rand, p).net)
  {
    var n := MutateDrawn(NewNetwork(), rand, p).net;
    assert OffsetsKept(NewNetwork(), n);
  }

  /** Networks 1 to 99 of a loaded population are the loaded network mutated
      once each. */
  lemma LoadPopulationMutatesLoaded(loaded: Network, rand: nat -> nat, pos: nat, i: nat) returns (p: nat)
    requires Valid(Load(loaded)) && 1 <= i < PopulationSize
    ensures LoadPopulation(loaded, rand, pos).nets[i] == MutateDrawn(Load(loaded), rand, p).net
  {
    p := SpawnMutates(Load(loaded), PopulationSize, 1, rand, pos, i);
  }

  /** Reading back a saved network: when the JSON reader returns the lists,
      counters and weights of a well-formed network, and the 0 activation
      indices and score the writer left it, network 0 of the new population
      is that network with those two at 0. */
  lemma LoadPopulationRestores(loaded: Network, saved: Network, rand: nat -> nat, pos: nat)
    requires Valid(saved)
    requires loaded.inputs == saved.inputs && loaded.hidden == Written(saved).hidden && loaded.output == saved.output
    requires loaded.nextId == saved.nextId && loaded.maxLayer == saved.maxLayer && loaded.score == 0
    requires loaded.conns.Keys == saved.conns.Keys
    requires forall id :: id in loaded.conns ==> loaded.conns[id].weight == saved.conns[id].weight
    ensures Valid(Load(loaded))
    ensures LoadPopulation(loaded, rand, pos).nets[0] == Written(saved)
  {
    LoadRestoresSaved(loaded, saved);
  }
}

=== FILE: wrappers.dfy ===
/** The optional value shared by the network and game modules. */
module Wrappers {

  datatype Option<T> = None | Some(value: T)
}
